=== FILE: README.md ===
# ARC-方舟 site scripts, modelled in Dafny

This project models the browser scripts of the ARC-方舟 static site:

- the formatting helpers `ARC_FMT`;
- the data loader `ARC_FETCH`;
- the DOM builders `ARC_DOM`;
- the site-wide helpers `ARC` (`app.js`);
- the logic of the article list page, the team page and the article page.

Every operation is a pure function over an immutable model:

- JSON values are the `Js.Json` datatype. JavaScript's truthiness, `||`, property reads and `String(v)` are spelled out in `Js`.
- A DOM element is the `Dom.Node` datatype. It holds the tag, the attributes, the dataset, the listeners and the children.
- The browser's `fetch` is a parameter (`Fetch.Transport`). It maps a URL and an options object to a response or a network error.
- `encodeURIComponent`, the query string, `localeCompare` and the card builders of the list pages are parameters too.
- A thrown exception is the `Err` case of `Js.Result`. A page whose handler throws records the error in its `raised` field.

Modules:

- `Js` and `Seqs` are the JavaScript value model and generic sequence facts.
- `Strings` holds trimming, lower-casing, `includes`, `join` and `replaceAll`.
- `Escape` is the HTML escaper. The same five chained `replaceAll` calls appear as `DOM.escapeHtml`, `ARC.escapeHtml`, the local escaper of `FMT.blocksToHTML` and the article page's own fallback, so it is written once.
- `Format` models `format.js`. `Blocks` models `FMT.blocksToHTML`, together with a reader that parses its output back.
- `Fetch` models `fetch.js`.
- `Dom` models `DOM.el` and the UI primitives. `Cards` models `DOM.teamCard` and `DOM.articleCard`.
- `ArticlesPage`, `TeamPage` and `ArticlePage` model the three page scripts.
- `App` models `app.js`. A document is a map from element id to its text, `href` and `src`.

## Model

| member | source | states |
|---|---|---|
| Format.TrimValue | assets/js/utils/format.js:18-20 | The result has no surrounding whitespace. A falsy value gives "". A string gives its trimmed self. |
| Format.Normalize | assets/js/utils/format.js:22-24 | A falsy value gives "". The result is trimmed and has no upper-case letter. It is the lower-cased form of the trimmed string. |
| Format.NormalizeIdempotent | assets/js/utils/format.js:22-24 | Normalising an already normalised string changes nothing. |
| Format.Ellipsis | assets/js/utils/format.js:26-31 | A string within the limit comes back unchanged. The limit is 120 when `max` is not a number. A longer string is cut to max(limit, 1) characters. The last of them is "…" and the rest are a prefix of the input. |
| Format.KeysMembers | assets/js/utils/format.js:65-71 | A key is collected iff it is non-empty and some item trims to it. |
| Format.KeysSkipFalsy | assets/js/utils/format.js:61 | Dropping the falsy items first (`filter(Boolean)`) does not change the keys. |
| Format.KeysClean | assets/js/utils/format.js:66-67 | Every collected key is trimmed and non-empty. |
| Format.UniqueTags | assets/js/utils/format.js:60-71 | The de-duplicated keys are distinct, trimmed and non-empty. |
| Format.Tags | assets/js/utils/format.js:60-75 | The tags are distinct, trimmed and non-empty. A non-array gives []. With a numeric limit n the result has exactly min(n, number of unique keys) tags, none when n <= 0. Without a limit every unique key is returned. The result is always a prefix of the unique keys. |
| Format.TagsMembers | assets/js/utils/format.js:60-75 | Without a limit, x is a tag iff x is non-empty and some array item trims to x. |
| Format.TagsFirstOccurrence | assets/js/utils/format.js:62-71 | The tags keep the order in which each key first occurs among the items. |
| Format.TagsDocExample | assets/js/utils/format.js:7 | The documented call `tags(["新手","入門"], 2)` returns both tags. |
| Format.CollectTags | assets/js/utils/format.js:77-86 | The collected tags are distinct. A non-array argument gives []. |
| Format.CollectTagsOrder | assets/js/utils/format.js:77-86 | The tags are trimmed and non-empty. They follow the first occurrence of each key across all articles' tags. |
| Format.CollectTagsMembers | assets/js/utils/format.js:77-86 | x is collected iff x is non-empty and some article has a tag that trims to x. |
| Format.AllTagKeysMembers | assets/js/utils/format.js:79-84 | A key appears in the walk over all articles iff it comes from the tags of one article. |
| Format.AddTagKeys | assets/js/utils/format.js:80-83 | The inner loop appends exactly the keys not yet seen, in order. The seen set grows by exactly the keys of this article. |
| Format.CollectTagsLoop | assets/js/utils/format.js:77-86 | The nested loops with a seen set return exactly the first-occurrence de-duplication of every article's keys. |
| Format.PersonLine | assets/js/utils/format.js:91-96 | The line is empty iff both the trimmed name and the trimmed role are empty. |
| Format.PersonLineSplits | assets/js/utils/format.js:94 | With both parts present, the line is the trimmed name, "｜", then the trimmed role. When the name holds no "｜", that separator is the first one, so the line splits back into the name and the role. |
| Format.PersonLineOnePart | assets/js/utils/format.js:95 | With one part empty the line is the other part. |
| Blocks.BlockType | assets/js/utils/format.js:114 | The type raises iff the block is nullish or its truthy `type` is not a string. The result has no upper-case letter. A missing type gives "p". |
| Blocks.BlocksToHtml | assets/js/utils/format.js:103-131 | A string gives one paragraph of its escaped text. A value that is neither an array nor a string gives "". |
| Blocks.BlockHtml | assets/js/utils/format.js:113-123 | A block raises a TypeError iff it is null or undefined, or its `type` is truthy but not a string. A block without a type is a paragraph holding its escaped text. |
| Blocks.BlocksHtmlFailsIff | assets/js/utils/format.js:112-124 | The array conversion raises iff some block's type raises. |
| Blocks.ItemsHtmlIsRender | assets/js/utils/format.js:119 | The list items are the rendering of their escaped texts. |
| Blocks.BlockHtmlIsRender | assets/js/utils/format.js:113-123 | One block's HTML is the rendering of an independent fragment (heading, quote, list or paragraph), with the same error. |
| Blocks.BlocksHtmlIsRender | assets/js/utils/format.js:112-124 | The joined HTML of an array is the rendering of its fragment list, with the same error. |
| Blocks.BlocksToHtmlIsRender | assets/js/utils/format.js:103-131 | The conversion equals the rendering of the fragments, and fails exactly when they do. |
| Blocks.ReadItemsOf | assets/js/utils/format.js:119 | Rendered list items read back as the same texts. |
| Blocks.ParseRenderAll | assets/js/utils/format.js:112-124 | Parsing the rendering of any fragment list gives the list back. |
| Blocks.BlocksReadBack | assets/js/utils/format.js:103-131 | Whenever the conversion succeeds, parsing its HTML yields the blocks' fragments, so no content is lost or confused. |
| Escape.Entities | assets/js/utils/dom.js:61-68 | The escaped text contains no `<`, `>`, `"` or `'`. |
| Escape.EscapeHtml | assets/js/utils/dom.js:61-68 | A falsy value gives "". No markup character survives. |
| Escape.EntitiesAppend | assets/js/utils/dom.js:62-67 | Escaping distributes over concatenation. |
| Escape.EntitiesIsSinglePass | assets/js/utils/dom.js:63-67 | Because the ampersand pass runs first, the five chained passes equal a one-pass escaper that replaces each character on its own. |
| Escape.UnescapeEscape | assets/js/utils/dom.js:61-68 | Decoding the five entities of the escaped string gives the string back. |
| Escape.UnescapeEscapeEach | assets/js/utils/dom.js:61-68 | The one-pass escaper is inverted by the same decoder. |
| Escape.EscapeNotIdempotent | assets/js/utils/dom.js:63 | Escaping twice is not escaping once: "&" gives "&amp;", and that gives "&amp;amp;". |
| Fetch.Options | assets/js/utils/fetch.js:16-25 | The options passed on are always truthy. They are the caller's options when truthy, else `{ cache: "no-store" }`. |
| Fetch.Request | assets/js/utils/fetch.js:24-30 | The request succeeds iff the transport answers with a 2xx status. It then yields that response. A network error propagates unchanged. |
| Fetch.GetJson | assets/js/utils/fetch.js:24-43 | `json` succeeds iff the transport answers with a 2xx status and a body that parses, and then returns that body. A network error propagates unchanged. A non-2xx status raises FETCH_FAILED with the URL, status and status text. A 2xx body that is not JSON raises JSON_PARSE_FAILED with the URL. |
| Fetch.GetText | assets/js/utils/fetch.js:24-48 | `text` succeeds iff the transport answers with a 2xx status, and then returns the body text. A network error propagates unchanged. A non-2xx status raises FETCH_FAILED with the URL, status and status text. |
| Fetch.FalsyOptionsMeanNoStore | assets/js/utils/fetch.js:36-48 | Falsy options behave exactly like `{ cache: "no-store" }`, for `json` and for `text`. |
| Fetch.SafeJson | assets/js/utils/fetch.js:50-56 | `safeJson` is the parsed body when `json` succeeds, else the fallback. |
| Fetch.SafeText | assets/js/utils/fetch.js:58-64 | `safeText` is the body text when `text` succeeds, else the fallback. |
| Fetch.SafeJsonIsBodyOrFallback | assets/js/utils/fetch.js:50-56 | The result is the fallback or the body of a 2xx response, and never anything else. |
| Fetch.ListUnder | assets/js/utils/fetch.js:72-82 | An array is returned as is. Otherwise an array under the key is returned, and anything else gives []. |
| Fetch.TeamMembers | assets/js/utils/fetch.js:72-76 | A team file is accepted as a bare array or as `{ members: [...] }`. Anything else gives no members. |
| Fetch.ArticleList | assets/js/utils/fetch.js:78-82 | An index is accepted as a bare array or as `{ articles: [...] }`. Anything else gives no articles. |
| Fetch.ListUnderShapes | assets/js/utils/fetch.js:72-82 | Both accepted shapes, a bare array and `{ members/articles: [...] }`, give the same list. |
| Fetch.ListUnderIdempotent | assets/js/utils/fetch.js:72-82 | Normalising an already normalised list changes nothing. |
| Fetch.ListUnderOtherwiseEmpty | assets/js/utils/fetch.js:74-75 | For a non-array, a non-empty result comes only from an object whose field holds a non-empty array. |
| Fetch.BundleEntries | assets/js/utils/fetch.js:95-97 | The entries are the object's own keys, each mapped to `String` of its URL. A falsy map has none. |
| Fetch.LoadAll | assets/js/utils/fetch.js:96-104 | Loading all entries succeeds iff every load succeeds. The result has exactly the entry keys, each holding its loaded value. A failure is the error of some entry. |
| Fetch.LoadBundle | assets/js/utils/fetch.js:94-105 | As LoadAll, with `json(url)` as the loader. A falsy map gives `{}`. |
| Dom.El | assets/js/utils/dom.js:16-49 | A built element has the requested tag. |
| Dom.AppendItemsSpec | assets/js/utils/dom.js:37-41 | Appending the children succeeds iff each is nullish, a string or a node, and otherwise raises a TypeError. The element then gains the non-nullish ones in order, with strings as text. |
| Dom.SkipNullishAttr | assets/js/utils/dom.js:21 | An undefined or null attribute has no effect at all. |
| Dom.ClassAttr | assets/js/utils/dom.js:23 | A `class` entry sets the class attribute after any earlier entries. Nothing else changes. |
| Dom.TextAttr | assets/js/utils/dom.js:24 | A `text` entry replaces the children with one text node, or none for "". Nothing else changes. |
| Dom.HtmlAttr | assets/js/utils/dom.js:25 | An `html` entry replaces the children with the markup, or none for "". Nothing else changes. |
| Dom.LiteralAttr | assets/js/utils/dom.js:31-32 | Any other key sets an attribute, with its name lower-cased, to the value's string form, after any earlier entries. Nothing else changes. |
| Dom.ListenerAttr | assets/js/utils/dom.js:28-30 | An `on…` key with a function adds a listener, after the earlier ones, for the event named by the rest of the key. Nothing else changes. |
| Dom.DatasetAttr | assets/js/utils/dom.js:26-27 | A `dataset` object merges its own entries into the dataset. Nothing else changes. |
| Dom.AttrsFromKeys | assets/js/utils/dom.js:19-35 | Every attribute of the result was already there or comes from one of the given keys. |
| Dom.StringChild | assets/js/utils/dom.js:42-43 | A string as the children argument becomes the text content. |
| Dom.NodeChild | assets/js/utils/dom.js:44-45 | A single node as the children argument is appended after the children the attributes set. |
| Dom.IgnoredChild | assets/js/utils/dom.js:37-46 | A children argument that is not an array, a string or a node is ignored. |
| Dom.DataChild | assets/js/utils/dom.js:37-46 | JSON data as the children argument raises a TypeError iff it is an array with an entry that is neither nullish nor a string. |
| Dom.PillClassesVariants | assets/js/utils/dom.js:74-79 | The variants accent, warn and danger add their class. Any other variant gives only "pill". |
| Dom.Pill | assets/js/utils/dom.js:74-81 | A pill is a `span` with the joined classes and the text, "" when falsy, and nothing else. |
| Dom.ButtonLink | assets/js/utils/dom.js:83-99 | A truthy `href` that is not a string raises. That, and an array caption, are the only ways it fails. |
| Dom.ButtonLinkAttrs | assets/js/utils/dom.js:84-96 | The classes, an `href` defaulting to "#", and `target`/`rel` exactly when the URL starts with "http". |
| Dom.ButtonLinkText | assets/js/utils/dom.js:83-99 | A string caption becomes the link text, "連結" when empty. |
| Dom.EmptyState | assets/js/utils/dom.js:101-116 | The box builds iff neither the title nor a truthy detail is an array holding an entry `appendChild` rejects. Otherwise it raises a TypeError. The box is a `div` of class "card". It holds a second child exactly when the detail is truthy. |
| Dom.EmptyStateText | assets/js/utils/dom.js:108-113 | The title reads "沒有資料" when empty. The detail is shown as given. |
| Cards.Field | assets/js/utils/dom.js:124-127 | A truthy field is used as is, otherwise its default. |
| Cards.TeamPills | assets/js/utils/dom.js:143 | At most three tag pills. Even positions are accent and odd positions are warn. |
| Cards.LinkNode | assets/js/utils/dom.js:149-157 | A link raises iff its URL, or "#" when falsy, is not a string. |
| Cards.LinkNodes | assets/js/utils/dom.js:148-158 | The built links correspond one to one with the given links. |
| Cards.LinkNodesFail | assets/js/utils/dom.js:148-158 | The link row raises iff some link is bad. |
| Cards.LinkNodeSpec | assets/js/utils/dom.js:149-157 | A link is an anchor of class "team-link" carrying the URL. `target`/`rel` are set only for URLs starting with "http". The label defaults to "連結". |
| Cards.NewTabIfSpec | assets/js/utils/dom.js:154-155 | Null `target`/`rel` values leave the anchor untouched. |
| Cards.PictureSpec | assets/js/utils/dom.js:131-135 | The avatar carries `src`, `alt` and an error listener. |
| Cards.RoleRowSpec | assets/js/utils/dom.js:141-144 | The role row is the role span followed by the tag pills. |
| Cards.MemberMetaSpec | assets/js/utils/dom.js:139-145 | The meta block is the name, then the role row. |
| Cards.MemberTopSpec | assets/js/utils/dom.js:137-146 | The top block is the avatar box, then the meta block. |
| Cards.MemberCardSpec | assets/js/utils/dom.js:160-164 | The card is the top block, the bio and the link row. |
| Cards.TeamCard | assets/js/utils/dom.js:123-165 | A team card raises a TypeError iff one of its first three links has a url that is not a string. Otherwise it has the whole documented tree, with the defaults "未命名", "—", "（尚未填寫簡介）" and the default avatar, and one link per entry among the first three. |
| Cards.AccentPills | assets/js/utils/dom.js:188 | One accent pill per tag, in order. |
| Cards.MetaPills | assets/js/utils/dom.js:186-189 | A date pill, only when the date is truthy, then at most two accent tag pills. |
| Cards.MetaItemsFiltered | assets/js/utils/dom.js:186-189 | `filter(Boolean)` drops exactly the missing date. |
| Cards.MetaRowSpec | assets/js/utils/dom.js:186-189 | The meta row holds exactly the meta pills. |
| Cards.ReadLinkSpec | assets/js/utils/dom.js:192 | The read link is an `article-read` anchor labelled "閱讀全文". |
| Cards.IdHintSpec | assets/js/utils/dom.js:193-196 | The hint reads "ID：" and then the id, or "N/A" when the id is falsy. |
| Cards.ActionsSpec | assets/js/utils/dom.js:191-197 | The actions row is the read link, then the id hint. |
| Cards.CoverBoxSpec | assets/js/utils/dom.js:207 | The cover box holds the cover picture. |
| Cards.ArticleBodySpec | assets/js/utils/dom.js:199-204 | The body is the title, the meta row, the excerpt and the actions, in that order. |
| Cards.ReadHrefOfField | assets/js/utils/dom.js:173 | The read link carries the encoded string form of the id, "" when the id is falsy. |
| Cards.ArticleCard | assets/js/utils/dom.js:172-210 | An article card is the cover box and the body, with the defaults "未命名文章" and "（尚未填寫摘要）". Its link is `./article.html?id=` plus the encoded id. |
| ArticlesPage.HayParts | assets/js/utils/pages/articles.js:136-140 | The searched fields are the title, the excerpt and one per tag. |
| ArticlesPage.MatchArticleFromField | assets/js/utils/pages/articles.js:135-142 | A query found in one normalised field matches the article. |
| ArticlesPage.MatchArticleOnlyFields | assets/js/utils/pages/articles.js:135-142 | For a query without a space, a match lies inside a single field. |
| ArticlesPage.MatchEmptyQuery | assets/js/utils/pages/articles.js:141 | The empty query matches every article. |
| ArticlesPage.ApplyFilter | assets/js/utils/pages/articles.js:144-156 | The filter never adds articles. With the "全部" facet and an empty query it keeps all of them. |
| ArticlesPage.ApplyFilterIsOneFilter | assets/js/utils/pages/articles.js:144-156 | The two successive filters are one filter by "has the active tag, and matches the query". |
| ArticlesPage.ApplyFilterSpec | assets/js/utils/pages/articles.js:144-156 | The result is a subsequence of the original list. An article is kept iff it is in the list, has the active tag (unless "全部") and matches a non-empty query. |
| ArticlesPage.BuildChips | assets/js/utils/pages/articles.js:112-121 | There is one chip for "全部" followed by one per tag. A chip is active iff its text is the active tag. |
| ArticlesPage.ChipsFor | assets/js/utils/pages/articles.js:118-121 | One chip per tag, active exactly for the active tag. |
| ArticlesPage.ClickChip | assets/js/utils/pages/articles.js:123-128 | Clicking chip i makes its text the active tag and leaves exactly chip i active. |
| ArticlesPage.ClickMatchesRebuild | assets/js/utils/pages/articles.js:117-128 | With distinct chip texts, the chips after a click equal the chips rebuilt for the new active tag. |
| ArticlesPage.ClickedChipAt | assets/js/utils/pages/articles.js:117-128 | The same, one chip at a time. |
| ArticlesPage.ChipAt | assets/js/utils/pages/articles.js:117-120 | Chip j shows the j-th of "全部" and the tags. |
| ArticlesPage.PrepareClean | assets/js/utils/pages/articles.js:174-175 | Re-trimming and dropping empty strings leaves already collected tags unchanged. |
| ArticlesPage.ChipTagsPermutation | assets/js/utils/pages/articles.js:173-176 | The sorted chip tags are a permutation of the collected tags. x is a chip tag iff x is non-empty and some article has a tag that trims to x. |
| ArticlesPage.CountHintReadsBack | assets/js/utils/pages/articles.js:55-62 | Both branches print the length. The hint's digits parse back to the number of articles shown. |
| ArticlesPage.RenderList | assets/js/utils/pages/articles.js:50-69 | The empty state shows iff the list is empty. There is one card per article, in order. |
| ArticlesPage.InitFailedLoad | assets/js/utils/pages/articles.js:158-180 | A failed index load gives no articles, the hint "0 篇", the empty state and only the "全部" chip, which is active. |
| ArticlesPage.Init | assets/js/utils/pages/articles.js:158-186 | The articles are the index normalised by `articleList`, or none when the load fails. The chips are built from the collected, prepared and sorted tags, with "全部" first and active. The initial render shows the whole list, one card per article, exactly as an unfiltered search would. |
| TeamPage.MemberParts | assets/js/utils/pages/team.js:107-112 | The searched fields are the name, the role, the bio and one per tag. |
| TeamPage.MatchMemberFromField | assets/js/utils/pages/team.js:106-114 | A query found in one normalised field matches the member. |
| TeamPage.MatchMemberOnlyFields | assets/js/utils/pages/team.js:106-114 | For a query without a space, a match lies inside a single field. |
| TeamPage.Search | assets/js/utils/pages/team.js:135-139 | An empty normalised query gives every member. A search never adds members. |
| TeamPage.SearchSpec | assets/js/utils/pages/team.js:135-139 | The result is a subsequence of the members. For a non-empty query, a member is kept iff it matches. |
| TeamPage.CountHintReadsBack | assets/js/utils/pages/team.js:48-55 | Both branches print the length. The hint's digits parse back to the number of members shown. |
| TeamPage.MapOrRaise | assets/js/utils/pages/team.js:59-62 | A map that completes has one result per element, each the element's own result. |
| TeamPage.MapOrRaiseFails | assets/js/utils/pages/team.js:59-62 | The map raises iff some element raises, and then with the error of the first such element. |
| TeamPage.RenderList | assets/js/utils/pages/team.js:43-62 | The empty state shows iff the list is empty. The hint is set in every case. A raising card leaves the grid empty. |
| TeamPage.RenderListCards | assets/js/utils/pages/team.js:59-62 | The render raises iff some member's card raises. Otherwise card i is member i's card. |
| TeamPage.LoadMembers | assets/js/utils/pages/team.js:127-128 | A failed load gives no members. |
| TeamPage.FailedLoadRendersEmpty | assets/js/utils/pages/team.js:127-131 | A failed load renders the empty state with "0 位成員". |
| TeamPage.AfterSearch | assets/js/utils/pages/team.js:127-139 | When the first render raised, the listener was never attached and the page stays as it was. Otherwise the members found are rendered, one card each, and this never raises. |
| TeamPage.FoundCardsBuild | assets/js/utils/pages/team.js:131-138 | When every member's card builds, so does every card a search finds. |
| TeamPage.ClearedSearchIsInitial | assets/js/utils/pages/team.js:136-137 | Clearing the box, or typing only spaces, renders exactly what `init` rendered. |
| ArticlePage.FullUrl | assets/js/utils/pages/article.js:134 | The full-text URL is `../content/articles/`, then the encoded id, then `.json`, so the id can be cut back out. |
| ArticlePage.FullUrlDistinct | assets/js/utils/pages/article.js:134 | Ids with different encodings get different full-text URLs. |
| ArticlePage.FindById | assets/js/utils/pages/article.js:117 | A found entry is in the list, has the id and is an object. A lookup that raises raises a TypeError. |
| ArticlePage.FindByIdNone | assets/js/utils/pages/article.js:117 | The lookup finds nothing iff no entry is nullish and none has the id. |
| ArticlePage.FindByIdRaises | assets/js/utils/pages/article.js:117 | The lookup raises iff a nullish entry comes before any entry with the id. |
| ArticlePage.FindByIdFirst | assets/js/utils/pages/article.js:117 | A found entry is the first with the id. Every entry before it is present and different. |
| ArticlePage.FindByIdSpec | assets/js/utils/pages/article.js:117 | The three cases of the lookup together. |
| ArticlePage.Merge | assets/js/utils/pages/article.js:144 | The merged article is an object with the keys of both. |
| ArticlePage.MergeField | assets/js/utils/pages/article.js:144 | A field of the full text wins over the metadata's. |
| ArticlePage.MergeKeepsMeta | assets/js/utils/pages/article.js:144 | Merging with an empty object, or with the metadata itself, gives the metadata. |
| ArticlePage.LeadPills | assets/js/utils/pages/article.js:57-58 | There is one pill per truthy date and author. The date's pill comes first and the author's last, each holding the escaped value. |
| ArticlePage.TagPills | assets/js/utils/pages/article.js:60-64 | There are at most six tag pills. Pill i shows tag i in the accent class. |
| ArticlePage.MetaPills | assets/js/utils/pages/article.js:55-64 | There are never more than eight pills. |
| ArticlePage.MetaPillsSpec | assets/js/utils/pages/article.js:55-66 | The date and author pills come first, then the first six tags in order. |
| ArticlePage.RenderMeta | assets/js/utils/pages/article.js:52-67 | The meta line is empty iff there is no date, no author and no tag. A truthy date's pill comes first. |
| ArticlePage.PillTextReadsBack | assets/js/utils/pages/article.js:57-62 | A pill's inner text is the escaped value. It holds no `<`, and decodes back to the value's string form. |
| ArticlePage.FallbackContent | assets/js/utils/pages/article.js:78-98 | The fallback renderer's loop produces exactly what `FMT.blocksToHTML` produces, including the same TypeError. |
| ArticlePage.ShowMeta | assets/js/utils/pages/article.js:126-131 | Showing the metadata never touches the content or the error box. |
| ArticlePage.ShowArticle | assets/js/utils/pages/article.js:146-150 | Showing the merged article keeps the document title, the content and the error box. |
| ArticlePage.Init | assets/js/utils/pages/article.js:101-152 | Without the fetch helpers or an id nothing is fetched and nothing raises. Otherwise the index is fetched first. The full text is requested iff the index lists the id. A null entry reached before a match makes the lookup raise a TypeError, leaving the page untouched after the index request. |
| ArticlePage.Found | assets/js/utils/pages/article.js:126-151 | Once the metadata is found, exactly the index and the full text are fetched. |
| ArticlePage.ShowFull | assets/js/utils/pages/article.js:146-151 | Rendering raises iff the content conversion raises. Otherwise the content is the converted HTML. The error box is kept. |
| ArticlePage.InitWithoutFetch | assets/js/utils/pages/article.js:102-106 | Without the fetch helpers only the title "載入失敗" and the error message change. |
| ArticlePage.InitWithoutId | assets/js/utils/pages/article.js:108-112 | Without an id only the title "找不到文章 ID" and the error message change. |
| ArticlePage.InitNotFound | assets/js/utils/pages/article.js:114-124 | An index that does not list the id reads as "找不到文章". Only the index is requested, the escaped id is in the message, and nothing else changes. |
| ArticlePage.IndexFailsIsNotFound | assets/js/utils/pages/article.js:115-117 | A failed index load lists nothing, so it reads as not found. |
| ArticlePage.InitFound | assets/js/utils/pages/article.js:113-131 | An id the index lists continues with that entry. |
| ArticlePage.FoundNoFullText | assets/js/utils/pages/article.js:133-141 | A full text that fails to load or is falsy, `null` for example, keeps the metadata view and reports the escaped URL and id. |
| ArticlePage.FoundShown | assets/js/utils/pages/article.js:143-151 | With a full text, its truthy title wins over the metadata's. The content is the merged article's converted blocks. |
| ArticlePage.ShowFullTitle | assets/js/utils/pages/article.js:146 | The shown title is the full text's truthy title, else the one already shown. |
| App.Normalize | assets/js/app.js:26-28 | `ARC.normalize` agrees with `FMT.normalize` on every input. The result is the lower-cased, trimmed string form, so it is trimmed and has no upper-case letter. A falsy value gives "". |
| App.EscapeHtmlIsOnePass | assets/js/app.js:30-37 | `ARC.escapeHtml` is the one-pass escaper and decodes back to its input's string form. |
| App.Set | assets/js/app.js:39-67 | A setter reports success iff the element exists and the value is a string that is not blank. The set of elements never changes. |
| App.SetSpec | assets/js/app.js:39-67 | On success the target property is assigned the trimmed value, which is non-empty. Every other property is unchanged. A failed call changes nothing. The model records the value assigned; a browser reads `href` and `src` back as resolved absolute URLs. |
| App.SetIdempotent | assets/js/app.js:39-67 | Setting the same value twice is setting it once. |
| App.ParamGet | assets/js/app.js:73-76 | There is no value iff no pair has the key. |
| App.GetParam | assets/js/app.js:73-76 | The value is the parameter's value when present, else the fallback. |
| App.GetParamFirst | assets/js/app.js:74 | The value is the first pair with the key. |
| App.FetchJsonErrors | assets/js/app.js:83-92 | A network error propagates. A non-2xx status raises FETCH_JSON_FAILED with the status and URL. A body that is not JSON raises a SyntaxError. |
| App.SafeFetchJson | assets/js/app.js:94-100 | The result is the parsed body when `fetchJSON` succeeds, else the fallback. |
| App.FetchJsonAgreesWithJson | assets/js/app.js:83-100 | `fetchJSON` succeeds exactly when `ARC_FETCH.json` with default options does, with the same value. |
| App.SetIf | assets/js/app.js:110-125 | A guarded setter call never adds or removes elements. |
| App.SetIfOnly | assets/js/app.js:110-125 | One step of `applySite` touches only its own element and property. |
| App.SetIfOwn | assets/js/app.js:110-125 | One step sets its target to the trimmed site field exactly when the setter accepts it. |
| App.ApplySite | assets/js/app.js:106-132 | The elements stay the same. A falsy site changes nothing. |
| App.ApplySiteTargets | assets/js/app.js:106-125 | Each property ends up holding its mapped site field, trimmed, when the setter accepts it. Otherwise it keeps its value. Properties with no mapping are untouched. |
| App.InviteUrlTargets | assets/js/app.js:119-123 | An accepted `inviteUrl` becomes the invite link's text and both invite buttons' `href`. |
| App.Bootstrap | assets/js/app.js:134-142 | A successful load returns the loaded site, and the page gets that site applied. A failed load leaves the page alone and returns null. |

## Left out

- Numbers are unbounded integers (`JNum(int)`). Fractions, NaN and infinities are not modelled, and neither is the `Number.isFinite` test on non-integral values.
- `toLowerCase` is modelled on ASCII letters only. Full Unicode case mapping is outside the model.
- `DOM.el`: dataset keys are stored as given, without the browser's camel-case conversion. Element identity, so appending the same node twice, is not modelled.
- `String(v)` of a function value is not modelled: JSON data has no functions. Image error handlers are kept only as their source text.
- `DOM.clear` and `DOM.fragment` are plain node moves with no data logic. They are folded into the page models as "the grid holds exactly these cards".
- `loadBundle`: requests run concurrently and the first rejection wins. The model loads the entries one at a time in an unspecified order. On failure it reports the error of some failing entry, without a timing model.
- `FMT.date` and `FMT.year` read the clock and the locale. `bootstrap` setting the footer year, and `document.title` beyond the recorded field, are left out for the same reason.
- `ARC.copyText` (assets/js/app.js:147-165) and the copy-link button of the article page (assets/js/utils/pages/article.js:155-169) use the clipboard.
- The innerHTML fallback cards of the list pages (assets/js/utils/pages/articles.js:72-106, assets/js/utils/pages/team.js:65-101) are only used when `dom.js` is missing. The model assumes `DOM` and `FMT` are present on the list pages. It follows `FMT.blocksToHTML` on the article page and proves the fallback renderer equal to it.
- `ARC.$`, `ARC.$$`, `ARC.qs` and the `window` exports are thin wrappers over the browser. `ARC.qs` is replaced by the list of query pairs that `GetParam` takes.
- `encodeURIComponent` and `localeCompare(…, "zh-Hant")` are parameters. The chip sort is a stable insertion sort over that comparator, so only permutation and membership are proved, not the locale order.
- Missing optional elements (`#countHint`, `#title`, `#error` and the like) are treated as present. A missing `#list`/`#teamGrid` makes `init` do nothing, which is not modelled.
- The list pages' branch for a missing `ARC_FETCH` ("載入失敗（缺少 fetch.js）") is not modelled. The article page's is modelled (`ArticlePage.InitWithoutFetch`).
- The transient "載入中…" hint is overwritten by `renderList` before `init` returns, so only the final hint is modelled.
- Dom.ButtonLink: states the error cases only as "a non-string truthy href, or an array caption". It does not say which array captions raise, because that depends on each element being a node.
- Dom.El: its own contract states only that the tag is kept. The lemmas `ClassAttr`, `TextAttr`, `HtmlAttr`, `DatasetAttr`, `ListenerAttr`, `LiteralAttr` and `SkipNullishAttr` state each kind of attribute entry after any earlier entries. `AppendItemsSpec`, `DataChild`, `StringChild`, `NodeChild` and `IgnoredChild` state each kind of children argument.
- Format.Ellipsis: strings are sequences of Unicode scalar values, so the length test and the cut count code points, not UTF-16 code units. Text outside the Basic Multilingual Plane is cut at a different place than in a browser, and a cut that splits a surrogate pair cannot happen.
- Js.OwnProps: the index keys of a string are counted per code point, not per UTF-16 code unit, for the same reason.

=== FILE: app.dfy ===
/**
 * The site-wide helpers of `app.js` (`window.ARC`): the guarded element
 * setters, query-string lookup, its own JSON fetch and the site bootstrap
 * that copies `site.json` fields into the page. The document is a map from
 * element id to the three properties the setters write.
 */
module App {
  import opened Js
  import opened Strings
  import opened Escape
  import opened Format
  import opened Fetch

  /**
   * `ARC.normalize(s)`: `(s || "").toString().toLowerCase().trim()`. Trimming
   * and lower-casing commute, so the result is also the lower-cased trimmed
   * string, which is how `FMT.normalize` is read.
   */
  function Normalize(v: Json): (r: string)
    ensures r == Lower(Trim(OrEmptyString(v)))
    ensures IsTrimmed(r) && HasNoUpper(r)
    ensures !Truthy(v) ==> r == ""
    ensures r == Format.Normalize(v)
  {
    LowerTrimCommute(OrEmptyString(v));
    Trim(Lower(OrEmptyString(v)))
  }

  /**
   * `ARC.escapeHtml(s)` is the same chain of five `replaceAll` calls as
   * `DOM.escapeHtml`; it acts as a single left-to-right pass and can be
   * undone.
   */
  lemma EscapeHtmlIsOnePass(v: Json)
    ensures EscapeHtml(v) == EscapeEach(OrEmptyString(v))
    ensures Unescape(EscapeHtml(v)) == OrEmptyString(v)
  {
    EntitiesIsSinglePass(OrEmptyString(v));
    UnescapeEscapeEach(OrEmptyString(v));
  }

  // ---------------------------------------------------------------------------
  // The guarded setters
  // ---------------------------------------------------------------------------

  /** The properties the setters write: `textContent`, `href` and `src`. */
  datatype Prop = Text | Href | Src

  /** An element's writable properties. */
  datatype Target = Target(text: string, href: string, src: string)
  {
    function With(p: Prop, v: string): Target {
      match p
      case Text => this.(text := v)
      case Href => this.(href := v)
      case Src => this.(src := v)
    }

    function Read(p: Prop): string {
      match p
      case Text => text
      case Href => href
      case Src => src
    }
  }

  /** The page: element ids to elements. An id missing from the map has no element. */
  type Doc = map<string, Target>

  /** The value a setter accepts: a string that is not blank, trimmed. */
  predicate Accepts(v: Json) {
    v.JStr? && Trim(v.s) != ""
  }

  /**
   * `ARC.setText`, `ARC.setHref`, `ARC.setSrc`: write the trimmed value to
   * the element's property and report true, or change nothing and report
   * false when the element is missing or the value is not a non-blank string.
   */
  function Set(doc: Doc, id: string, p: Prop, v: Json): (r: (Doc, bool))
    ensures r.1 <==> id in doc && Accepts(v)
    ensures r.0.Keys == doc.Keys
  {
    if id !in doc then (doc, false)
    else if v.JStr? && Trim(v.s) != "" then (doc[id := doc[id].With(p, Trim(v.s))], true)
    else (doc, false)
  }

  function SetText(doc: Doc, id: string, text: Json): (Doc, bool) { Set(doc, id, Text, text) }
  function SetHref(doc: Doc, id: string, href: Json): (Doc, bool) { Set(doc, id, Href, href) }
  function SetSrc(doc: Doc, id: string, src: Json): (Doc, bool) { Set(doc, id, Src, src) }

  /**
   * After a successful set the property reads back as the trimmed value,
   * which is non-empty and trimmed; every other property of every element
   * is as before. A refused set changes nothing.
   */
  lemma SetSpec(doc: Doc, id: string, p: Prop, v: Json, other: string, q: Prop)
    requires other in doc
    ensures
      var (d, ok) := Set(doc, id, p, v);
      && other in d
      && (ok ==> d[id].Read(p) == Trim(v.s) && d[id].Read(p) != "" && IsTrimmed(d[id].Read(p)))
      && (other != id || q != p || !ok ==> d[other].Read(q) == doc[other].Read(q))
      && (!ok ==> d == doc)
  {
  }

  /** Setting the same value twice is the same as setting it once. */
  lemma SetIdempotent(doc: Doc, id: string, p: Prop, v: Json)
    ensures Set(Set(doc, id, p, v).0, id, p, v) == (Set(doc, id, p, v).0, Set(doc, id, p, v).1)
  {
    if id in doc && Accepts(v) {
      var once := Set(doc, id, p, v).0;
      var t := once[id];
      assert t.With(p, Trim(v.s)) == t;
      assert once[id := t] == once;
    }
  }

  // ---------------------------------------------------------------------------
  // Query string
  // ---------------------------------------------------------------------------

  /** `URLSearchParams.get(key)`: the first value given for `key`, None when the key is absent. */
  function ParamGet(params: seq<(string, string)>, key: string): (r: Option<string>)
    ensures r.None? <==> forall i :: 0 <= i < |params| ==> params[i].0 != key
  {
    if params == [] then None
    else if params[0].0 == key then Some(params[0].1)
    else ParamGet(params[1..], key)
  }

  /** `ARC.getParam(key, fallback)`: the fallback exactly when the key is absent. */
  function GetParam(params: seq<(string, string)>, key: string, fallback: Json): (r: Json)
    ensures ParamGet(params, key).Some? ==> r == JStr(ParamGet(params, key).value)
    ensures ParamGet(params, key).None? ==> r == fallback
  {
    match ParamGet(params, key)
    case None => fallback
    case Some(v) => JStr(v)
  }

  /**
   * The value returned for a present key is the first one in the query
   * string, even when it is empty: an empty value is "" and not the
   * fallback.
   */
  lemma {:induction false} GetParamFirst(params: seq<(string, string)>, key: string, fallback: Json, i: nat)
    requires i < |params| && params[i].0 == key
    requires forall j :: 0 <= j < i ==> params[j].0 != key
    ensures GetParam(params, key, fallback) == JStr(params[i].1)
  {
    if i > 0 {
      GetParamFirst(params[1..], key, fallback, i - 1);
    }
  }

  // ---------------------------------------------------------------------------
  // JSON fetch
  // ---------------------------------------------------------------------------

  /** The options `{ cache: "no-store" }` that `fetchJSON` always sends. */
  const FetchOptions: Json := JObj(map["cache" := JStr("no-store")])

  /**
   * `ARC.fetchJSON(url)`: a non-ok status raises FETCH_JSON_FAILED with the
   * status and URL; a body that is not JSON raises the parser's own
   * SyntaxError, not wrapped.
   */
  function FetchJson(fetch: Transport, url: string): (r: Result<Json, JsError>)
  {
    var res := fetch(url, FetchOptions);
    if res.Err? then Err(res.error)
    else if !res.value.Ok() then Err(FetchJsonFailed(res.value.status, url))
    else if res.value.body.None? then Err(SyntaxError)
    else Ok(res.value.body.value)
  }

  /** `ARC.safeFetchJSON(url, fallbackValue)` */
  function SafeFetchJson(fetch: Transport, url: string, fallback: Json): (r: Json)
    ensures FetchJson(fetch, url).Ok? ==> r == FetchJson(fetch, url).value
    ensures FetchJson(fetch, url).Err? ==> r == fallback
  {
    match FetchJson(fetch, url)
    case Ok(v) => v
    case Err(_) => fallback
  }

  /** The three failures of `fetchJSON`, one per stage. */
  lemma FetchJsonErrors(fetch: Transport, url: string)
    ensures
      var res := fetch(url, FetchOptions);
      && (res.Err? ==> FetchJson(fetch, url) == Err(res.error))
      && (res.Ok? && !res.value.Ok() ==> FetchJson(fetch, url) == Err(FetchJsonFailed(res.value.status, url)))
      && (res.Ok? && res.value.Ok() && res.value.body.None? ==> FetchJson(fetch, url) == Err(SyntaxError))
  {
  }

  /**
   * `ARC.fetchJSON` and `ARC_FETCH.json` (called without options) send the
   * same request and succeed on the same responses with the same value;
   * they differ only in the errors they raise.
   */
  lemma FetchJsonAgreesWithJson(fetch: Transport, url: string)
    ensures FetchJson(fetch, url).Ok? <==> GetJson(fetch, url, JUndefined).Ok?
    ensures FetchJson(fetch, url).Ok? ==> FetchJson(fetch, url).value == GetJson(fetch, url, JUndefined).value
    ensures SafeFetchJson(fetch, url, JNull) == SafeJson(fetch, url, JNull, JUndefined)
  {
    assert Options(JUndefined) == FetchOptions;
  }

  // ---------------------------------------------------------------------------
  // Site bootstrap
  // ---------------------------------------------------------------------------

  /** `if (site[field]) set(id, site[field])`: one guarded step of `applySite`. */
  function SetIf(doc: Doc, site: Json, field: string, id: string, p: Prop): (d: Doc)
    ensures d.Keys == doc.Keys
  {
    if Truthy(Get(site, field)) then Set(doc, id, p, Get(site, field)).0 else doc
  }

  /** `ARC.applySite(site)`: each truthy field written to its own elements, in source order. */
  function ApplySite(doc: Doc, site: Json): (d: Doc)
    ensures d.Keys == doc.Keys
    ensures !Truthy(site) ==> d == doc
  {
    if !Truthy(site) then doc
    else
      var d1 := SetIf(doc, site, "title", "siteTitle", Text);
      var d2 := SetIf(d1, site, "tagline", "siteTagline", Text);
      var d3 := SetIf(d2, site, "heroTitle", "heroTitle", Text);
      var d4 := SetIf(d3, site, "heroDesc", "heroDesc", Text);
      var d5 := SetIf(d4, site, "inviteUrl", "inviteLink", Text);
      var d6 := SetIf(d5, site, "inviteUrl", "inviteBtn", Href);
      var d7 := SetIf(d6, site, "inviteUrl", "inviteTag", Href);
      SetIf(d7, site, "inviteQr", "inviteQr", Src)
  }

  /** Which `site` field `applySite` writes to which element property; None for anything it never writes. */
  function Source(id: string, p: Prop): (f: Option<string>) {
    if id == "siteTitle" && p == Text then Some("title")
    else if id == "siteTagline" && p == Text then Some("tagline")
    else if id == "heroTitle" && p == Text then Some("heroTitle")
    else if id == "heroDesc" && p == Text then Some("heroDesc")
    else if id == "inviteLink" && p == Text then Some("inviteUrl")
    else if (id == "inviteBtn" || id == "inviteTag") && p == Href then Some("inviteUrl")
    else if id == "inviteQr" && p == Src then Some("inviteQr")
    else None
  }

  /** A guarded step touches only its own element property. */
  lemma SetIfOnly(doc: Doc, site: Json, field: string, id: string, p: Prop, other: string, q: Prop)
    requires other in doc
    requires other != id || q != p
    ensures SetIf(doc, site, field, id, p)[other].Read(q) == doc[other].Read(q)
  {
  }

  /** A guarded step writes its field's trimmed value when the setter accepts it, and leaves the property as it was otherwise. */
  lemma SetIfOwn(doc: Doc, site: Json, field: string, id: string, p: Prop)
    requires id in doc
    ensures
      var v := Get(site, field);
      SetIf(doc, site, field, id, p)[id].Read(p) == if Accepts(v) then Trim(v.s) else doc[id].Read(p)
  {
  }

  /**
   * The field-to-target mapping: after `applySite`, every element property
   * holds the trimmed value of the one field mapped to it when that field
   * is a non-blank string, and is unchanged otherwise, including every
   * property no field maps to.
   */
  lemma ApplySiteTargets(doc: Doc, site: Json, id: string, p: Prop)
    requires id in doc && Truthy(site)
    ensures
      var d := ApplySite(doc, site);
      && (Source(id, p).None? ==> d[id].Read(p) == doc[id].Read(p))
      && (Source(id, p).Some? && Accepts(Get(site, Source(id, p).value)) ==>
            d[id].Read(p) == Trim(Get(site, Source(id, p).value).s))
      && (Source(id, p).Some? && !Accepts(Get(site, Source(id, p).value)) ==>
            d[id].Read(p) == doc[id].Read(p))
  {
    var d1 := SetIf(doc, site, "title", "siteTitle", Text);
    var d2 := SetIf(d1, site, "tagline", "siteTagline", Text);
    var d3 := SetIf(d2, site, "heroTitle", "heroTitle", Text);
    var d4 := SetIf(d3, site, "heroDesc", "heroDesc", Text);
    var d5 := SetIf(d4, site, "inviteUrl", "inviteLink", Text);
    var d6 := SetIf(d5, site, "inviteUrl", "inviteBtn", Href);
    var d7 := SetIf(d6, site, "inviteUrl", "inviteTag", Href);
    var d8 := SetIf(d7, site, "inviteQr", "inviteQr", Src);
    StepOrSkip(doc, site, "title", "siteTitle", Text, id, p);
    StepOrSkip(d1, site, "tagline", "siteTagline", Text, id, p);
    StepOrSkip(d2, site, "heroTitle", "heroTitle", Text, id, p);
    StepOrSkip(d3, site, "heroDesc", "heroDesc", Text, id, p);
    StepOrSkip(d4, site, "inviteUrl", "inviteLink", Text, id, p);
    StepOrSkip(d5, site, "inviteUrl", "inviteBtn", Href, id, p);
    StepOrSkip(d6, site, "inviteUrl", "inviteTag", Href, id, p);
    StepOrSkip(d7, site, "inviteQr", "inviteQr", Src, id, p);
  }

  /** One step, seen from a fixed element property: written when it is the step's target, kept otherwise. */
  lemma StepOrSkip(doc: Doc, site: Json, field: string, target: string, tp: Prop, id: string, p: Prop)
    requires id in doc
    ensures
      var d := SetIf(doc, site, field, target, tp);
      && id in d
      && (id != target || p != tp ==> d[id].Read(p) == doc[id].Read(p))
      && (id == target && p == tp ==>
            d[id].Read(p) == if Accepts(Get(site, field)) then Trim(Get(site, field).s) else doc[id].Read(p))
  {
    if id != target || p != tp {
      SetIfOnly(doc, site, field, target, tp, id, p);
    } else {
      SetIfOwn(doc, site, field, target, tp);
    }
  }

  /** `inviteUrl` is written to three elements: the link's text and both buttons' href. */
  lemma InviteUrlTargets(doc: Doc, site: Json)
    requires Truthy(site) && Accepts(Get(site, "inviteUrl"))
    requires "inviteLink" in doc && "inviteBtn" in doc && "inviteTag" in doc
    ensures
      var d := ApplySite(doc, site);
      var u := Trim(Get(site, "inviteUrl").s);
      d["inviteLink"].text == u && d["inviteBtn"].href == u && d["inviteTag"].href == u
  {
    ApplySiteTargets(doc, site, "inviteLink", Text);
    ApplySiteTargets(doc, site, "inviteBtn", Href);
    ApplySiteTargets(doc, site, "inviteTag", Href);
  }

  /** `ARC.bootstrap(path)`: the site file (default "./data/site.json", null on any failure), applied. */
  function Bootstrap(fetch: Transport, path: string, doc: Doc): (r: (Doc, Json))
    ensures r.0 == ApplySite(doc, r.1)
    ensures FetchJson(fetch, if path == "" then "./data/site.json" else path).Err? ==> r == (doc, JNull)
    ensures FetchJson(fetch, if path == "" then "./data/site.json" else path).Ok? ==>
      r.1 == FetchJson(fetch, if path == "" then "./data/site.json" else path).value
  {
    var site := SafeFetchJson(fetch, if path == "" then "./data/site.json" else path, JNull);
    (ApplySite(doc, site), site)
  }
}

=== FILE: article.dfy ===
/**
 * The single-article page (`pages/article.js`): find the requested id in the
 * article index, show its metadata, then fetch the full text, merge it over
 * the metadata and render it. The page elements are one record, `View`; the
 * query string's `id`, the transport, `encodeURIComponent` and whether
 * `fetch.js` was loaded are parameters.
 */
module ArticlePage {
  import opened Js
  import opened Strings
  import opened Seqs
  import opened Escape
  import opened Blocks
  import opened Fetch

  const IndexUrl := "../data/articles.json"

  /** The fallback `{ articles: [] }` for the index. */
  const EmptyIndex := JObj(map["articles" := JArr([])])

  const SiteSuffix := "｜ARC-方舟"
  const DefaultTitle := "未命名文章"
  const DefaultDocTitle := "文章"

  const NoFetchTitle := "載入失敗"
  const NoFetchError := "缺少 <span class='mono'>fetch.js</span>，請確認已在頁面引入。"
  const NoIdTitle := "找不到文章 ID"
  const NoIdError := "未提供文章 ID。請從 <a class=\"btn\" href=\"./articles.html\" style=\"display:inline-flex; padding:6px 10px; margin-top:8px;\">文章列表</a> 進入。"
  const NotFoundTitle := "找不到文章"

  /** The message for an id the index does not list; the id is escaped. */
  function NotFoundError(id: string): string {
    "找不到文章索引：<span class=\"mono\">" + EscapeHtml(JStr(id)) + "</span><br/>\n請確認 <span class=\"mono\">/data/articles.json</span> 內包含此文章 ID。"
  }

  /** The message for a listed article whose full-text file could not be loaded. */
  function NoFullError(fullUrl: string, id: string): string {
    "已找到文章索引，但找不到全文檔案：<span class=\"mono\">" + EscapeHtml(JStr(fullUrl)) + "</span><br/>\n請新增對應的全文 JSON（例如：<span class=\"mono\">" + EscapeHtml(JStr(id)) + ".json</span>）。"
  }

  /**
   * `` `../content/articles/${encodeURIComponent(id)}.json` ``: the encoded
   * id sits between a fixed prefix and suffix, so it can be cut back out.
   */
  function FullUrl(encode: string -> string, id: string): (u: string)
    ensures |u| == 25 + |encode(id)|
    ensures StartsWith(u, "../content/articles/") && u[|u| - 5..] == ".json"
    ensures u[20..|u| - 5] == encode(id)
  {
    var u := "../content/articles/" + encode(id) + ".json";
    assert u[20..|u| - 5] == encode(id);
    assert u[..20] == "../content/articles/";
    u
  }

  /** Two ids whose encodings differ never share a full-text file. */
  lemma FullUrlDistinct(encode: string -> string, a: string, b: string)
    requires encode(a) != encode(b)
    ensures FullUrl(encode, a) != FullUrl(encode, b)
  {
    var u, v := FullUrl(encode, a), FullUrl(encode, b);
    assert u[20..|u| - 5] != v[20..|v| - 5];
  }

  // ---------------------------------------------------------------------------
  // The index lookup
  // ---------------------------------------------------------------------------

  /** `a.id === id` */
  predicate IdIs(a: Json, id: string) {
    Get(a, "id") == JStr(id)
  }

  /**
   * `list.find(a => a.id === id) || null`. The callback reads `a.id`, so a
   * null or undefined entry reached before the match raises a TypeError.
   * A match is an object, hence truthy, so `|| null` changes nothing.
   */
  function FindById(list: seq<Json>, id: string): (r: Result<Option<Json>, JsError>)
    ensures r.Ok? && r.value.Some? ==> r.value.value in list && IdIs(r.value.value, id) && r.value.value.JObj?
    ensures r.Err? ==> r.error == TypeError
  {
    if list == [] then Ok(None)
    else if Nullish(list[0]) then Err(TypeError)
    else if IdIs(list[0], id) then Ok(Some(list[0]))
    else FindById(list[1..], id)
  }

  /**
   * The lookup stops at the first entry that is nullish or carries the id:
   * it finds nothing when there is no such entry, raises when it is
   * nullish, and returns it otherwise.
   */
  lemma FindByIdSpec(list: seq<Json>, id: string)
    ensures FindById(list, id) == Ok(None) <==>
      forall i :: 0 <= i < |list| ==> !Nullish(list[i]) && !IdIs(list[i], id)
    ensures FindById(list, id).Err? <==>
      exists i :: 0 <= i < |list| && Nullish(list[i]) &&
        forall j :: 0 <= j < i ==> !IdIs(list[j], id)
    ensures FindById(list, id).Ok? && FindById(list, id).value.Some? ==>
      exists i :: 0 <= i < |list| && list[i] == FindById(list, id).value.value &&
        forall j :: 0 <= j < i ==> !Nullish(list[j]) && !IdIs(list[j], id)
  {
    FindByIdNone(list, id);
    FindByIdRaises(list, id);
    FindByIdFirst(list, id);
  }

  lemma {:induction false} FindByIdNone(list: seq<Json>, id: string)
    ensures FindById(list, id) == Ok(None) <==>
      forall i :: 0 <= i < |list| ==> !Nullish(list[i]) && !IdIs(list[i], id)
  {
    if list != [] && !Nullish(list[0]) && !IdIs(list[0], id) {
      var tail := list[1..];
      FindByIdNone(tail, id);
      if FindById(tail, id) == Ok(None) {
        forall i | 0 <= i < |list| ensures !Nullish(list[i]) && !IdIs(list[i], id) {
          if i > 0 { assert list[i] == tail[i - 1]; }
        }
      }
      if forall i :: 0 <= i < |list| ==> !Nullish(list[i]) && !IdIs(list[i], id) {
        forall i | 0 <= i < |tail| ensures !Nullish(tail[i]) && !IdIs(tail[i], id) {
          assert tail[i] == list[i + 1];
        }
      }
    }
  }

  lemma {:induction false} FindByIdRaises(list: seq<Json>, id: string)
    ensures FindById(list, id).Err? <==>
      exists i :: 0 <= i < |list| && Nullish(list[i]) &&
        forall j :: 0 <= j < i ==> !IdIs(list[j], id)
  {
    if list != [] && !Nullish(list[0]) && !IdIs(list[0], id) {
      var tail := list[1..];
      FindByIdRaises(tail, id);
      if FindById(tail, id).Err? {
        var i :| 0 <= i < |tail| && Nullish(tail[i]) && forall j :: 0 <= j < i ==> !IdIs(tail[j], id);
        ShiftNoId(list, id, i);
      }
      if exists i :: 0 <= i < |list| && Nullish(list[i]) && forall j :: 0 <= j < i ==> !IdIs(list[j], id) {
        var i :| 0 <= i < |list| && Nullish(list[i]) && forall j :: 0 <= j < i ==> !IdIs(list[j], id);
        assert tail[i - 1] == list[i];
        forall j | 0 <= j < i - 1 ensures !IdIs(tail[j], id) {
          assert tail[j] == list[j + 1];
        }
      }
    } else if list != [] && Nullish(list[0]) {
      assert !IdIs(list[0], id);
    }
  }

  lemma {:induction false} FindByIdFirst(list: seq<Json>, id: string)
    ensures FindById(list, id).Ok? && FindById(list, id).value.Some? ==>
      exists i :: 0 <= i < |list| && list[i] == FindById(list, id).value.value &&
        forall j :: 0 <= j < i ==> !Nullish(list[j]) && !IdIs(list[j], id)
  {
    if list != [] && !Nullish(list[0]) && !IdIs(list[0], id) {
      var tail := list[1..];
      FindByIdFirst(tail, id);
      var r := FindById(tail, id);
      assert FindById(list, id) == r;
      if r.Ok? && r.value.Some? {
        var i :| 0 <= i < |tail| && tail[i] == r.value.value &&
          forall j :: 0 <= j < i ==> !Nullish(tail[j]) && !IdIs(tail[j], id);
        assert list[i + 1] == tail[i];
        forall j | 0 <= j < i + 1 ensures !Nullish(list[j]) && !IdIs(list[j], id) {
          if j > 0 { assert list[j] == tail[j - 1]; }
        }
      }
    } else if list != [] && !Nullish(list[0]) {
      assert list[0] == FindById(list, id).value.value;
    }
  }

  lemma ShiftNoId(list: seq<Json>, id: string, i: nat)
    requires 0 < |list| && !IdIs(list[0], id) && i < |list| - 1
    requires Nullish(list[1..][i]) && forall j :: 0 <= j < i ==> !IdIs(list[1..][j], id)
    ensures Nullish(list[i + 1]) && forall j :: 0 <= j < i + 1 ==> !IdIs(list[j], id)
  {
    forall j | 0 <= j < i + 1 ensures !IdIs(list[j], id) {
      if j > 0 { assert list[j] == list[1..][j - 1]; }
    }
  }

  // ---------------------------------------------------------------------------
  // Merging the full text over the metadata
  // ---------------------------------------------------------------------------

  /** `Object.assign({}, meta, full)`: own properties of `full` override those of `meta`. */
  function Merge(meta: Json, full: Json): (r: Json)
    ensures r.JObj? && r.fields.Keys == OwnProps(meta).Keys + OwnProps(full).Keys
  {
    JObj(OwnProps(meta) + OwnProps(full))
  }

  /** A field of the merged article comes from the full text when it has it, from the metadata otherwise. */
  lemma MergeField(meta: Json, full: Json, k: string)
    requires meta.JObj? && full.JObj?
    ensures Get(Merge(meta, full), k) == if k in full.fields then full.fields[k] else Get(meta, k)
  {
  }

  /** Merging changes nothing the full text does not mention, and merging with itself is harmless. */
  lemma MergeKeepsMeta(meta: Json, full: Json)
    requires meta.JObj?
    ensures OwnProps(full) == map[] ==> Merge(meta, full) == meta
    ensures Merge(meta, meta) == meta
  {
  }

  // ---------------------------------------------------------------------------
  // Rendering
  // ---------------------------------------------------------------------------

  /** `` `<span class="${cls}">${escapeHtml(v)}</span>` `` */
  function PillHtml(cls: string, v: Json): string {
    "<span class=\"" + cls + "\">" + EscapeHtml(v) + "</span>"
  }

  const TagPillClass := "pill pill-accent"

  /** The date and author pills, each only when its value is truthy. */
  function LeadPills(a: Json): (r: seq<string>)
    ensures |r| == (if Truthy(Get(a, "date")) then 1 else 0) + (if Truthy(Get(a, "author")) then 1 else 0)
    ensures Truthy(Get(a, "date")) ==> r[0] == PillHtml("pill", Get(a, "date"))
    ensures Truthy(Get(a, "author")) ==> r[|r| - 1] == PillHtml("pill", Get(a, "author"))
  {
    (if Truthy(Get(a, "date")) then [PillHtml("pill", Get(a, "date"))] else [])
    + (if Truthy(Get(a, "author")) then [PillHtml("pill", Get(a, "author"))] else [])
  }

  /** `a.tags.slice(0, 6)`, one accent pill each; nothing when `tags` is not an array. */
  function TagPills(a: Json): (r: seq<string>)
    ensures |r| == if |ArrayOr(Get(a, "tags"))| < 6 then |ArrayOr(Get(a, "tags"))| else 6
    ensures forall i :: 0 <= i < |r| ==> r[i] == PillHtml(TagPillClass, ArrayOr(Get(a, "tags"))[i])
  {
    Map(Take(ArrayOr(Get(a, "tags")), 6), t => PillHtml(TagPillClass, t))
  }

  /** The pills `renderMeta` collects: date, author, then the first six tags. */
  function MetaPills(a: Json): (r: seq<string>)
    ensures |r| <= 8
  {
    LeadPills(a) + TagPills(a)
  }

  /**
   * `renderMeta(a)`: the pills joined with "". The line is empty exactly when
   * there is no date, no author and no tag, and a date comes first.
   */
  function RenderMeta(a: Json): (r: string)
    ensures r == "" <==> !Truthy(Get(a, "date")) && !Truthy(Get(a, "author")) && ArrayOr(Get(a, "tags")) == []
    ensures Truthy(Get(a, "date")) ==> StartsWith(r, PillHtml("pill", Get(a, "date")))
  {
    var ps := MetaPills(a);
    if ps != [] then
      var lead, tagged := LeadPills(a), TagPills(a);
      assert ps[0] == if lead != [] then lead[0] else tagged[0];
      assert |ps[0]| > 0;
      assert Concat(ps)[..|ps[0]|] == ps[0];
      Concat(ps)
    else
      Concat(ps)
  }

  /** After the date and author pills come the tag pills: at most six, one per tag in order. */
  lemma MetaPillsSpec(a: Json)
    ensures
      var tags := ArrayOr(Get(a, "tags"));
      var n := |LeadPills(a)|;
      && |MetaPills(a)| == n + (if |tags| < 6 then |tags| else 6)
      && (forall i :: 0 <= i < |tags| && i < 6 ==> MetaPills(a)[n + i] == PillHtml(TagPillClass, tags[i]))
  {
    var lead, tagged := LeadPills(a), TagPills(a);
    forall i | 0 <= i < |tagged|
      ensures MetaPills(a)[|lead| + i] == tagged[i]
    {
      AppendAt(lead, tagged, i);
    }
  }

  /** The text inside a pill holds no markup and unescapes back to the value's string form. */
  lemma PillTextReadsBack(cls: string, v: Json)
    ensures
      var p := PillHtml(cls, v);
      var inner := p[|cls| + 15..|p| - 7];
      && inner == EscapeHtml(v)
      && '<' !in inner
      && Unescape(inner) == OrEmptyString(v)
  {
    var p := PillHtml(cls, v);
    assert p[|cls| + 15..|p| - 7] == EscapeHtml(v);
    EntitiesIsSinglePass(OrEmptyString(v));
    UnescapeEscapeEach(OrEmptyString(v));
  }

  /** `out + r` for a result `r` that may have raised. */
  function Prepended(out: string, r: Result<string, JsError>): Result<string, JsError> {
    match r
    case Ok(s) => Ok(out + s)
    case Err(e) => Err(e)
  }

  /** One step of `blocks.map(...).join("")`: the block at `i`, then the rest. */
  lemma BlocksHtmlStep(items: seq<Json>, i: nat)
    requires i < |items|
    ensures BlocksHtml(items[i..]) ==
      match BlockHtml(items[i])
      case Err(e) => Err(e)
      case Ok(h) => Prepended(h, BlocksHtml(items[i + 1..]))
  {
    assert items[i..][1..] == items[i + 1..];
  }

  /** Bookkeeping for the `FallbackContent` loop: prepending nothing changes nothing. */
  lemma PrependedEmpty(rest: Result<string, JsError>)
    ensures Prepended("", rest) == rest
  {
    if rest.Ok? {
      assert "" + rest.value == rest.value;
    }
  }

  /** Bookkeeping for the `FallbackContent` loop: two prepends are one prepend of both. */
  lemma PrependedTwice(out: string, h: string, rest: Result<string, JsError>)
    ensures Prepended(out, Prepended(h, rest)) == Prepended(out + h, rest)
  {
    if rest.Ok? {
      assert out + (h + rest.value) == (out + h) + rest.value;
    }
  }

  /**
   * The renderer `renderContent` falls back on when `format.js` is not
   * loaded, written as the loop it is. It produces exactly what
   * `FMT.blocksToHTML` would, so the page shows the same content either way.
   */
  method FallbackContent(content: Json) returns (r: Result<string, JsError>)
    ensures r == BlocksToHtml(content)
  {
    if content.JArr? {
      var items := content.items;
      var out := "";
      var i := 0;
      assert items[0..] == items;
      PrependedEmpty(BlocksHtml(items));
      while i < |items|
        invariant 0 <= i <= |items|
        invariant BlocksHtml(items) == Prepended(out, BlocksHtml(items[i..]))
      {
        BlocksHtmlStep(items, i);
        var h := BlockHtml(items[i]);
        if h.Err? {
          return Err(h.error);
        }
        PrependedTwice(out, h.value, BlocksHtml(items[i + 1..]));
        out := out + h.value;
        i := i + 1;
      }
      assert items[i..] == [] && out + "" == out;
      r := Ok(out);
    } else if content.JStr? {
      r := Ok("<p>" + EscapeHtml(content) + "</p>");
    } else {
      r := Ok("");
    }
  }

  // ---------------------------------------------------------------------------
  // The page
  // ---------------------------------------------------------------------------

  /** The elements `init` writes: `#title`, `document.title`, `#excerpt`, `#coverImg`'s src, `#meta`, `#content` and `#error` (None while hidden). */
  datatype View = View(title: string, docTitle: string, excerpt: string, cover: string,
                       meta: string, content: string, error: Option<string>)

  /** The page after `init` settles, whether it raised, and the URLs it fetched, in order. */
  datatype Run = Run(view: View, raised: Option<JsError>, fetched: seq<string>)

  /** "apply meta first": the index entry's fields, with their defaults. */
  function ShowMeta(page: View, meta: Json): (v: View)
    ensures v.content == page.content && v.error == page.error
  {
    page.(title := ToStr(Or(Get(meta, "title"), JStr(DefaultTitle))),
          docTitle := ToStr(Or(Get(meta, "title"), JStr(DefaultDocTitle))) + SiteSuffix,
          excerpt := OrEmptyString(Get(meta, "excerpt")),
          cover := if Truthy(Get(meta, "cover")) then ToStr(Get(meta, "cover")) else page.cover,
          meta := RenderMeta(meta))
  }

  /** The merged article's truthy fields replace what the metadata showed; the document title stays. */
  function ShowArticle(page: View, article: Json): (v: View)
    ensures v.docTitle == page.docTitle && v.content == page.content && v.error == page.error
  {
    page.(title := if Truthy(Get(article, "title")) then ToStr(Get(article, "title")) else page.title,
          excerpt := if Truthy(Get(article, "excerpt")) then ToStr(Get(article, "excerpt")) else page.excerpt,
          cover := if Truthy(Get(article, "cover")) then ToStr(Get(article, "cover")) else page.cover,
          meta := RenderMeta(article))
  }

  /** `init()`: `id` is `qs.get("id")`, None when the query string has none. */
  function Init(fetch: Transport, encode: string -> string, hasFetch: bool, id: Option<string>, page: View): (r: Run)
    ensures !hasFetch || id.None? || id == Some("") ==> r.fetched == [] && r.raised.None?
    ensures hasFetch && id.Some? && id.value != "" ==> |r.fetched| >= 1 && r.fetched[0] == IndexUrl
    ensures hasFetch && id.Some? && id.value != "" ==>
      var found := FindById(ArticleList(SafeJson(fetch, IndexUrl, EmptyIndex, JUndefined)), id.value);
      && (r.fetched == [IndexUrl, FullUrl(encode, id.value)] <==> found.Ok? && found.value.Some?)
      && (found.Err? ==> r == Run(page, Some(TypeError), [IndexUrl]))
  {
    if !hasFetch then
      Run(page.(title := NoFetchTitle, error := Some(NoFetchError)), None, [])
    else if id.None? || id.value == "" then
      Run(page.(title := NoIdTitle, error := Some(NoIdError)), None, [])
    else
      var list := ArticleList(SafeJson(fetch, IndexUrl, EmptyIndex, JUndefined));
      match FindById(list, id.value)
      case Err(e) => Run(page, Some(e), [IndexUrl])
      case Ok(None) =>
        Run(page.(title := NotFoundTitle, error := Some(NotFoundError(id.value))), None, [IndexUrl])
      case Ok(Some(meta)) => Found(fetch, encode, id.value, page, meta)
  }

  /** The rest of `init` once the index lists `meta`: show it, then fetch the full text. */
  function Found(fetch: Transport, encode: string -> string, id: string, page: View, meta: Json): (r: Run)
    ensures r.fetched == [IndexUrl, FullUrl(encode, id)]
  {
    var shown := ShowMeta(page, meta);
    var fullUrl := FullUrl(encode, id);
    var full := SafeJson(fetch, fullUrl, JNull, JUndefined);
    if !Truthy(full) then
      Run(shown.(error := Some(NoFullError(fullUrl, id))), None, [IndexUrl, fullUrl])
    else
      ShowFull(shown, Merge(meta, full), [IndexUrl, fullUrl])
  }

  /** The merged article shown over the metadata, then its content rendered. */
  function ShowFull(shown: View, article: Json, fetched: seq<string>): (r: Run)
    ensures r.fetched == fetched && r.view.error == shown.error
    ensures r.raised.None? <==> BlocksToHtml(Get(article, "content")).Ok?
    ensures r.raised.None? ==> r.view.content == BlocksToHtml(Get(article, "content")).value
    ensures r.raised.Some? ==> r.view.content == shown.content
  {
    var merged := ShowArticle(shown, article);
    match BlocksToHtml(Get(article, "content"))
    case Err(e) => Run(merged, Some(e), fetched)
    case Ok(html) => Run(merged.(content := html), None, fetched)
  }

  /** Without the fetch helpers nothing is fetched, whatever the id, and only the title and the error box change. */
  lemma InitWithoutFetch(fetch: Transport, encode: string -> string, id: Option<string>, page: View)
    ensures
      var r := Init(fetch, encode, false, id, page);
      && r.fetched == [] && r.raised.None?
      && r.view.title == NoFetchTitle && r.view.error == Some(NoFetchError)
      && r.view.(title := page.title, error := page.error) == page
  {
  }

  /** Without an id nothing is fetched and only the title and the error box change. */
  lemma InitWithoutId(fetch: Transport, encode: string -> string, id: Option<string>, page: View)
    requires id.None? || id == Some("")
    ensures
      var r := Init(fetch, encode, true, id, page);
      && r.fetched == [] && r.raised.None?
      && r.view.title == NoIdTitle && r.view.error == Some(NoIdError)
      && r.view.(title := page.title, error := page.error) == page
  {
  }

  /**
   * An index that does not list the id (including one that fails to load,
   * which reads as empty) gives "not found": only the index is requested,
   * the escaped id is in the message, and nothing else changes.
   */
  lemma InitNotFound(fetch: Transport, encode: string -> string, id: string, page: View)
    requires id != ""
    requires FindById(ArticleList(SafeJson(fetch, IndexUrl, EmptyIndex, JUndefined)), id) == Ok(None)
    ensures
      var r := Init(fetch, encode, true, Some(id), page);
      && r.fetched == [IndexUrl] && r.raised.None?
      && r.view.title == NotFoundTitle
      && r.view.error == Some(NotFoundError(id))
      && r.view.(title := page.title, error := page.error) == page
  {
  }

  /** A failed index load lists nothing, so it reads as "not found". */
  lemma IndexFailsIsNotFound(fetch: Transport, id: string)
    requires GetJson(fetch, IndexUrl, JUndefined).Err?
    ensures FindById(ArticleList(SafeJson(fetch, IndexUrl, EmptyIndex, JUndefined)), id) == Ok(None)
  {
    assert ArticleList(SafeJson(fetch, IndexUrl, EmptyIndex, JUndefined)) == [];
  }

  /** Once the index lists `meta` under `id`, the rest of `init` is `Found`. */
  lemma InitFound(fetch: Transport, encode: string -> string, id: string, page: View, meta: Json)
    requires id != ""
    requires FindById(ArticleList(SafeJson(fetch, IndexUrl, EmptyIndex, JUndefined)), id) == Ok(Some(meta))
    ensures Init(fetch, encode, true, Some(id), page) == Found(fetch, encode, id, page, meta)
  {
  }

  /**
   * A listed article whose full text is missing (the file fails to load, or
   * holds a falsy value such as `null`) shows its metadata and names the
   * file it looked for.
   */
  lemma FoundNoFullText(fetch: Transport, encode: string -> string, id: string, page: View, meta: Json)
    requires !Truthy(SafeJson(fetch, FullUrl(encode, id), JNull, JUndefined))
    ensures
      var r := Found(fetch, encode, id, page, meta);
      && r.raised.None?
      && r.view.title == ToStr(Or(Get(meta, "title"), JStr(DefaultTitle)))
      && r.view.meta == RenderMeta(meta)
      && r.view.content == page.content
      && r.view.error == Some(NoFullError(FullUrl(encode, id), id))
  {
  }

  /**
   * A listed article with an object full text: the title shown is the full
   * text's when truthy, otherwise the metadata's, otherwise the default; the
   * content is the merged article's blocks, rendered.
   */
  lemma FoundShown(fetch: Transport, encode: string -> string, id: string, page: View, meta: Json)
    requires meta.JObj?
    requires GetJson(fetch, FullUrl(encode, id), JUndefined).Ok?
    requires GetJson(fetch, FullUrl(encode, id), JUndefined).value.JObj?
    ensures
      var full := GetJson(fetch, FullUrl(encode, id), JUndefined).value;
      var r := Found(fetch, encode, id, page, meta);
      var t := Get(full, "title");
      && r.view.title == (if Truthy(t) then ToStr(t) else ToStr(Or(Get(meta, "title"), JStr(DefaultTitle))))
      && r.view.error == page.error
      && (r.raised.None? <==> BlocksToHtml(Get(Merge(meta, full), "content")).Ok?)
      && (r.raised.None? ==> r.view.content == BlocksToHtml(Get(Merge(meta, full), "content")).value)
  {
    var full := GetJson(fetch, FullUrl(encode, id), JUndefined).value;
    ShowFullTitle(ShowMeta(page, meta), meta, full, [IndexUrl, FullUrl(encode, id)]);
  }

  /** The title after the merge: the full text's when truthy, else what the metadata showed. */
  lemma ShowFullTitle(shown: View, meta: Json, full: Json, fetched: seq<string>)
    requires meta.JObj? && full.JObj?
    requires Truthy(Get(meta, "title")) ==> shown.title == ToStr(Get(meta, "title"))
    ensures
      var t := Get(full, "title");
      ShowFull(shown, Merge(meta, full), fetched).view.title == if Truthy(t) then ToStr(t) else shown.title
  {
    MergeField(meta, full, "title");
  }
}

=== FILE: articles.dfy ===
/**
 * The article list page (`pages/articles.js`): the search haystack, the tag
 * facet with its "全部" sentinel, the chip row and its tags, the count hint
 * and the initial load, over the list `articleList` produced.
 */
module ArticlesPage {
  import opened Js
  import opened Strings
  import opened Seqs
  import opened Format
  import opened Fetch
  import opened Dom
  import opened Cards

  /** The chip that switches the tag facet off; also the initial `activeTag`. */
  const AllTag := "全部"

  const IndexUrl := "../data/articles.json"

  /** The fallback `{ articles: [] }` handed to `safeJson`. */
  const EmptyIndex := JObj(map["articles" := JArr([])])

  /** The searched fields, each normalised: the title, the excerpt, then every tag. */
  function HayParts(a: Json): (r: seq<string>)
    ensures |r| == 2 + |TagList(a)|
  {
    [Normalize(Get(a, "title")), Normalize(Get(a, "excerpt"))] + NormalizeAll(TagList(a))
  }

  /** `matchArticle(a, q)`: the fields joined by single spaces contain `q`. */
  predicate MatchArticle(a: Json, q: string) {
    Contains(Join(" ", HayParts(a)), q)
  }

  /** Some searched field of `a` contains `q` on its own. */
  predicate SomeFieldContains(a: Json, q: string) {
    || Contains(Normalize(Get(a, "title")), q)
    || Contains(Normalize(Get(a, "excerpt")), q)
    || exists i :: 0 <= i < |TagList(a)| && Contains(Normalize(TagList(a)[i]), q)
  }

  /** A query found in one field matches the article. */
  lemma MatchArticleFromField(a: Json, q: string)
    requires SomeFieldContains(a, q)
    ensures MatchArticle(a, q)
  {
    var head := [Normalize(Get(a, "title")), Normalize(Get(a, "excerpt"))];
    var tags := TagList(a);
    if Contains(Normalize(Get(a, "title")), q) {
      ContainsInFields(head, tags, q, 0);
    } else if Contains(Normalize(Get(a, "excerpt")), q) {
      ContainsInFields(head, tags, q, 1);
    } else {
      var i :| 0 <= i < |tags| && Contains(Normalize(tags[i]), q);
      ContainsInFields(head, tags, q, 2 + i);
    }
  }

  /**
   * For a query without a space the converse holds: an occurrence cannot
   * straddle the space between two fields, so a match lies inside one field.
   */
  lemma MatchArticleOnlyFields(a: Json, q: string)
    requires ' ' !in q && MatchArticle(a, q)
    ensures SomeFieldContains(a, q)
  {
    var parts := HayParts(a);
    var tags := TagList(a);
    var k := ContainsJoinedPart(' ', parts, q);
    if k >= 2 {
      assert parts[k] == Normalize(tags[k - 2]);
    }
  }

  /** The empty query matches every article. */
  lemma MatchEmptyQuery(a: Json)
    ensures MatchArticle(a, "")
  {
    ContainsEmpty(Join(" ", HayParts(a)));
  }

  /** `activeTag && activeTag !== "全部"`: whether the tag facet filters at all. */
  predicate FacetOn(activeTag: string) {
    activeTag != "" && activeTag != AllTag
  }

  /** `(Array.isArray(a && a.tags) ? a.tags : []).includes(activeTag)`: exact equality with a raw, untrimmed tag. */
  predicate HasTag(a: Json, tag: string) {
    JStr(tag) in TagList(a)
  }

  /** What one article must satisfy to be shown: the tag facet, then the query. */
  predicate Keep(a: Json, activeTag: string, q: string) {
    (FacetOn(activeTag) ==> HasTag(a, activeTag)) && (q != "" ==> MatchArticle(a, q))
  }

  /** The query `applyFilter` searches for: the search box's value, normalised. */
  function Query(input: string): string {
    Normalize(JStr(input))
  }

  /**
   * `applyFilter()`: the list handed to `renderList`. `input` is the search
   * box's value ("" when the page has no box).
   */
  function ApplyFilter(original: seq<Json>, activeTag: string, input: string): (r: seq<Json>)
    ensures |r| <= |original|
    ensures !FacetOn(activeTag) && Query(input) == "" ==> r == original
  {
    var q := Query(input);
    var byTag := if FacetOn(activeTag) then Filter(original, a => HasTag(a, activeTag)) else original;
    if q != "" then Filter(byTag, a => MatchArticle(a, q)) else byTag
  }

  /** The two filters in a row are one filter by the conjunction of their conditions. */
  lemma ApplyFilterIsOneFilter(original: seq<Json>, activeTag: string, input: string)
    ensures ApplyFilter(original, activeTag, input) == Filter(original, a => Keep(a, activeTag, Query(input)))
  {
    var q := Query(input);
    var keep := a => Keep(a, activeTag, q);
    var tagged := a => HasTag(a, activeTag);
    var matching := a => MatchArticle(a, q);
    if FacetOn(activeTag) && q != "" {
      FilterFilter(original, tagged, matching, keep);
    } else if FacetOn(activeTag) {
      FilterFilter(original, tagged, _ => true, keep);
      FilterAllPass(Filter(original, tagged), _ => true);
    } else if q != "" {
      FilterFilter(original, _ => true, matching, keep);
      FilterAllPass(original, _ => true);
    } else {
      FilterAllPass(original, keep);
    }
  }

  /**
   * The shown articles keep their relative order, and an article is shown
   * exactly when it passes the tag facet and the query.
   */
  lemma ApplyFilterSpec(original: seq<Json>, activeTag: string, input: string, a: Json)
    ensures IsSubseq(ApplyFilter(original, activeTag, input), original)
    ensures a in ApplyFilter(original, activeTag, input) <==> a in original && Keep(a, activeTag, Query(input))
  {
    var keep := x => Keep(x, activeTag, Query(input));
    ApplyFilterIsOneFilter(original, activeTag, input);
    FilterIsSubseq(original, keep);
    FilterMembers(original, keep, a);
  }

  /** One chip: its label and whether it carries the `active` class. */
  datatype Chip = Chip(text: string, active: bool)

  /** `buildChips(allTags)`: "全部" first, then the tags in the given order; a chip is active when its label equals the active tag. */
  function BuildChips(allTags: seq<string>, activeTag: string): (r: seq<Chip>)
    ensures |r| == 1 + |allTags|
    ensures r[0] == Chip(AllTag, AllTag == activeTag)
    ensures forall i :: 0 <= i < |r| ==> (r[i].active <==> r[i].text == activeTag)
  {
    [Chip(AllTag, AllTag == activeTag)] + ChipsFor(allTags, activeTag)
  }

  function ChipsFor(tags: seq<string>, activeTag: string): (r: seq<Chip>)
    ensures |r| == |tags|
    ensures forall i :: 0 <= i < |tags| ==> r[i] == Chip(tags[i], tags[i] == activeTag)
  {
    if tags == [] then [] else [Chip(tags[0], tags[0] == activeTag)] + ChipsFor(tags[1..], activeTag)
  }

  /**
   * A click on chip `i`: `activeTag` becomes its label, every chip loses
   * `active` and the clicked one gains it.
   */
  function ClickChip(chips: seq<Chip>, i: nat): (r: (string, seq<Chip>))
    requires i < |chips|
    ensures r.0 == chips[i].text
    ensures |r.1| == |chips|
    ensures forall j :: 0 <= j < |chips| ==> r.1[j].text == chips[j].text && (r.1[j].active <==> j == i)
  {
    (chips[i].text, seq(|chips|, j requires 0 <= j < |chips| => Chip(chips[j].text, j == i)))
  }

  /**
   * With distinct labels, clicking a chip leaves the row exactly as
   * `buildChips` would draw it for the new active tag.
   */
  lemma ClickMatchesRebuild(allTags: seq<string>, activeTag: string, i: nat)
    requires Distinct([AllTag] + allTags) && i < 1 + |allTags|
    ensures
      var clicked := ClickChip(BuildChips(allTags, activeTag), i);
      clicked.1 == BuildChips(allTags, clicked.0)
  {
    var labels := [AllTag] + allTags;
    var chips := BuildChips(allTags, activeTag);
    ChipAt(allTags, activeTag, i);
    var t := labels[i];
    var clicked := ClickChip(chips, i);
    var rebuilt := BuildChips(allTags, t);
    forall j | 0 <= j < |chips|
      ensures clicked.1[j] == rebuilt[j]
    {
      ClickedChipAt(allTags, activeTag, i, j);
    }
  }

  lemma ClickedChipAt(allTags: seq<string>, activeTag: string, i: nat, j: nat)
    requires Distinct([AllTag] + allTags) && i < 1 + |allTags| && j < 1 + |allTags|
    ensures
      var clicked := ClickChip(BuildChips(allTags, activeTag), i);
      clicked.1[j] == BuildChips(allTags, clicked.0)[j]
  {
    var labels := [AllTag] + allTags;
    ChipAt(allTags, activeTag, i);
    ChipAt(allTags, activeTag, j);
    ChipAt(allTags, labels[i], j);
    assert labels[j] == labels[i] <==> j == i;
  }

  /** Chip `j` of the row carries label `j` of "全部" followed by the tags. */
  lemma ChipAt(allTags: seq<string>, activeTag: string, j: nat)
    requires j < 1 + |allTags|
    ensures BuildChips(allTags, activeTag)[j] == Chip(([AllTag] + allTags)[j], ([AllTag] + allTags)[j] == activeTag)
  {
    if j > 0 {
      assert BuildChips(allTags, activeTag)[j] == ChipsFor(allTags, activeTag)[j - 1];
    }
  }

  /** `.map(t => (t || "").toString().trim()).filter(Boolean)` */
  function PrepareTags(tags: seq<string>): seq<string> {
    Filter(Map(tags, t => TrimValue(JStr(t))), t => t != "")
  }

  /** Collected tags are already trimmed and non-empty, so the preparation leaves them as they are. */
  lemma PrepareClean(tags: seq<string>)
    requires CleanKeys(tags)
    ensures PrepareTags(tags) == tags
  {
    var trimmed := Map(tags, t => TrimValue(JStr(t)));
    forall i | 0 <= i < |tags|
      ensures trimmed[i] == tags[i]
    {
      TrimOfTrimmed(tags[i]);
    }
    assert trimmed == tags;
    FilterAllPass(tags, t => t != "");
  }

  /**
   * The chip tags of `init`: the collected tags, prepared, then sorted with
   * the locale comparator `compare` (kept abstract).
   */
  function ChipTags(original: seq<Json>, compare: (string, string) -> int): seq<string> {
    SortBy(PrepareTags(CollectTags(JArr(original))), (x, y) => compare(x, y) <= 0)
  }

  /**
   * Whatever the collation, the chip tags are a permutation of the collected
   * tags: each tag that trims to a non-empty string appears exactly once.
   */
  lemma ChipTagsPermutation(original: seq<Json>, compare: (string, string) -> int, x: string)
    ensures multiset(ChipTags(original, compare)) == multiset(CollectTags(JArr(original)))
    ensures x in ChipTags(original, compare) <==> x != "" && SomeTagTrimsTo(original, x)
  {
    var collected := CollectTags(JArr(original));
    CollectTagsOrder(JArr(original));
    PrepareClean(collected);
    SortByPermutes(collected, (x, y) => compare(x, y) <= 0);
    CollectTagsMembers(JArr(original), x);
    assert x in ChipTags(original, compare) <==> x in multiset(ChipTags(original, compare));
  }

  /** The count hint of `renderList`. */
  function CountHint(list: seq<Json>): (h: string) {
    if |list| == 0 then "0 篇" else NatToString(|list|) + " 篇"
  }

  /** Both branches print the length: the hint's digits read back as the number of articles. */
  lemma CountHintReadsBack(list: seq<Json>)
    ensures |CountHint(list)| >= 3
    ensures CountHint(list) == NatToString(|list|) + " 篇"
    ensures ParseDigits(CountHint(list)[..|CountHint(list)| - 2]) == |list|
  {
    var h := CountHint(list);
    assert h[..|h| - 2] == NatToString(|list|);
    ParseNatToString(|list|);
  }

  /** What `renderList(list)` leaves on the page. */
  datatype ListView = ListView(hint: string, showEmpty: bool, cards: seq<Node>)

  /**
   * `renderList(list)`: an empty list shows the empty state; otherwise one
   * card per article, in order. `card` is the card builder, `DOM.articleCard`.
   */
  function RenderList(card: Json -> Node, list: seq<Json>): (v: ListView)
    ensures v.showEmpty <==> list == []
    ensures v.hint == CountHint(list)
    ensures |v.cards| == |list|
    ensures forall i :: 0 <= i < |list| ==> v.cards[i] == card(list[i])
  {
    if list == [] then ListView("0 篇", true, [])
    else ListView(NatToString(|list|) + " 篇", false, Map(list, card))
  }

  /** The page after `init`. */
  datatype Page = Page(original: seq<Json>, chips: seq<Chip>, view: ListView)

  /**
   * `init()`: load the index (any failure gives `{ articles: [] }`), build
   * the chips, render every article with `card`. The articles are the
   * normalised index, all of them are shown in order exactly as an
   * unfiltered search shows them, and the "全部" chip is the active one.
   */
  function Init(fetch: Transport, card: Json -> Node, compare: (string, string) -> int): (p: Page)
    ensures GetJson(fetch, IndexUrl, JUndefined).Ok? ==> p.original == ArticleList(GetJson(fetch, IndexUrl, JUndefined).value)
    ensures GetJson(fetch, IndexUrl, JUndefined).Err? ==> p.original == []
    ensures p.view == RenderList(card, ApplyFilter(p.original, AllTag, ""))
    ensures |p.view.cards| == |p.original|
    ensures |p.chips| >= 1 && p.chips[0] == Chip(AllTag, true)
    ensures p.chips == BuildChips(ChipTags(p.original, compare), AllTag)
  {
    var raw := SafeJson(fetch, IndexUrl, EmptyIndex, JUndefined);
    var original := ArticleList(raw);
    Page(original, BuildChips(ChipTags(original, compare), AllTag), RenderList(card, original))
  }

  /** A failed load shows the empty state with "0 篇" and only the "全部" chip, which is active. */
  lemma InitFailedLoad(fetch: Transport, card: Json -> Node, compare: (string, string) -> int)
    requires GetJson(fetch, IndexUrl, JUndefined).Err?
    ensures Init(fetch, card, compare).original == []
    ensures Init(fetch, card, compare).view == ListView("0 篇", true, [])
    ensures Init(fetch, card, compare).chips == [Chip(AllTag, true)]
  {
    assert SafeJson(fetch, IndexUrl, EmptyIndex, JUndefined) == EmptyIndex;
    assert ArticleList(EmptyIndex) == [];
    CollectTagsMembers(JArr([]), "");
    assert CollectTags(JArr([])) == [];
  }
}

=== FILE: blocks.dfy ===
/**
 * `FMT.blocksToHTML`: article content blocks to HTML. Next to the serializer
 * sits what the blocks mean (a list of fragments) and a reader for the markup
 * the serializer emits, so that the HTML can be shown to carry every block's
 * text unchanged and inside the element its type asks for.
 */
module Blocks {
  import opened Js
  import opened Strings
  import opened Escape

  /**
   * `(b.type || "p").toLowerCase()`. Reading `type` off `null` or `undefined`
   * throws, and so does calling `toLowerCase` on a truthy non-string.
   */
  function BlockType(b: Json): (r: Result<string, JsError>)
    ensures r.Err? <==> Nullish(b) || (Truthy(Get(b, "type")) && !Get(b, "type").JStr?)
    ensures r.Ok? ==> HasNoUpper(r.value)
    ensures !Nullish(b) && !Truthy(Get(b, "type")) ==> r == Ok("p")
  {
    if Nullish(b) then Err(TypeError)
    else
      var t := Or(Get(b, "type"), JStr("p"));
      LowerOfLower("p");
      if t.JStr? then Ok(Lower(t.s)) else Err(TypeError)
  }

  /** `escape(b.text || "")` */
  function TextHtml(b: Json): string {
    EscapeHtml(Or(Get(b, "text"), JStr("")))
  }

  /** `` `<li>${escape(i)}</li>` `` */
  function ItemHtml(i: Json): string {
    "<li>" + EscapeHtml(i) + "</li>"
  }

  /** `items.map(i => ...).join("")` */
  function ItemsHtml(items: seq<Json>): string {
    if items == [] then "" else ItemHtml(items[0]) + ItemsHtml(items[1..])
  }

  /** The callback of `blocks.map`: one block to its element. */
  function BlockHtml(b: Json): (r: Result<string, JsError>)
    ensures r.Err? <==> Nullish(b) || (Truthy(Get(b, "type")) && !Get(b, "type").JStr?)
    ensures r.Err? ==> r.error == TypeError
    ensures !Nullish(b) && !Truthy(Get(b, "type")) ==> r == Ok("<p>" + TextHtml(b) + "</p>")
  {
    match BlockType(b)
    case Err(e) => Err(e)
    case Ok(t) =>
      if t == "h3" then Ok("<h3>" + TextHtml(b) + "</h3>")
      else if t == "blockquote" then Ok("<blockquote>" + TextHtml(b) + "</blockquote>")
      else if t == "ul" then Ok("<ul>" + ItemsHtml(ArrayOr(Get(b, "items"))) + "</ul>")
      else Ok("<p>" + TextHtml(b) + "</p>")
  }

  /** `blocks.map(...).join("")`: the first block that throws aborts the whole call. */
  function BlocksHtml(bs: seq<Json>): Result<string, JsError> {
    if bs == [] then Ok("")
    else
      match BlockHtml(bs[0])
      case Err(e) => Err(e)
      case Ok(h) =>
        match BlocksHtml(bs[1..])
        case Err(e) => Err(e)
        case Ok(rest) => Ok(h + rest)
  }

  /** `FMT.blocksToHTML(blocks)` */
  function BlocksToHtml(blocks: Json): (r: Result<string, JsError>)
    ensures blocks.JStr? ==> r == Ok("<p>" + Entities(blocks.s) + "</p>")
    ensures !blocks.JArr? && !blocks.JStr? ==> r == Ok("")
  {
    if blocks.JArr? then BlocksHtml(blocks.items)
    else if blocks.JStr? then Ok("<p>" + EscapeHtml(blocks) + "</p>")
    else Ok("")
  }

  /** An array of blocks fails exactly when one of its blocks has no usable type. */
  lemma {:induction false} BlocksHtmlFailsIff(bs: seq<Json>)
    ensures BlocksHtml(bs).Err? <==> exists i :: 0 <= i < |bs| && BlockType(bs[i]).Err?
  {
    if bs != [] {
      BlocksHtmlFailsIff(bs[1..]);
      if exists i :: 0 <= i < |bs[1..]| && BlockType(bs[1..][i]).Err? {
        var i :| 0 <= i < |bs[1..]| && BlockType(bs[1..][i]).Err?;
        assert BlockType(bs[i + 1]).Err?;
      }
      if exists i :: 0 <= i < |bs| && BlockType(bs[i]).Err? {
        var i :| 0 <= i < |bs| && BlockType(bs[i]).Err?;
        if i > 0 { assert BlockType(bs[1..][i - 1]).Err?; }
      }
    }
  }

  /** What a block says, before serialization: its kind and its text, unescaped. */
  datatype Fragment =
    | Heading(text: string)
    | Quote(text: string)
    | Bullets(items: seq<string>)
    | Para(text: string)

  /** `(s || "").toString()` applied to each list item. */
  function ItemTexts(items: seq<Json>): (r: seq<string>)
    ensures |r| == |items|
  {
    if items == [] then [] else [OrEmptyString(items[0])] + ItemTexts(items[1..])
  }

  function BlockFragment(b: Json): Result<Fragment, JsError> {
    match BlockType(b)
    case Err(e) => Err(e)
    case Ok(t) =>
      var text := OrEmptyString(Or(Get(b, "text"), JStr("")));
      if t == "h3" then Ok(Heading(text))
      else if t == "blockquote" then Ok(Quote(text))
      else if t == "ul" then Ok(Bullets(ItemTexts(ArrayOr(Get(b, "items")))))
      else Ok(Para(text))
  }

  function BlockFragments(bs: seq<Json>): Result<seq<Fragment>, JsError> {
    if bs == [] then Ok([])
    else
      match BlockFragment(bs[0])
      case Err(e) => Err(e)
      case Ok(f) =>
        match BlockFragments(bs[1..])
        case Err(e) => Err(e)
        case Ok(fs) => Ok([f] + fs)
  }

  /** The content `blocksToHTML` is meant to show: blocks for an array, one paragraph for a string. */
  function Fragments(blocks: Json): Result<seq<Fragment>, JsError> {
    if blocks.JArr? then BlockFragments(blocks.items)
    else if blocks.JStr? then Ok([Para(blocks.s)])
    else Ok([])
  }

  function RenderItems(items: seq<string>): string {
    if items == [] then "" else "<li>" + Entities(items[0]) + "</li>" + RenderItems(items[1..])
  }

  function Render(f: Fragment): string {
    match f
    case Heading(t) => "<h3>" + Entities(t) + "</h3>"
    case Quote(t) => "<blockquote>" + Entities(t) + "</blockquote>"
    case Bullets(items) => "<ul>" + RenderItems(items) + "</ul>"
    case Para(t) => "<p>" + Entities(t) + "</p>"
  }

  function RenderAll(fs: seq<Fragment>): string {
    if fs == [] then "" else Render(fs[0]) + RenderAll(fs[1..])
  }

  lemma {:induction false} ItemsHtmlIsRender(items: seq<Json>)
    ensures ItemsHtml(items) == RenderItems(ItemTexts(items))
  {
    if items != [] {
      ItemsHtmlIsRender(items[1..]);
      var t := ItemTexts(items);
      assert t[0] == OrEmptyString(items[0]) && t[1..] == ItemTexts(items[1..]);
    }
  }

  lemma BlockHtmlIsRender(b: Json)
    ensures BlockFragment(b).Err? <==> BlockHtml(b).Err?
    ensures BlockFragment(b).Err? ==> BlockFragment(b).error == BlockHtml(b).error
    ensures BlockFragment(b).Ok? ==> BlockHtml(b).value == Render(BlockFragment(b).value)
  {
    var bt := BlockType(b);
    if bt.Ok? {
      var t := bt.value;
      var text := OrEmptyString(Or(Get(b, "text"), JStr("")));
      assert TextHtml(b) == Entities(text);
      if t == "ul" {
        ItemsHtmlIsRender(ArrayOr(Get(b, "items")));
        assert BlockFragment(b) == Ok(Bullets(ItemTexts(ArrayOr(Get(b, "items")))));
      } else if t == "h3" {
        assert BlockFragment(b) == Ok(Heading(text));
      } else if t == "blockquote" {
        assert BlockFragment(b) == Ok(Quote(text));
      } else {
        assert BlockFragment(b) == Ok(Para(text));
      }
    }
  }

  /** `blocksToHTML` is the serialization of what the blocks mean, and fails exactly when they cannot be read. */
  lemma {:induction false} BlocksHtmlIsRender(bs: seq<Json>)
    ensures BlockFragments(bs).Err? <==> BlocksHtml(bs).Err?
    ensures BlockFragments(bs).Err? ==> BlockFragments(bs).error == BlocksHtml(bs).error
    ensures BlockFragments(bs).Ok? ==> BlocksHtml(bs).value == RenderAll(BlockFragments(bs).value)
  {
    if bs != [] {
      BlockHtmlIsRender(bs[0]);
      BlocksHtmlIsRender(bs[1..]);
      if BlockFragments(bs).Ok? {
        var fs := BlockFragments(bs).value;
        assert fs[0] == BlockFragment(bs[0]).value && fs[1..] == BlockFragments(bs[1..]).value;
      }
    }
  }

  lemma BlocksToHtmlIsRender(blocks: Json)
    ensures Fragments(blocks).Err? <==> BlocksToHtml(blocks).Err?
    ensures Fragments(blocks).Ok? ==> BlocksToHtml(blocks).value == RenderAll(Fragments(blocks).value)
  {
    if blocks.JArr? {
      BlocksHtmlIsRender(blocks.items);
    } else if blocks.JStr? {
      var fs := [Para(blocks.s)];
      assert RenderAll(fs) == Render(fs[0]) + RenderAll([]);
    }
  }

  // ---------------------------------------------------------------------------
  // Reading the markup back
  // ---------------------------------------------------------------------------

  /** The text up to the next `<`. */
  function TextRun(s: string): (r: string)
    ensures |r| <= |s| && r == s[..|r|]
  {
    if s == [] || s[0] == '<' then "" else [s[0]] + TextRun(s[1..])
  }

  /** Escaped text holds no `<`, so a run read from it stops exactly at the following tag. */
  lemma {:induction false} TextRunStops(t: string, u: string)
    requires '<' !in t && u != [] && u[0] == '<'
    ensures TextRun(t + u) == t
  {
    if t != [] {
      assert (t + u)[0] == t[0] && (t + u)[1..] == t[1..] + u;
      TextRunStops(t[1..], u);
    } else {
      assert t + u == u;
    }
  }

  /** Reads `open`, a run of escaped text and `close`; yields the decoded text and what follows. */
  function ReadElement(s: string, open: string, close: string): (r: Option<(string, string)>)
    requires open != []
    ensures r.Some? ==> |r.value.1| < |s|
  {
    if !StartsWith(s, open) then None
    else
      var body := TextRun(s[|open|..]);
      var after := s[|open| + |body|..];
      if StartsWith(after, close) then Some((Unescape(body), after[|close|..])) else None
  }

  /** Reads consecutive `<li>` elements. */
  function ReadItems(s: string): (r: (seq<string>, string))
    ensures |r.1| <= |s|
    decreases |s|
  {
    match ReadElement(s, "<li>", "</li>")
    case None => ([], s)
    case Some((t, rest)) =>
      var (ts, after) := ReadItems(rest);
      ([t] + ts, after)
  }

  function Prepend(f: Fragment, r: Option<seq<Fragment>>): Option<seq<Fragment>> {
    match r
    case None => None
    case Some(fs) => Some([f] + fs)
  }

  /** Reads the markup `blocksToHTML` emits back into fragments; None when it is not such markup. */
  function Parse(s: string): Option<seq<Fragment>>
    decreases |s|
  {
    if s == [] then Some([])
    else if StartsWith(s, "<ul>") then
      var (items, after) := ReadItems(s[4..]);
      if StartsWith(after, "</ul>") then Prepend(Bullets(items), Parse(after[5..])) else None
    else
      match ReadElement(s, "<h3>", "</h3>")
      case Some((t, rest)) => Prepend(Heading(t), Parse(rest))
      case None =>
        match ReadElement(s, "<blockquote>", "</blockquote>")
        case Some((t, rest)) => Prepend(Quote(t), Parse(rest))
        case None =>
          match ReadElement(s, "<p>", "</p>")
          case Some((t, rest)) => Prepend(Para(t), Parse(rest))
          case None => None
  }

  /** An element holding text without `<` reads back as that text, decoded. */
  lemma ReadElementOf(open: string, close: string, e: string, rest: string)
    requires open != [] && close != [] && close[0] == '<' && '<' !in e
    ensures ReadElement(open + e + close + rest, open, close) == Some((Unescape(e), rest))
  {
    var s := open + e + close + rest;
    assert s[..|open|] == open;
    assert s[|open|..] == e + (close + rest);
    TextRunStops(e, close + rest);
    assert s[|open| + |e|..] == close + rest;
    assert (close + rest)[..|close|] == close;
    assert (close + rest)[|close|..] == rest;
  }

  /** An element whose tag differs from `open` at the second character is not read as `open`. */
  lemma ReadElementOther(s: string, open: string, close: string)
    requires |open| >= 2 && |s| >= 2 && s[1] != open[1]
    ensures ReadElement(s, open, close) == None
  {
  }

  /** Escaped text decodes to itself and holds no `<`. */
  lemma EscapedText(t: string)
    ensures '<' !in Entities(t) && Unescape(Entities(t)) == t
  {
    UnescapeEscape(t);
  }

  lemma ReadItemStep(t: string, more: string, s: string)
    requires s == "<li>" + Entities(t) + "</li>" + more
    ensures ReadElement(s, "<li>", "</li>") == Some((t, more))
  {
    EscapedText(t);
    ReadElementOf("<li>", "</li>", Entities(t), more);
  }

  lemma {:induction false} ReadItemsOf(items: seq<string>, rest: string)
    requires |rest| >= 2 && rest[1] == '/'
    ensures ReadItems(RenderItems(items) + rest) == (items, rest)
  {
    if items == [] {
      assert RenderItems(items) + rest == rest;
      ReadElementOther(rest, "<li>", "</li>");
    } else {
      var more := RenderItems(items[1..]) + rest;
      var s := RenderItems(items) + rest;
      RenderItemsCons(items, rest);
      ReadItemStep(items[0], more, s);
      ReadItemsCons(s, items[0], more);
      ReadItemsOf(items[1..], rest);
      assert [items[0]] + items[1..] == items;
    }
  }

  lemma RenderItemsCons(items: seq<string>, rest: string)
    requires items != []
    ensures RenderItems(items) + rest == "<li>" + Entities(items[0]) + "</li>" + (RenderItems(items[1..]) + rest)
  {
  }

  lemma ReadItemsCons(s: string, t: string, more: string)
    requires ReadElement(s, "<li>", "</li>") == Some((t, more))
    ensures ReadItems(s) == ([t] + ReadItems(more).0, ReadItems(more).1)
  {
  }

  lemma NotList(s: string)
    requires |s| >= 2 && s[1] != 'u'
    ensures !StartsWith(s, "<ul>")
  {
  }

  /** How `Parse` proceeds on markup that opens with each element. */
  lemma ParseAtHeading(s: string, t: string, rest: string)
    requires |s| >= 2 && s[1] == 'h' && ReadElement(s, "<h3>", "</h3>") == Some((t, rest))
    ensures Parse(s) == Prepend(Heading(t), Parse(rest))
  {
    NotList(s);
  }

  lemma ParseAtQuote(s: string, t: string, rest: string)
    requires |s| >= 2 && s[1] == 'b' && ReadElement(s, "<blockquote>", "</blockquote>") == Some((t, rest))
    ensures Parse(s) == Prepend(Quote(t), Parse(rest))
  {
    NotList(s);
    ReadElementOther(s, "<h3>", "</h3>");
  }

  lemma ParseAtPara(s: string, t: string, rest: string)
    requires |s| >= 2 && s[1] == 'p' && ReadElement(s, "<p>", "</p>") == Some((t, rest))
    ensures Parse(s) == Prepend(Para(t), Parse(rest))
  {
    NotList(s);
    ReadElementOther(s, "<h3>", "</h3>");
    ReadElementOther(s, "<blockquote>", "</blockquote>");
  }

  lemma ParseAtBullets(s: string, items: seq<string>, rest: string)
    requires StartsWith(s, "<ul>") && ReadItems(s[4..]) == (items, "</ul>" + rest)
    ensures Parse(s) == Prepend(Bullets(items), Parse(rest))
  {
    assert ("</ul>" + rest)[5..] == rest;
  }

  lemma ParseHeading(t: string, rest: string)
    ensures Parse(Render(Heading(t)) + rest) == Prepend(Heading(t), Parse(rest))
  {
    var s := Render(Heading(t)) + rest;
    assert s == "<h3>" + Entities(t) + "</h3>" + rest;
    EscapedText(t);
    ReadElementOf("<h3>", "</h3>", Entities(t), rest);
    ParseAtHeading(s, t, rest);
  }

  lemma ParseQuote(t: string, rest: string)
    ensures Parse(Render(Quote(t)) + rest) == Prepend(Quote(t), Parse(rest))
  {
    var s := Render(Quote(t)) + rest;
    assert s == "<blockquote>" + Entities(t) + "</blockquote>" + rest;
    EscapedText(t);
    ReadElementOf("<blockquote>", "</blockquote>", Entities(t), rest);
    ParseAtQuote(s, t, rest);
  }

  lemma ParsePara(t: string, rest: string)
    ensures Parse(Render(Para(t)) + rest) == Prepend(Para(t), Parse(rest))
  {
    var s := Render(Para(t)) + rest;
    assert s == "<p>" + Entities(t) + "</p>" + rest;
    EscapedText(t);
    ReadElementOf("<p>", "</p>", Entities(t), rest);
    ParseAtPara(s, t, rest);
  }

  lemma ParseBullets(items: seq<string>, rest: string)
    ensures Parse(Render(Bullets(items)) + rest) == Prepend(Bullets(items), Parse(rest))
  {
    var s := Render(Bullets(items)) + rest;
    var close := "</ul>" + rest;
    assert s == "<ul>" + (RenderItems(items) + close);
    assert s[4..] == RenderItems(items) + close;
    ReadItemsOf(items, close);
    ParseAtBullets(s, items, rest);
  }

  /** Reading a rendered fragment followed by more markup yields the fragment, then whatever the rest reads as. */
  lemma ParseRenderCons(f: Fragment, rest: string)
    ensures Parse(Render(f) + rest) == Prepend(f, Parse(rest))
  {
    match f
    case Heading(t) => ParseHeading(t, rest);
    case Quote(t) => ParseQuote(t, rest);
    case Para(t) => ParsePara(t, rest);
    case Bullets(items) => ParseBullets(items, rest);
  }

  lemma {:induction false} ParseRenderAll(fs: seq<Fragment>)
    ensures Parse(RenderAll(fs)) == Some(fs)
  {
    if fs != [] {
      ParseRenderCons(fs[0], RenderAll(fs[1..]));
      ParseRenderAll(fs[1..]);
      assert [fs[0]] + fs[1..] == fs;
    }
  }

  /**
   * Whatever `blocksToHTML` returns reads back as exactly the blocks' kinds
   * and texts: text can neither escape its element nor be altered.
   */
  lemma BlocksReadBack(blocks: Json)
    ensures BlocksToHtml(blocks).Ok? <==> Fragments(blocks).Ok?
    ensures BlocksToHtml(blocks).Ok? ==> Parse(BlocksToHtml(blocks).value) == Some(Fragments(blocks).value)
  {
    BlocksToHtmlIsRender(blocks);
    if Fragments(blocks).Ok? {
      ParseRenderAll(Fragments(blocks).value);
    }
  }
}

=== FILE: cards.dfy ===
/**
 * `DOM.teamCard` and `DOM.articleCard`: the defaulting and capping rules
 * that turn one JSON entry into a card, built with `Dom.El`.
 */
module Cards {
  import opened Js
  import opened Strings
  import opened Seqs
  import opened Dom

  /** `(m && m[key]) || dflt` */
  function Field(m: Json, key: string, dflt: string): (v: Json)
    ensures Truthy(Get(m, key)) ==> v == Get(m, key)
    ensures !Truthy(Get(m, key)) ==> v == JStr(dflt)
  {
    Or(Get(m, key), JStr(dflt))
  }

  /** `Array.isArray(m && m[key]) ? m[key] : []` */
  function ListField(m: Json, key: string): seq<Json> {
    ArrayOr(Get(m, key))
  }

  function Str(s: string): Val {
    Data(JStr(s))
  }

  // ---------------------------------------------------------------- team card

  const DefaultName := "未命名"
  const DefaultRole := "—"
  const DefaultBio := "（尚未填寫簡介）"
  const DefaultAvatar := "../assets/img/team/gm.png"
  const LinkCaption := "連結"
  /** The avatar's error handler, which swaps in the default picture. */
  const AvatarFallback := "function () { this.src = \"../assets/img/team/gm.png\"; }"

  /** Tag pills alternate by index: accent for even, warn for odd. */
  function ParityVariant(i: nat): Json {
    if i % 2 == 0 then JStr("accent") else JStr("warn")
  }

  /** `tags.slice(0, 3).map((t, i) => DOM.pill(t, i % 2 === 0 ? "accent" : "warn"))` */
  function TeamPills(tags: seq<Json>): (r: seq<Node>)
    ensures |r| == |Take(tags, 3)|
    ensures forall i :: 0 <= i < |r| ==> r[i] == Pill(tags[i], ParityVariant(i))
  {
    var t := Take(tags, 3);
    seq(|t|, i requires 0 <= i < |t| => Pill(t[i], ParityVariant(i)))
  }

  /** The url of a link entry, `(l && l.url) || "#"`; anything but a string makes `url.startsWith` raise. */
  predicate BadLink(l: Json) {
    !Field(l, "url", "#").JStr?
  }

  /** The attribute entries of one link, in object order; `target` and `rel` are null (and so skipped) for non-http urls. */
  function LinkProps(url: string, caption: Json): seq<(string, Val)> {
    var external := StartsWith(url, "http");
    [("class", Str("team-link")), ("href", Str(url))] + NewTabIf(external) + [("text", Data(caption))]
  }

  /** One entry of the link row. */
  function LinkNode(l: Json): (r: Result<Node, JsError>)
    ensures r.Err? <==> BadLink(l)
  {
    var url := Field(l, "url", "#");
    if !url.JStr? then Err(TypeError)
    else Ok(ElBare("a", LinkProps(url.s, Field(l, "label", LinkCaption))))
  }

  /** `links.slice(0, 3).map(...)`: the first entry whose url is not a string aborts the card. */
  function LinkNodes(links: seq<Json>): (r: Result<seq<Node>, JsError>)
    ensures r.Ok? ==> |r.value| == |links|
    ensures r.Err? ==> r.error == TypeError
    ensures r.Ok? ==> forall i :: 0 <= i < |links| ==> LinkNode(links[i]) == Ok(r.value[i])
  {
    if links == [] then Ok([])
    else
      var head := LinkNode(links[0]);
      var rest := LinkNodes(links[1..]);
      if head.Err? then Err(head.error)
      else if rest.Err? then Err(rest.error)
      else Ok([head.value] + rest.value)
  }

  lemma {:induction false} LinkNodesFail(links: seq<Json>)
    ensures LinkNodes(links).Err? <==> exists i :: 0 <= i < |links| && BadLink(links[i])
  {
    if links != [] {
      LinkNodesFail(links[1..]);
      if exists i :: 0 <= i < |links| && BadLink(links[i]) {
        var i :| 0 <= i < |links| && BadLink(links[i]);
        if i > 0 { assert BadLink(links[1..][i - 1]); }
      }
      if exists i :: 0 <= i < |links[1..]| && BadLink(links[1..][i]) {
        var i :| 0 <= i < |links[1..]| && BadLink(links[1..][i]);
        assert BadLink(links[i + 1]);
      }
    }
  }

  /**
   * A team link points at its url ("#" by default) and shows its label
   * ("連結" by default); `target` and `rel` are present exactly when the url
   * starts with "http".
   */
  lemma LinkNodeSpec(l: Json)
    requires !BadLink(l)
    ensures
      var url := Field(l, "url", "#").s;
      var n := LinkNode(l).value;
      && n.tag == "a"
      && n.attrs == (if StartsWith(url, "http") then map["class" := "team-link", "href" := url, "target" := "_blank", "rel" := "noopener"]
                     else map["class" := "team-link", "href" := url])
      && n.kids == TextKids(ToStr(Field(l, "label", LinkCaption)))
  {
    LinkPropsSpec(Field(l, "url", "#").s, Field(l, "label", LinkCaption));
  }

  /** The element one link's entries build. */
  lemma LinkPropsSpec(url: string, caption: Json)
    requires !Nullish(caption)
    ensures ElBare("a", LinkProps(url, caption)) ==
      Node("a", if StartsWith(url, "http") then map["class" := "team-link", "href" := url, "target" := "_blank", "rel" := "noopener"]
                else map["class" := "team-link", "href" := url],
           map[], [], TextKids(ToStr(caption)))
  {
    var external := StartsWith(url, "http");
    var head := [("class", Data(JStr("team-link"))), ("href", Data(JStr(url)))];
    var tabs := NewTabIf(external);
    var last := ("text", Data(caption));
    assert LinkProps(url, caption) == head + tabs + [last];
    var n0 := Blank("a");
    ApplyAttrsAppend(n0, head + tabs, [last]);
    ApplyAttrsAppend(n0, head, tabs);
    TwoStringAttrs(n0, "class", "team-link", "href", url);
    NewTabIfSpec(n0.(attrs := map["class" := "team-link", "href" := url]), external);
    ApplyOne(ApplyAttrs(n0, head + tabs), last);
  }

  /** The `target` and `rel` entries of a link: null, and so skipped, unless the link is external. */
  function NewTabIf(external: bool): seq<(string, Val)> {
    [("target", Data(if external then JStr("_blank") else JNull)), ("rel", Data(if external then JStr("noopener") else JNull))]
  }

  lemma NewTabIfSpec(n: Node, external: bool)
    ensures ApplyAttrs(n, NewTabIf(external)) == if external then n.(attrs := n.attrs["target" := "_blank"]["rel" := "noopener"]) else n
  {
    if external {
      TwoStringAttrs(n, "target", "_blank", "rel", "noopener");
    } else {
      ApplyPair(n, NewTabIf(external)[0], NewTabIf(external)[1]);
    }
  }

  /** An image with a source, an alt text and an error handler: the avatar of a team card and the cover of an article card. */
  function Picture(src: Json, alt: Json, fallback: string): Node {
    ElBare("img", [("src", Data(src)), ("alt", Data(alt)), ("onerror", Handler(fallback))])
  }

  /** A picture stores its source and alt text as attributes and binds its handler to the `error` event. */
  lemma PictureSpec(src: Json, alt: Json, fallback: string)
    requires !Nullish(src) && !Nullish(alt)
    ensures Picture(src, alt, fallback) ==
      Node("img", map["src" := ToStr(src), "alt" := ToStr(alt)], map[], [Listener("error", fallback)], [])
  {
    var props := [("src", Data(src)), ("alt", Data(alt)), ("onerror", Handler(fallback))];
    var n0 := Blank("img");
    assert props == props[..2] + [props[2]];
    ApplyAttrsAppend(n0, props[..2], [props[2]]);
    ApplyPair(n0, props[0], props[1]);
    NotOn("src");
    NotOn("alt");
    LowerOfLower("src");
    LowerOfLower("alt");
    ApplyOne(n0.(attrs := map["src" := ToStr(src), "alt" := ToStr(alt)]), props[2]);
    assert "onerror"[2..] == "error";
  }

  /** The role line: a span with the role, then the tag pills. */
  function RoleRow(role: Json, tags: seq<Json>): Node {
    ElList("div", [("class", Str("team-member__role"))],
           [NodeVal(ElBare("span", [("text", Data(role))]))] + NodeVals(TeamPills(tags)))
  }

  lemma RoleRowSpec(role: Json, tags: seq<Json>)
    requires !Nullish(role)
    ensures RoleRow(role, tags) ==
      Node("div", map["class" := "team-member__role"], map[], [],
           [Elem(Node("span", map[], map[], [], TextKids(ToStr(role))))] + ElemKids(TeamPills(tags)))
  {
    var span := ElBare("span", [("text", Data(role))]);
    ApplyOne(Blank("span"), ("text", Data(role)));
    var pills := TeamPills(tags);
    assert [NodeVal(span)] + NodeVals(pills) == NodeVals([span] + pills);
    ClassList("div", "team-member__role", [span] + pills);
    assert ElemKids([span] + pills) == [Elem(span)] + ElemKids(pills);
  }

  /** The name line above the role line. */
  function MemberMeta(name: Json, role: Json, tags: seq<Json>): Node {
    ElList("div", [("class", Str("team-member__meta"))],
           NodeVals([ElBare("div", [("class", Str("team-member__name")), ("text", Data(name))]), RoleRow(role, tags)]))
  }

  lemma MemberMetaSpec(name: Json, role: Json, tags: seq<Json>)
    requires !Nullish(name)
    ensures MemberMeta(name, role, tags) ==
      Node("div", map["class" := "team-member__meta"], map[], [],
           [Elem(Node("div", map["class" := "team-member__name"], map[], [], TextKids(ToStr(name)))), Elem(RoleRow(role, tags))])
  {
    var nameLine := ElBare("div", [("class", Str("team-member__name")), ("text", Data(name))]);
    ClassText("div", "team-member__name", name);
    ClassList("div", "team-member__meta", [nameLine, RoleRow(role, tags)]);
    assert ElemKids([nameLine, RoleRow(role, tags)]) == [Elem(nameLine), Elem(RoleRow(role, tags))];
  }

  /** The top row: the boxed avatar beside the name and role. */
  function MemberTop(avatar: Json, name: Json, role: Json, tags: seq<Json>): Node {
    ElList("div", [("class", Str("team-member__top"))],
           NodeVals([ElList("div", [("class", Str("team-member__avatar"))], NodeVals([Picture(avatar, name, AvatarFallback)])),
                     MemberMeta(name, role, tags)]))
  }

  lemma MemberTopSpec(avatar: Json, name: Json, role: Json, tags: seq<Json>)
    ensures MemberTop(avatar, name, role, tags) ==
      Node("div", map["class" := "team-member__top"], map[], [],
           [Elem(Node("div", map["class" := "team-member__avatar"], map[], [], [Elem(Picture(avatar, name, AvatarFallback))])),
            Elem(MemberMeta(name, role, tags))])
  {
    var pic := Picture(avatar, name, AvatarFallback);
    var box := ElList("div", [("class", Str("team-member__avatar"))], NodeVals([pic]));
    ClassList("div", "team-member__avatar", [pic]);
    assert ElemKids([pic]) == [Elem(pic)];
    ClassList("div", "team-member__top", [box, MemberMeta(name, role, tags)]);
    assert ElemKids([box, MemberMeta(name, role, tags)]) == [Elem(box), Elem(MemberMeta(name, role, tags))];
  }

  /**
   * `DOM.teamCard(m)`. It fails exactly when one of the first three links
   * has a url that is not a string. Otherwise the card is an `article`
   * holding the top row (avatar, name, role and tag pills), the bio line
   * (default "（尚未填寫簡介）") and the link row with one link per entry
   * among the first three, in order.
   */
  function TeamCard(m: Json): (r: Result<Node, JsError>)
    ensures r.Err? <==> exists i :: 0 <= i < |Take(ListField(m, "links"), 3)| && BadLink(ListField(m, "links")[i])
    ensures r.Err? ==> r.error == TypeError
    ensures r.Ok? ==>
      && LinkNodes(Take(ListField(m, "links"), 3)).Ok?
      && r.value == Node("article", map["class" := "team-member"], map[], [],
        [Elem(MemberTop(Field(m, "avatar", DefaultAvatar), Field(m, "name", DefaultName), Field(m, "role", DefaultRole), ListField(m, "tags"))),
         Elem(Node("div", map["class" := "team-member__bio"], map[], [], TextKids(ToStr(Field(m, "bio", DefaultBio))))),
         Elem(Node("div", map["class" := "team-member__links"], map[], [], ElemKids(LinkNodes(Take(ListField(m, "links"), 3)).value)))])
  {
    var top := MemberTop(Field(m, "avatar", DefaultAvatar), Field(m, "name", DefaultName), Field(m, "role", DefaultRole), ListField(m, "tags"));
    var bio := Field(m, "bio", DefaultBio);
    var shown := Take(ListField(m, "links"), 3);
    var links := LinkNodes(shown);
    LinkNodesFail(shown);
    if links.Err? then Err(links.error)
    else
      MemberCardSpec(top, bio, links.value);
      Ok(MemberCard(top, bio, links.value))
  }

  /** The card around the top row: the bio line, then the link row. */
  function MemberCard(top: Node, bio: Json, links: seq<Node>): Node {
    ElList("article", [("class", Str("team-member"))],
           NodeVals([top,
                     ElBare("div", [("class", Str("team-member__bio")), ("text", Data(bio))]),
                     ElList("div", [("class", Str("team-member__links"))], NodeVals(links))]))
  }

  lemma MemberCardSpec(top: Node, bio: Json, links: seq<Node>)
    requires !Nullish(bio)
    ensures MemberCard(top, bio, links) ==
      Node("article", map["class" := "team-member"], map[], [],
           [Elem(top),
            Elem(Node("div", map["class" := "team-member__bio"], map[], [], TextKids(ToStr(bio)))),
            Elem(Node("div", map["class" := "team-member__links"], map[], [], ElemKids(links)))])
  {
    var bioLine := ElBare("div", [("class", Str("team-member__bio")), ("text", Data(bio))]);
    var linkRow := ElList("div", [("class", Str("team-member__links"))], NodeVals(links));
    ClassText("div", "team-member__bio", bio);
    ClassList("div", "team-member__links", links);
    ClassList("article", "team-member", [top, bioLine, linkRow]);
    assert ElemKids([top, bioLine, linkRow]) == [Elem(top), Elem(bioLine), Elem(linkRow)];
  }

  // ------------------------------------------------------------- article card

  const DefaultTitle := "未命名文章"
  const DefaultExcerpt := "（尚未填寫摘要）"
  const DefaultCover := "../assets/img/articles/a-0001-cover.jpg"
  const ReadLabel := "閱讀全文"
  /** The cover's error handler, which dims the broken image. */
  const CoverFallback := "function () { this.style.opacity = \".35\"; }"

  /** The link to an article's page: `./article.html?id=` followed by the encoded id. */
  function ReadHref(encode: string -> string, id: Json): string {
    "./article.html?id=" + encode(ToStr(id))
  }

  /** `tags.map((t) => DOM.pill(t, "accent"))` */
  function AccentPills(tags: seq<Json>): (r: seq<Node>)
    ensures |r| == |tags|
    ensures forall i :: 0 <= i < |tags| ==> r[i] == Pill(tags[i], JStr("accent"))
  {
    if tags == [] then [] else [Pill(tags[0], JStr("accent"))] + AccentPills(tags[1..])
  }

  /** The meta row: a date pill when the date is truthy, then at most two accent tag pills. */
  function MetaPills(date: Json, tags: seq<Json>): (r: seq<Node>)
    ensures |r| == (if Truthy(date) then 1 else 0) + |Take(tags, 2)|
    ensures Truthy(date) ==> r[0] == Pill(date, JNull)
    ensures forall i :: 0 <= i < |Take(tags, 2)| ==> r[|r| - |Take(tags, 2)| + i] == Pill(tags[i], JStr("accent"))
  {
    (if Truthy(date) then [Pill(date, JNull)] else []) + AccentPills(Take(tags, 2))
  }

  /** `[date ? DOM.pill(date, null) : null, ...pills]`, before the filter. */
  function MetaItems(date: Json, tags: seq<Json>): seq<Val> {
    [if Truthy(date) then NodeVal(Pill(date, JNull)) else Data(JNull)] + NodeVals(AccentPills(Take(tags, 2)))
  }

  /** `Boolean(v)` for a value handed to `el`: functions and nodes are objects, so truthy. */
  predicate TruthyVal(v: Val) {
    !v.Data? || Truthy(v.j)
  }

  /** `.filter(Boolean)` drops exactly the null placeholder, since nodes are truthy. */
  lemma MetaItemsFiltered(date: Json, tags: seq<Json>)
    ensures Filter(MetaItems(date, tags), TruthyVal) == NodeVals(MetaPills(date, tags))
  {
    var items := MetaItems(date, tags);
    var pills := AccentPills(Take(tags, 2));
    var rest := NodeVals(pills);
    FilterAllPass(rest, TruthyVal);
    assert items == [items[0]] + rest;
    if Truthy(date) {
      assert Filter(items, TruthyVal) == [items[0]] + rest;
      assert NodeVals([Pill(date, JNull)] + pills) == [NodeVal(Pill(date, JNull))] + rest;
    } else {
      assert Filter(items, TruthyVal) == rest;
      assert [] + pills == pills;
    }
  }

  /** The meta row element. */
  function MetaRow(date: Json, tags: seq<Json>): Node {
    MetaItemsFiltered(date, tags);
    ElList("div", [("class", Str("article-card__meta"))], Filter(MetaItems(date, tags), TruthyVal))
  }

  lemma MetaRowSpec(date: Json, tags: seq<Json>)
    ensures MetaRow(date, tags) == Node("div", map["class" := "article-card__meta"], map[], [], ElemKids(MetaPills(date, tags)))
  {
    MetaItemsFiltered(date, tags);
    ClassList("div", "article-card__meta", MetaPills(date, tags));
  }

  /** The "閱讀全文" link. */
  function ReadLink(href: string): Node {
    ElBare("a", [("class", Str("article-read")), ("href", Str(href)), ("text", Str(ReadLabel))])
  }

  lemma ReadLinkSpec(href: string)
    ensures ReadLink(href) == Node("a", map["class" := "article-read", "href" := href], map[], [], [Text(ReadLabel)])
  {
    var head := [("class", Data(JStr("article-read"))), ("href", Data(JStr(href)))];
    var last := ("text", Data(JStr(ReadLabel)));
    var n0 := Blank("a");
    assert [("class", Str("article-read")), ("href", Str(href)), ("text", Str(ReadLabel))] == head + [last];
    ApplyAttrsAppend(n0, head, [last]);
    TwoStringAttrs(n0, "class", "article-read", "href", href);
    ApplyOne(n0.(attrs := map["class" := "article-read", "href" := href]), last);
  }

  /** The `ID：` hint with the id in a monospace span. */
  function IdHint(id: Json): Node {
    ElList("span", [("class", Str("hint"))],
           [Str("ID："), NodeVal(ElBare("span", [("class", Str("mono")), ("text", Data(Or(id, JStr("N/A"))))]))])
  }

  /** The hint shows the id, or "N/A" when it is falsy. */
  lemma IdHintSpec(id: Json)
    ensures IdHint(id) ==
      Node("span", map["class" := "hint"], map[], [],
           [Text("ID："), Elem(Node("span", map["class" := "mono"], map[], [], TextKids(if Truthy(id) then ToStr(id) else "N/A")))])
  {
    var shown := ElBare("span", [("class", Str("mono")), ("text", Data(Or(id, JStr("N/A"))))]);
    ClassText("span", "mono", Or(id, JStr("N/A")));
    ApplyOne(Blank("span"), ("class", Str("hint")));
    assert KidsOf([Str("ID："), NodeVal(shown)]) == [Text("ID："), Elem(shown)];
  }

  /** The actions row: the read link and the id hint. */
  function Actions(href: string, id: Json): Node {
    ElList("div", [("class", Str("article-card__actions"))], NodeVals([ReadLink(href), IdHint(id)]))
  }

  lemma ActionsSpec(href: string, id: Json)
    ensures Actions(href, id) == Node("div", map["class" := "article-card__actions"], map[], [], [Elem(ReadLink(href)), Elem(IdHint(id))])
  {
    ClassList("div", "article-card__actions", [ReadLink(href), IdHint(id)]);
    assert ElemKids([ReadLink(href), IdHint(id)]) == [Elem(ReadLink(href)), Elem(IdHint(id))];
  }

  /** The boxed cover picture. */
  function CoverBox(cover: Json, title: Json): Node {
    ElList("div", [("class", Str("article-card__cover"))], NodeVals([Picture(cover, title, CoverFallback)]))
  }

  lemma CoverBoxSpec(cover: Json, title: Json)
    ensures CoverBox(cover, title) == Node("div", map["class" := "article-card__cover"], map[], [], [Elem(Picture(cover, title, CoverFallback))])
  {
    ClassList("div", "article-card__cover", [Picture(cover, title, CoverFallback)]);
    assert ElemKids([Picture(cover, title, CoverFallback)]) == [Elem(Picture(cover, title, CoverFallback))];
  }

  /** The card body: title, meta row, excerpt, actions. */
  function ArticleBody(title: Json, excerpt: Json, meta: Node, actions: Node): Node {
    ElList("div", [("class", Str("article-card__body"))],
           NodeVals([ElBare("h3", [("class", Str("article-card__title")), ("text", Data(title))]), meta,
                     ElBare("p", [("class", Str("article-card__excerpt")), ("text", Data(excerpt))]), actions]))
  }

  lemma ArticleBodySpec(title: Json, excerpt: Json, meta: Node, actions: Node)
    requires !Nullish(title) && !Nullish(excerpt)
    ensures ArticleBody(title, excerpt, meta, actions) ==
      Node("div", map["class" := "article-card__body"], map[], [],
           [Elem(Node("h3", map["class" := "article-card__title"], map[], [], TextKids(ToStr(title)))), Elem(meta),
            Elem(Node("p", map["class" := "article-card__excerpt"], map[], [], TextKids(ToStr(excerpt)))), Elem(actions)])
  {
    var heading := ElBare("h3", [("class", Str("article-card__title")), ("text", Data(title))]);
    var para := ElBare("p", [("class", Str("article-card__excerpt")), ("text", Data(excerpt))]);
    ClassText("h3", "article-card__title", title);
    ClassText("p", "article-card__excerpt", excerpt);
    ClassList("div", "article-card__body", [heading, meta, para, actions]);
  }

  /**
   * `DOM.articleCard(a)`; `encode` stands for `encodeURIComponent`. An
   * article card is an `article` holding the cover box and the body: the
   * title (default "未命名文章"), the meta row, the excerpt (default
   * "（尚未填寫摘要）") and the actions, whose read link goes to
   * `./article.html?id=` plus the encoded id.
   */
  function ArticleCard(encode: string -> string, a: Json): (r: Node)
    ensures r ==
      Node("article", map["class" := "article-card"], map[], [],
           [Elem(CoverBox(Field(a, "cover", DefaultCover), Field(a, "title", DefaultTitle))),
            Elem(ArticleBody(Field(a, "title", DefaultTitle), Field(a, "excerpt", DefaultExcerpt),
                             MetaRow(Field(a, "date", ""), ListField(a, "tags")),
                             Actions("./article.html?id=" + encode(OrEmptyString(Get(a, "id"))), Field(a, "id", ""))))])
  {
    var id := Field(a, "id", "");
    var title := Field(a, "title", DefaultTitle);
    var excerpt := Field(a, "excerpt", DefaultExcerpt);
    var cover := Field(a, "cover", DefaultCover);
    var date := Field(a, "date", "");
    var tags := ListField(a, "tags");
    var body := ArticleBody(title, excerpt, MetaRow(date, tags), Actions(ReadHref(encode, id), id));
    ReadHrefOfField(encode, a);
    ClassList("article", "article-card", [CoverBox(cover, title), body]);
    ElList("article", [("class", Str("article-card"))], NodeVals([CoverBox(cover, title), body]))
  }

  /** The id the read link carries: `String(id)`, or "" when the entry has none. */
  lemma ReadHrefOfField(encode: string -> string, a: Json)
    ensures ReadHref(encode, Field(a, "id", "")) == "./article.html?id=" + encode(OrEmptyString(Get(a, "id")))
  {
  }
}

=== FILE: dom.dfy ===
/**
 * `DOM.el` and the small UI primitives built on it (`pill`, `buttonLink`,
 * `emptyState`). Instead of touching a document, `el` builds an immutable
 * node value: its attributes, data attributes, bound listeners and
 * children.
 */
module Dom {
  import opened Js
  import opened Strings
  import opened Seqs

  /** A listener bound with `addEventListener`: the event name and the handler, known by its source text. */
  datatype Listener = Listener(event: string, handler: string)

  /** A child: a text node, markup assigned through `innerHTML` (kept unparsed), or an element. */
  datatype Kid = Text(text: string) | Markup(html: string) | Elem(node: Node)

  datatype Node = Node(
    tag: string,
    attrs: map<string, string>,
    dataset: map<string, string>,
    listeners: seq<Listener>,
    kids: seq<Kid>)

  /** A value handed to `el`: JSON data, a function (known by its source text) or a node built earlier. */
  datatype Val = Data(j: Json) | Handler(source: string) | NodeVal(node: Node)

  /** The `children` argument: an array literal of values, or one value (which may itself be a JSON array). */
  datatype Children = List(items: seq<Val>) | Single(v: Val)

  const NoChildren: Children := Single(Data(JUndefined))

  predicate NullishVal(v: Val) {
    v.Data? && Nullish(v.j)
  }

  /** `typeof v === "object"` for a value that is not null. */
  predicate IsObjectVal(v: Val) {
    (v.Data? && (v.j.JObj? || v.j.JArr?)) || v.NodeVal?
  }

  /** The string a DOM property or attribute stores when `v` is assigned to it. */
  function ValStr(v: Val): string {
    match v
    case Data(j) => ToStr(j)
    case Handler(src) => src
    case NodeVal(_) => "[object HTMLElement]"
  }

  /** `Object.entries(v)` as `dataset` assignments see them: every value converted to a string. */
  function DataProps(v: Val): map<string, string> {
    if v.Data? then
      var props := OwnProps(v.j);
      map k | k in props :: ToStr(props[k])
    else map[]
  }

  /** The children `textContent = s` leaves: one text node, or nothing for "". */
  function TextKids(s: string): seq<Kid> {
    if s == "" then [] else [Text(s)]
  }

  /** `n.textContent = s`: the children are replaced. */
  function SetText(n: Node, s: string): (r: Node)
    ensures r.tag == n.tag && r.attrs == n.attrs && r.dataset == n.dataset && r.listeners == n.listeners
  {
    n.(kids := TextKids(s))
  }

  /** One attribute entry of `el`, applied to the node under construction. */
  function ApplyAttr(n: Node, k: string, v: Val): Node {
    if NullishVal(v) then n
    else if k == "class" then n.(attrs := n.attrs["class" := ValStr(v)])
    else if k == "text" then SetText(n, ValStr(v))
    else if k == "html" then n.(kids := if ValStr(v) == "" then [] else [Markup(ValStr(v))])
    else if k == "dataset" && IsObjectVal(v) then n.(dataset := n.dataset + DataProps(v))
    else if StartsWith(k, "on") && v.Handler? then n.(listeners := n.listeners + [Listener(k[2..], v.source)])
    else n.(attrs := n.attrs[Lower(k) := ValStr(v)])
  }

  /** The attribute entries in object order. */
  function ApplyAttrs(n: Node, props: seq<(string, Val)>): Node
    decreases |props|
  {
    if props == [] then n else ApplyAttrs(ApplyAttr(n, props[0].0, props[0].1), props[1..])
  }

  /** Whether `appendChild` accepts an array entry: skipped nullish values, strings and nodes. */
  predicate Appendable(v: Val) {
    NullishVal(v) || (v.Data? && v.j.JStr?) || v.NodeVal?
  }

  /** The child an accepted, non-nullish array entry becomes. */
  function KidOf(v: Val): Kid
    requires Appendable(v) && !NullishVal(v)
  {
    if v.NodeVal? then Elem(v.node) else Text(v.j.s)
  }

  /** The array entries in order: nullish ones are skipped, anything else `appendChild` rejects raises. */
  function AppendItems(n: Node, items: seq<Val>): Result<Node, JsError>
    decreases |items|
  {
    if items == [] then Ok(n)
    else if NullishVal(items[0]) then AppendItems(n, items[1..])
    else if !Appendable(items[0]) then Err(TypeError)
    else AppendItems(n.(kids := n.kids + [KidOf(items[0])]), items[1..])
  }

  /** The array behind `children`, when it is one. */
  function ChildItems(c: Children): Option<seq<Val>> {
    match c
    case List(items) => Some(items)
    case Single(Data(JArr(xs))) => Some(DataVals(xs))
    case Single(_) => None
  }

  function DataVals(xs: seq<Json>): (r: seq<Val>)
    ensures |r| == |xs| && forall i :: 0 <= i < |xs| ==> r[i] == Data(xs[i])
  {
    if xs == [] then [] else [Data(xs[0])] + DataVals(xs[1..])
  }

  /** `DOM.el(tag, attrs, children)` */
  function El(tag: string, props: seq<(string, Val)>, children: Children): (r: Result<Node, JsError>)
    ensures r.Ok? ==> r.value.tag == tag
  {
    var n := ApplyAttrs(Node(tag, map[], map[], [], []), props);
    AttrsKeepTag(Node(tag, map[], map[], [], []), props);
    match ChildItems(children)
    case Some(items) =>
      AppendKeepsTag(n, items);
      AppendItems(n, items)
    case None =>
      var v := children.v;
      if v.Data? && v.j.JStr? then Ok(SetText(n, v.j.s))
      else if v.NodeVal? then Ok(n.(kids := n.kids + [Elem(v.node)]))
      else Ok(n)
  }

  lemma {:induction false} AttrsKeepTag(n: Node, props: seq<(string, Val)>)
    ensures ApplyAttrs(n, props).tag == n.tag
    decreases |props|
  {
    if props != [] {
      AttrsKeepTag(ApplyAttr(n, props[0].0, props[0].1), props[1..]);
    }
  }

  lemma {:induction false} AppendKeepsTag(n: Node, items: seq<Val>)
    ensures AppendItems(n, items).Ok? ==> AppendItems(n, items).value.tag == n.tag
    decreases |items|
  {
    if items != [] {
      if NullishVal(items[0]) {
        AppendKeepsTag(n, items[1..]);
      } else if Appendable(items[0]) {
        AppendKeepsTag(n.(kids := n.kids + [KidOf(items[0])]), items[1..]);
      }
    }
  }

  /** The children an array of accepted entries contributes: one per non-nullish entry, in order. */
  function KidsOf(items: seq<Val>): (r: seq<Kid>)
    requires forall i :: 0 <= i < |items| ==> Appendable(items[i])
    ensures |r| <= |items|
  {
    if items == [] then []
    else if NullishVal(items[0]) then KidsOf(items[1..])
    else [KidOf(items[0])] + KidsOf(items[1..])
  }

  /**
   * Array children: the array is accepted exactly when every entry is
   * nullish, a string or a node, and then the non-nullish entries are
   * appended in order after whatever the attributes put there.
   */
  lemma {:induction false} AppendItemsSpec(n: Node, items: seq<Val>)
    ensures AppendItems(n, items).Ok? <==> forall i :: 0 <= i < |items| ==> Appendable(items[i])
    ensures (forall i :: 0 <= i < |items| ==> Appendable(items[i])) ==>
      AppendItems(n, items) == Ok(n.(kids := n.kids + KidsOf(items)))
    ensures AppendItems(n, items).Err? ==> AppendItems(n, items).error == TypeError
    decreases |items|
  {
    if items != [] {
      var rest := items[1..];
      assert forall i :: 0 < i < |items| ==> items[i] == rest[i - 1];
      assert (forall i :: 0 <= i < |items| ==> Appendable(items[i])) <==>
        Appendable(items[0]) && forall i :: 0 <= i < |rest| ==> Appendable(rest[i]);
      if NullishVal(items[0]) {
        AppendItemsSpec(n, rest);
      } else if Appendable(items[0]) {
        var n' := n.(kids := n.kids + [KidOf(items[0])]);
        AppendItemsSpec(n', rest);
        if forall i :: 0 <= i < |rest| ==> Appendable(rest[i]) {
          assert n.kids + KidsOf(items) == n'.kids + KidsOf(rest);
        }
      }
    } else {
      assert n.kids + [] == n.kids;
    }
  }

  /** A key that does not begin with "on" never binds a listener. */
  lemma NotOn(k: string)
    requires |k| >= 2 && k[1] != 'n'
    ensures !StartsWith(k, "on")
  {
    assert k[..2][1] == k[1];
  }

  lemma ApplyOne(n: Node, p: (string, Val))
    ensures ApplyAttrs(n, [p]) == ApplyAttr(n, p.0, p.1)
  {
    assert [p][1..] == [];
  }

  /** Two entries are applied one after the other. */
  lemma ApplyPair(n: Node, p: (string, Val), q: (string, Val))
    ensures ApplyAttrs(n, [p, q]) == ApplyAttr(ApplyAttr(n, p.0, p.1), q.0, q.1)
  {
    assert [p, q] == [p] + [q];
    ApplyAttrsAppend(n, [p], [q]);
    ApplyOne(n, p);
    ApplyOne(ApplyAttr(n, p.0, p.1), q);
  }

  /** Applying a list of entries is applying its first part, then its second. */
  lemma {:induction false} ApplyAttrsAppend(n: Node, a: seq<(string, Val)>, b: seq<(string, Val)>)
    ensures ApplyAttrs(n, a + b) == ApplyAttrs(ApplyAttrs(n, a), b)
    decreases |a|
  {
    if a != [] {
      assert (a + b)[0] == a[0] && (a + b)[1..] == a[1..] + b;
      ApplyAttrsAppend(ApplyAttr(n, a[0].0, a[0].1), a[1..], b);
    } else {
      assert a + b == b;
    }
  }

  /** A null or undefined attribute value is skipped wherever it appears. */
  lemma SkipNullishAttr(n: Node, a: seq<(string, Val)>, k: string, v: Val, b: seq<(string, Val)>)
    requires NullishVal(v)
    ensures ApplyAttrs(n, a + [(k, v)] + b) == ApplyAttrs(n, a + b)
  {
    ApplyAttrsAppend(n, a + [(k, v)], b);
    ApplyAttrsAppend(n, a, [(k, v)]);
    ApplyAttrsAppend(n, a, b);
  }

  /** A key with no special meaning becomes a literal (lower-cased) attribute, overriding an earlier one; nothing else changes. */
  lemma LiteralAttr(n: Node, a: seq<(string, Val)>, k: string, v: Val)
    requires !NullishVal(v) && k !in ["class", "text", "html", "dataset"]
    requires !(StartsWith(k, "on") && v.Handler?)
    ensures ApplyAttrs(n, a + [(k, v)]) ==
      ApplyAttrs(n, a).(attrs := ApplyAttrs(n, a).attrs[Lower(k) := ValStr(v)])
  {
    ApplyAttrsAppend(n, a, [(k, v)]);
  }

  /** An `on…` key with a function value binds a listener for the rest of the key, after the earlier ones; nothing else changes. */
  lemma ListenerAttr(n: Node, a: seq<(string, Val)>, k: string, src: string)
    requires StartsWith(k, "on") && k !in ["class", "text", "html", "dataset"]
    ensures ApplyAttrs(n, a + [(k, Handler(src))]) ==
      ApplyAttrs(n, a).(listeners := ApplyAttrs(n, a).listeners + [Listener(k[2..], src)])
  {
    ApplyAttrsAppend(n, a, [(k, Handler(src))]);
  }

  /** An object `dataset` merges its entries into the data attributes, overriding equal keys; nothing else changes. */
  lemma DatasetAttr(n: Node, a: seq<(string, Val)>, v: Val)
    requires IsObjectVal(v)
    ensures ApplyAttrs(n, a + [("dataset", v)]) ==
      ApplyAttrs(n, a).(dataset := ApplyAttrs(n, a).dataset + DataProps(v))
  {
    ApplyAttrsAppend(n, a, [("dataset", v)]);
  }

  /** A `class` entry sets the class attribute, whatever came before it; nothing else changes. */
  lemma ClassAttr(n: Node, a: seq<(string, Val)>, v: Val)
    requires !NullishVal(v)
    ensures ApplyAttrs(n, a + [("class", v)]) ==
      ApplyAttrs(n, a).(attrs := ApplyAttrs(n, a).attrs["class" := ValStr(v)])
  {
    ApplyAttrsAppend(n, a, [("class", v)]);
  }

  /** A `text` entry replaces the children by one text node (none for ""); nothing else changes. */
  lemma TextAttr(n: Node, a: seq<(string, Val)>, v: Val)
    requires !NullishVal(v)
    ensures ApplyAttrs(n, a + [("text", v)]) == ApplyAttrs(n, a).(kids := TextKids(ValStr(v)))
  {
    ApplyAttrsAppend(n, a, [("text", v)]);
  }

  /** An `html` entry replaces the children by the unparsed markup (none for ""); nothing else changes. */
  lemma HtmlAttr(n: Node, a: seq<(string, Val)>, v: Val)
    requires !NullishVal(v)
    ensures ApplyAttrs(n, a + [("html", v)]) ==
      ApplyAttrs(n, a).(kids := if ValStr(v) == "" then [] else [Markup(ValStr(v))])
  {
    ApplyAttrsAppend(n, a, [("html", v)]);
  }

  /** Every attribute name on the node came from the node before or from an entry's key. */
  lemma {:induction false} AttrsFromKeys(n: Node, props: seq<(string, Val)>, name: string)
    requires name in ApplyAttrs(n, props).attrs
    ensures name in n.attrs || exists i :: 0 <= i < |props| && name == Lower(props[i].0)
    decreases |props|
  {
    if props != [] {
      var n' := ApplyAttr(n, props[0].0, props[0].1);
      AttrsFromKeys(n', props[1..], name);
      if name !in n'.attrs {
        var i :| 0 <= i < |props[1..]| && name == Lower(props[1..][i].0);
        assert name == Lower(props[i + 1].0);
      } else if name !in n.attrs {
        LowerOfLower("class");
        assert name == Lower(props[0].0);
      }
    }
  }

  /** A single string child sets the text; it replaces any `text` attribute given before. */
  lemma StringChild(tag: string, props: seq<(string, Val)>, s: string)
    ensures El(tag, props, Single(Data(JStr(s)))).Ok?
    ensures El(tag, props, Single(Data(JStr(s)))).value.kids == TextKids(s)
  {
  }

  /** A single node as the children argument is appended after whatever the attributes put there. */
  lemma NodeChild(tag: string, props: seq<(string, Val)>, m: Node)
    ensures El(tag, props, Single(NodeVal(m))) ==
      Ok(ElBare(tag, props).(kids := ElBare(tag, props).kids + [Elem(m)]))
  {
  }

  /** Whether `el` accepts JSON data as its children argument: anything but an array holding an entry that is neither nullish nor a string. */
  predicate DataChildrenOk(j: Json) {
    j.JArr? ==> forall i :: 0 <= i < |j.items| ==> Nullish(j.items[i]) || j.items[i].JStr?
  }

  /** JSON data as the children argument makes `el` raise a TypeError exactly when it is an array with an entry `appendChild` rejects. */
  lemma DataChild(tag: string, props: seq<(string, Val)>, j: Json)
    ensures El(tag, props, Single(Data(j))).Ok? <==> DataChildrenOk(j)
    ensures El(tag, props, Single(Data(j))).Err? ==> El(tag, props, Single(Data(j))).error == TypeError
  {
    if j.JArr? {
      var items := DataVals(j.items);
      AppendItemsSpec(ElBare(tag, props), items);
      assert forall i :: 0 <= i < |items| ==> (Appendable(items[i]) <==> Nullish(j.items[i]) || j.items[i].JStr?);
    }
  }

  /** Children that are neither an array, a string nor a node are ignored. */
  lemma IgnoredChild(tag: string, props: seq<(string, Val)>, v: Val)
    requires !(v.Data? && (v.j.JArr? || v.j.JStr?)) && !v.NodeVal?
    ensures El(tag, props, Single(v)) == El(tag, props, NoChildren)
  {
  }

  /** `cls.join(" ")` for the class lists the primitives build: a base class plus optional suffixes. */
  function ClassName(parts: seq<string>): string {
    Join(" ", parts)
  }

  /** The classes of `DOM.pill(text, variant)`. */
  function PillClasses(variant: Json): (cls: seq<string>)
    ensures |cls| >= 1 && cls[0] == "pill"
  {
    ["pill"]
      + (if variant == JStr("accent") then ["pill-accent"] else [])
      + (if variant == JStr("warn") then ["pill-warn"] else [])
      + (if variant == JStr("danger") then ["pill-danger"] else [])
  }

  /** Exactly one suffix for the three named variants and none for anything else. */
  lemma PillClassesVariants(variant: Json)
    ensures variant == JStr("accent") ==> PillClasses(variant) == ["pill", "pill-accent"]
    ensures variant == JStr("warn") ==> PillClasses(variant) == ["pill", "pill-warn"]
    ensures variant == JStr("danger") ==> PillClasses(variant) == ["pill", "pill-danger"]
    ensures variant !in [JStr("accent"), JStr("warn"), JStr("danger")] ==> PillClasses(variant) == ["pill"]
  {
  }

  /** `DOM.pill(text, variant)`: a span with the pill classes whose text is `text || ""`. */
  function Pill(text: Json, variant: Json): (r: Node)
    ensures r.tag == "span"
    ensures r.attrs == map["class" := ClassName(PillClasses(variant))]
    ensures r.kids == TextKids(OrEmptyString(text))
    ensures r.dataset == map[] && r.listeners == []
  {
    var props := [("class", Data(JStr(ClassName(PillClasses(variant))))), ("text", Data(Or(text, JStr(""))))];
    ApplyPair(Blank("span"), props[0], props[1]);
    ElBare("span", props)
  }

  /** The classes of `DOM.buttonLink(caption, href, variant)`. */
  function ButtonClasses(variant: Json): (cls: seq<string>)
    ensures |cls| >= 1 && cls[0] == "btn"
  {
    ["btn"]
      + (if variant == JStr("primary") then ["btn-primary"] else [])
      + (if variant == JStr("warn") then ["btn-warn"] else [])
  }

  /** `DOM.buttonLink(caption, href, variant)`; `(href || "").startsWith` raises for a truthy non-string href. */
  function ButtonLink(caption: Json, href: Json, variant: Json): (r: Result<Node, JsError>)
    ensures Truthy(href) && !href.JStr? ==> r == Err(TypeError)
    ensures r.Err? ==> (Truthy(href) && !href.JStr?) || caption.JArr?
  {
    if Truthy(href) && !href.JStr? then Err(TypeError)
    else
      El("a", ButtonProps(href, variant), Single(Data(Or(caption, JStr("連結")))))
  }

  /** The attribute entries of a button link before its caption is applied. */
  function ButtonProps(href: Json, variant: Json): seq<(string, Val)>
    requires !Truthy(href) || href.JStr?
  {
    if StartsWith(OrEmptyString(href), "http") then ButtonBase(href, variant) + NewTab else ButtonBase(href, variant)
  }

  function ButtonBase(href: Json, variant: Json): seq<(string, Val)> {
    [("class", Data(JStr(ClassName(ButtonClasses(variant))))), ("href", Data(Or(href, JStr("#"))))]
  }

  /** The entries that make a link open in a new tab. */
  const NewTab: seq<(string, Val)> := [("target", Data(JStr("_blank"))), ("rel", Data(JStr("noopener")))]

  /**
   * A button link points at `href`, or "#" when it is empty, and it opens in
   * a new tab (`target` and `rel`) exactly when `href` starts with "http".
   */
  lemma ButtonLinkAttrs(href: string, variant: Json)
    ensures
      var c := ClassName(ButtonClasses(variant));
      var h := if href == "" then "#" else href;
      ApplyAttrs(Node("a", map[], map[], [], []), ButtonProps(JStr(href), variant)) ==
        Node("a", if StartsWith(href, "http") then map["class" := c, "href" := h, "target" := "_blank", "rel" := "noopener"]
                  else map["class" := c, "href" := h], map[], [], [])
  {
    var n0 := Node("a", map[], map[], [], []);
    var c := ClassName(ButtonClasses(variant));
    var h := if href == "" then "#" else href;
    BaseAttrs(n0, c, h);
    if StartsWith(href, "http") {
      var b := ApplyAttrs(n0, ButtonBase(JStr(href), variant));
      ApplyAttrsAppend(n0, ButtonBase(JStr(href), variant), NewTab);
      NewTabAttrs(b);
    }
  }

  /** Predicate for keys the builder stores as literal attributes under their own name. */
  predicate PlainKey(k: string) {
    k != "text" && k != "html" && k != "dataset" && |k| >= 2 && k[1] != 'n' && HasNoUpper(k)
  }

  /** Two string-valued entries under plain keys set those two attributes. */
  lemma TwoStringAttrs(n: Node, k1: string, s1: string, k2: string, s2: string)
    requires PlainKey(k1) && PlainKey(k2)
    ensures ApplyAttrs(n, [(k1, Data(JStr(s1))), (k2, Data(JStr(s2)))]) == n.(attrs := n.attrs[k1 := s1][k2 := s2])
  {
    ApplyPair(n, (k1, Data(JStr(s1))), (k2, Data(JStr(s2))));
    StringAttr(n, k1, s1);
    StringAttr(n.(attrs := n.attrs[k1 := s1]), k2, s2);
  }

  lemma BaseAttrs(n: Node, c: string, h: string)
    ensures ApplyAttrs(n, [("class", Data(JStr(c))), ("href", Data(JStr(h)))]) == n.(attrs := n.attrs["class" := c]["href" := h])
  {
    TwoStringAttrs(n, "class", c, "href", h);
  }

  lemma NewTabAttrs(n: Node)
    ensures ApplyAttrs(n, NewTab) == n.(attrs := n.attrs["target" := "_blank"]["rel" := "noopener"])
  {
    TwoStringAttrs(n, "target", "_blank", "rel", "noopener");
  }

  /** A string caption, "連結" when empty, is the link's only text. */
  lemma ButtonLinkText(caption: string, href: string, variant: Json)
    ensures ButtonLink(JStr(caption), JStr(href), variant).Ok?
    ensures ButtonLink(JStr(caption), JStr(href), variant).value ==
      ApplyAttrs(Node("a", map[], map[], [], []), ButtonProps(JStr(href), variant)).(kids := [Text(if caption == "" then "連結" else caption)])
  {
    ButtonLinkAttrs(href, variant);
  }

  /** A non-empty string value under a key the builder treats as a literal attribute name. */
  lemma StringAttr(n: Node, k: string, s: string)
    requires PlainKey(k)
    ensures ApplyAttr(n, k, Data(JStr(s))) == n.(attrs := n.attrs[k := s])
  {
    NotOn(k);
    LowerOfLower(k);
  }

  /** `DOM.emptyState(title, detail)`: a dashed card with a title line (default "沒有資料") and, for a truthy detail, a detail line. */
  function EmptyState(title: Json, detail: Json): (r: Result<Node, JsError>)
    ensures r.Ok? <==> DataChildrenOk(title) && (Truthy(detail) ==> DataChildrenOk(detail))
    ensures r.Err? ==> r.error == TypeError
    ensures r.Ok? ==> r.value.tag == "div" && "class" in r.value.attrs && r.value.attrs["class"] == "card"
    ensures r.Ok? ==> |r.value.kids| == if Truthy(detail) then 2 else 1
  {
    var props := [("class", Data(JStr("card"))), ("style", Data(JStr(CardStyle)))];
    TwoStringAttrs(Node("div", map[], map[], [], []), "class", "card", "style", CardStyle);
    var wrap := El("div", props, NoChildren).value;
    var head := El("div", [("style", Data(JStr(TitleStyle)))], Single(Data(Or(title, JStr("沒有資料")))));
    DataChild("div", [("style", Data(JStr(TitleStyle)))], Or(title, JStr("沒有資料")));
    DataChild("div", [("style", Data(JStr(DetailStyle)))], detail);
    if head.Err? then Err(head.error)
    else if !Truthy(detail) then Ok(wrap.(kids := wrap.kids + [Elem(head.value)]))
    else
      var more := El("div", [("style", Data(JStr(DetailStyle)))], Single(Data(detail)));
      if more.Err? then Err(more.error)
      else Ok(wrap.(kids := wrap.kids + [Elem(head.value), Elem(more.value)]))
  }

  const CardStyle := "border-style:dashed; background:rgba(0,0,0,.10); color:rgba(255,255,255,.70);"
  const TitleStyle := "font-weight:850; margin-bottom:6px;"
  const DetailStyle := "color:rgba(255,255,255,.58); line-height:1.7;"

  /** A string title, "沒有資料" when empty, is the first line's text; a string detail is the second line's. */
  lemma EmptyStateText(title: string, detail: string)
    ensures EmptyState(JStr(title), JStr(detail)).Ok?
    ensures EmptyState(JStr(title), JStr(detail)).value.kids[0].Elem?
    ensures EmptyState(JStr(title), JStr(detail)).value.kids[0].node.kids == [Text(if title == "" then "沒有資料" else title)]
    ensures detail != "" ==> EmptyState(JStr(title), JStr(detail)).value.kids[1].node.kids == [Text(detail)]
  {
  }

  /** A fresh element with no attributes and no children. */
  function Blank(tag: string): Node {
    Node(tag, map[], map[], [], [])
  }

  /** `DOM.el(tag, attrs)` without children. */
  function ElBare(tag: string, props: seq<(string, Val)>): Node {
    ApplyAttrs(Blank(tag), props)
  }

  lemma ElBareIsEl(tag: string, props: seq<(string, Val)>)
    ensures El(tag, props, NoChildren) == Ok(ElBare(tag, props))
  {
  }

  /** `DOM.el(tag, attrs, [...])` for an array whose entries are all accepted. */
  function ElList(tag: string, props: seq<(string, Val)>, items: seq<Val>): Node
    requires forall i :: 0 <= i < |items| ==> Appendable(items[i])
  {
    var n := ApplyAttrs(Blank(tag), props);
    n.(kids := n.kids + KidsOf(items))
  }

  lemma ElListIsEl(tag: string, props: seq<(string, Val)>, items: seq<Val>)
    requires forall i :: 0 <= i < |items| ==> Appendable(items[i])
    ensures El(tag, props, List(items)) == Ok(ElList(tag, props, items))
  {
    AppendItemsSpec(ApplyAttrs(Blank(tag), props), items);
  }

  function NodeVals(ns: seq<Node>): (r: seq<Val>)
    ensures |r| == |ns| && forall i :: 0 <= i < |ns| ==> r[i] == NodeVal(ns[i])
  {
    if ns == [] then [] else [NodeVal(ns[0])] + NodeVals(ns[1..])
  }

  function ElemKids(ns: seq<Node>): (r: seq<Kid>)
    ensures |r| == |ns| && forall i :: 0 <= i < |ns| ==> r[i] == Elem(ns[i])
  {
    if ns == [] then [] else [Elem(ns[0])] + ElemKids(ns[1..])
  }

  /** An array of nodes contributes exactly those nodes, in order. */
  lemma {:induction false} KidsOfNodes(ns: seq<Node>)
    ensures KidsOf(NodeVals(ns)) == ElemKids(ns)
  {
    if ns != [] {
      assert NodeVals(ns)[1..] == NodeVals(ns[1..]);
      KidsOfNodes(ns[1..]);
    }
  }

  /** An element whose only attribute entry is a class. */
  lemma ClassOnly(tag: string, c: string)
    ensures ElBare(tag, [("class", Data(JStr(c)))]) == Node(tag, map["class" := c], map[], [], [])
  {
    ApplyOne(Blank(tag), ("class", Data(JStr(c))));
  }

  /** An element with a class and a `text` entry. */
  lemma ClassText(tag: string, c: string, v: Json)
    requires !Nullish(v)
    ensures ElBare(tag, [("class", Data(JStr(c))), ("text", Data(v))]) == Node(tag, map["class" := c], map[], [], TextKids(ToStr(v)))
  {
    ApplyPair(Blank(tag), ("class", Data(JStr(c))), ("text", Data(v)));
  }

  /** A class-only element around an array of nodes holds exactly those nodes. */
  lemma ClassList(tag: string, c: string, ns: seq<Node>)
    ensures ElList(tag, [("class", Data(JStr(c)))], NodeVals(ns)) == Node(tag, map["class" := c], map[], [], ElemKids(ns))
  {
    ApplyOne(Blank(tag), ("class", Data(JStr(c))));
    KidsOfNodes(ns);
    assert [] + ElemKids(ns) == ElemKids(ns);
  }
}

=== FILE: escape.dfy ===
/**
 * The HTML escaper. The same five chained `replaceAll` calls appear as
 * `DOM.escapeHtml`, `ARC.escapeHtml`, the local `escape` inside
 * `FMT.blocksToHTML` and the local fallback in the article page; all four
 * are this one function.
 */
module Escape {
  import opened Js
  import opened Strings

  /** The five passes in source order: ampersand first, then `<`, `>`, `"`, `'`. */
  function Entities(s: string): (r: string)
    ensures '<' !in r && '>' !in r && '"' !in r && '\'' !in r
  {
    var a := ReplaceAll(s, '&', "&amp;");
    var b := ReplaceAll(a, '<', "&lt;");
    var c := ReplaceAll(b, '>', "&gt;");
    var d := ReplaceAll(c, '"', "&quot;");
    ReplaceAllKeepsAbsent(b, '>', "&gt;", '<');
    ReplaceAllKeepsAbsent(c, '"', "&quot;", '<');
    ReplaceAllKeepsAbsent(d, '\'', "&#039;", '<');
    ReplaceAllKeepsAbsent(c, '"', "&quot;", '>');
    ReplaceAllKeepsAbsent(d, '\'', "&#039;", '>');
    ReplaceAllKeepsAbsent(d, '\'', "&#039;", '"');
    ReplaceAll(d, '\'', "&#039;")
  }

  /** `escapeHtml(s)`: falsy input becomes "", anything else is converted with `toString()` and escaped. */
  function EscapeHtml(v: Json): (r: string)
    ensures !Truthy(v) ==> r == ""
    ensures '<' !in r && '>' !in r && '"' !in r && '\'' !in r
  {
    Entities(OrEmptyString(v))
  }

  /** The replacement for one character, as a single left-to-right pass would emit it. */
  function EscapeChar(c: char): string {
    if c == '&' then "&amp;"
    else if c == '<' then "&lt;"
    else if c == '>' then "&gt;"
    else if c == '"' then "&quot;"
    else if c == '\'' then "&#039;"
    else [c]
  }

  /** A one-pass, per-character escaper: the reference the chained passes are checked against. */
  function EscapeEach(s: string): string {
    if s == [] then "" else EscapeChar(s[0]) + EscapeEach(s[1..])
  }

  lemma ReplaceAllOne(c: char, x: char, rep: string)
    ensures ReplaceAll([c], x, rep) == if c == x then rep else [c]
  {
    assert [c][1..] == [];
  }

  /** Runs the five passes on `[c]`, given what each pass leaves behind. */
  lemma EntitiesVia(c: char, a: string, b: string, d: string, e: string, f: string)
    requires ReplaceAll([c], '&', "&amp;") == a
    requires ReplaceAll(a, '<', "&lt;") == b
    requires ReplaceAll(b, '>', "&gt;") == d
    requires ReplaceAll(d, '"', "&quot;") == e
    requires ReplaceAll(e, '\'', "&#039;") == f
    ensures Entities([c]) == f
  {
  }

  lemma EntitiesOfPlain(c: char)
    requires c !in "&<>\"'"
    ensures Entities([c]) == [c]
  {
    ReplaceAllAbsent([c], '&', "&amp;");
    ReplaceAllAbsent([c], '<', "&lt;");
    ReplaceAllAbsent([c], '>', "&gt;");
    ReplaceAllAbsent([c], '"', "&quot;");
    ReplaceAllAbsent([c], '\'', "&#039;");
    EntitiesVia(c, [c], [c], [c], [c], [c]);
  }

  lemma EntitiesOfAmp(c: char, e: string)
    requires c == '&' && e == "&amp;"
    ensures Entities([c]) == e
  {
    ReplaceAllOne(c, '&', e);
    ReplaceAllAbsent(e, '<', "&lt;");
    ReplaceAllAbsent(e, '>', "&gt;");
    ReplaceAllAbsent(e, '"', "&quot;");
    ReplaceAllAbsent(e, '\'', "&#039;");
    EntitiesVia(c, e, e, e, e, e);
  }

  lemma EntitiesOfLt(c: char, e: string)
    requires c == '<' && e == "&lt;"
    ensures Entities([c]) == e
  {
    ReplaceAllAbsent([c], '&', "&amp;");
    ReplaceAllOne(c, '<', e);
    ReplaceAllAbsent(e, '>', "&gt;");
    ReplaceAllAbsent(e, '"', "&quot;");
    ReplaceAllAbsent(e, '\'', "&#039;");
    EntitiesVia(c, [c], e, e, e, e);
  }

  lemma EntitiesOfGt(c: char, e: string)
    requires c == '>' && e == "&gt;"
    ensures Entities([c]) == e
  {
    ReplaceAllAbsent([c], '&', "&amp;");
    ReplaceAllAbsent([c], '<', "&lt;");
    ReplaceAllOne(c, '>', e);
    ReplaceAllAbsent(e, '"', "&quot;");
    ReplaceAllAbsent(e, '\'', "&#039;");
    EntitiesVia(c, [c], [c], e, e, e);
  }

  lemma EntitiesOfQuot(c: char, e: string)
    requires c == '"' && e == "&quot;"
    ensures Entities([c]) == e
  {
    ReplaceAllAbsent([c], '&', "&amp;");
    ReplaceAllAbsent([c], '<', "&lt;");
    ReplaceAllAbsent([c], '>', "&gt;");
    ReplaceAllOne(c, '"', e);
    ReplaceAllAbsent(e, '\'', "&#039;");
    EntitiesVia(c, [c], [c], [c], e, e);
  }

  lemma EntitiesOfApos(c: char, e: string)
    requires c == '\'' && e == "&#039;"
    ensures Entities([c]) == e
  {
    ReplaceAllAbsent([c], '&', "&amp;");
    ReplaceAllAbsent([c], '<', "&lt;");
    ReplaceAllAbsent([c], '>', "&gt;");
    ReplaceAllAbsent([c], '"', "&quot;");
    ReplaceAllOne(c, '\'', e);
    EntitiesVia(c, [c], [c], [c], [c], e);
  }

  lemma EntitiesOfChar(c: char)
    ensures Entities([c]) == EscapeChar(c)
  {
    if c == '&' { EntitiesOfAmp(c, EscapeChar(c)); }
    else if c == '<' { EntitiesOfLt(c, EscapeChar(c)); }
    else if c == '>' { EntitiesOfGt(c, EscapeChar(c)); }
    else if c == '"' { EntitiesOfQuot(c, EscapeChar(c)); }
    else if c == '\'' { EntitiesOfApos(c, EscapeChar(c)); }
    else { EntitiesOfPlain(c); }
  }

  lemma EntitiesAppend(a: string, b: string)
    ensures Entities(a + b) == Entities(a) + Entities(b)
  {
    ReplaceAllAppend(a, b, '&', "&amp;");
    var a1, b1 := ReplaceAll(a, '&', "&amp;"), ReplaceAll(b, '&', "&amp;");
    ReplaceAllAppend(a1, b1, '<', "&lt;");
    var a2, b2 := ReplaceAll(a1, '<', "&lt;"), ReplaceAll(b1, '<', "&lt;");
    ReplaceAllAppend(a2, b2, '>', "&gt;");
    var a3, b3 := ReplaceAll(a2, '>', "&gt;"), ReplaceAll(b2, '>', "&gt;");
    ReplaceAllAppend(a3, b3, '"', "&quot;");
    var a4, b4 := ReplaceAll(a3, '"', "&quot;"), ReplaceAll(b3, '"', "&quot;");
    ReplaceAllAppend(a4, b4, '\'', "&#039;");
  }

  /**
   * Because the ampersand pass runs first and no later replacement inserts a
   * character an even later pass replaces, the five passes equal one
   * per-character pass: nothing the escaper inserts is escaped again.
   */
  lemma {:induction false} EntitiesIsSinglePass(s: string)
    ensures Entities(s) == EscapeEach(s)
  {
    if s != [] {
      assert s == [s[0]] + s[1..];
      EntitiesAppend([s[0]], s[1..]);
      EntitiesOfChar(s[0]);
      EntitiesIsSinglePass(s[1..]);
    }
  }

  /** The character-reference decoding an HTML parser applies to these five entities. */
  function Unescape(t: string): string
    decreases |t|
  {
    if t == [] then ""
    else if StartsWith(t, "&amp;") then "&" + Unescape(t[5..])
    else if StartsWith(t, "&lt;") then "<" + Unescape(t[4..])
    else if StartsWith(t, "&gt;") then ">" + Unescape(t[4..])
    else if StartsWith(t, "&quot;") then "\"" + Unescape(t[6..])
    else if StartsWith(t, "&#039;") then "'" + Unescape(t[6..])
    else [t[0]] + Unescape(t[1..])
  }

  lemma UnescapePlain(c: char, rest: string)
    requires c !in "&<>\"'"
    ensures Unescape([c] + rest) == [c] + Unescape(rest)
  {
    var t := [c] + rest;
    assert t[0] == c && t[1..] == rest;
  }

  /** An entity at the head of the text decodes to its character. */
  lemma UnescapeEntity(c: char, e: string, rest: string)
    requires e == EscapeChar(c) && c in "&<>\"'"
    ensures Unescape(e + rest) == [c] + Unescape(rest)
  {
    var t := e + rest;
    assert t[..|e|] == e;
    assert t[|e|..] == rest;
    assert t[0] == '&';
    if c != '&' {
      assert t[1] != 'a' && !StartsWith(t, "&amp;");
    }
    if c != '&' && c != '<' {
      assert t[1] != 'l' && !StartsWith(t, "&lt;");
    }
    if c != '&' && c != '<' && c != '>' {
      assert t[1] != 'g' && !StartsWith(t, "&gt;");
    }
    if c == '\'' {
      assert t[1] != 'q' && !StartsWith(t, "&quot;");
    }
  }

  lemma UnescapeChar(c: char, rest: string)
    ensures Unescape(EscapeChar(c) + rest) == [c] + Unescape(rest)
  {
    if c in "&<>\"'" {
      UnescapeEntity(c, EscapeChar(c), rest);
    } else {
      UnescapePlain(c, rest);
    }
  }

  /** Escaped text reads back as the original text: escaping loses nothing. */
  lemma {:induction false} UnescapeEscape(s: string)
    ensures Unescape(EscapeHtml(JStr(s))) == s
  {
    EntitiesIsSinglePass(s);
    UnescapeEscapeEach(s);
  }

  lemma {:induction false} UnescapeEscapeEach(s: string)
    ensures Unescape(EscapeEach(s)) == s
  {
    if s != [] {
      UnescapeChar(s[0], EscapeEach(s[1..]));
      UnescapeEscapeEach(s[1..]);
    }
  }

  lemma {:induction false} EscapeEachPlain(s: string)
    requires forall i :: 0 <= i < |s| ==> s[i] !in "&<>\"'"
    ensures EscapeEach(s) == s
  {
    if s != [] {
      EscapeEachPlain(s[1..]);
    }
  }

  lemma EscapeEachAmpHead(once: string, twice: string)
    requires once == "&amp;" && twice == "&amp;amp;"
    ensures EscapeEach(once) == twice
  {
    EscapeEachPlain(once[1..]);
    assert EscapeEach(once) == EscapeChar(once[0]) + EscapeEach(once[1..]);
  }

  /** Escaping is not idempotent: a second pass escapes the ampersands the first one introduced. */
  lemma EscapeNotIdempotent(amp: string, once: string, twice: string)
    requires amp == "&" && once == "&amp;" && twice == "&amp;amp;"
    ensures EscapeHtml(JStr(amp)) == once
    ensures EscapeHtml(JStr(once)) == twice
  {
    assert amp == [amp[0]];
    EntitiesOfChar(amp[0]);
    EntitiesIsSinglePass(once);
    EscapeEachAmpHead(once, twice);
  }
}

=== FILE: fetch.dfy ===
/**
 * The data-loading layer (`ARC_FETCH`): `request`, `json`, `text`, their
 * never-failing `safe` variants, the two list normalisers and `loadBundle`.
 * The browser's `fetch` is a parameter: a transport that maps a URL and the
 * options object to a response or a network error.
 */
module Fetch {
  import opened Js

  /** What `fetch` resolves to: the status line, the body parsed as JSON (None when it is not JSON) and the body as text. */
  datatype Response = Response(status: int, statusText: string, body: Option<Json>, text: string)
  {
    /** `res.ok` */
    predicate Ok() {
      200 <= status <= 299
    }
  }

  type Transport = (string, Json) -> Result<Response, JsError>

  /** The default options `{ cache: "no-store" }`, used whenever the caller's options are falsy. */
  const NoStore: Json := JObj(map["cache" := JStr("no-store")])

  /** `options || NO_STORE` */
  function Options(options: Json): (o: Json)
    ensures Truthy(o)
    ensures Truthy(options) ==> o == options
    ensures !Truthy(options) ==> o == NoStore
  {
    Or(options, NoStore)
  }

  /** `request(url, options)`: a non-ok status becomes FETCH_FAILED carrying the url, status and status text. */
  function Request(fetch: Transport, url: string, options: Json): (r: Result<Response, JsError>)
    ensures r.Ok? <==> fetch(url, Options(options)).Ok? && fetch(url, Options(options)).value.Ok()
    ensures r.Ok? ==> r.value == fetch(url, Options(options)).value
    ensures r.Err? && fetch(url, Options(options)).Ok? ==>
      r.error == FetchFailed(url, fetch(url, Options(options)).value.status, fetch(url, Options(options)).value.statusText)
    ensures fetch(url, Options(options)).Err? ==> r == fetch(url, Options(options))
  {
    var res := fetch(url, Options(options));
    if res.Err? then res
    else if !res.value.Ok() then Err(FetchFailed(url, res.value.status, res.value.statusText))
    else res
  }

  /** `F.json(url, options)`: the parsed body of an ok response; a body that is not JSON becomes JSON_PARSE_FAILED. */
  function GetJson(fetch: Transport, url: string, options: Json): (r: Result<Json, JsError>)
    ensures
      var res := fetch(url, Options(options));
      && (r.Ok? <==> res.Ok? && res.value.Ok() && res.value.body.Some?)
      && (r.Ok? ==> r.value == res.value.body.value)
      && (res.Err? ==> r == Err(res.error))
      && (res.Ok? && !res.value.Ok() ==> r == Err(FetchFailed(url, res.value.status, res.value.statusText)))
      && (res.Ok? && res.value.Ok() && res.value.body.None? ==> r == Err(JsonParseFailed(url)))
  {
    var res := Request(fetch, url, options);
    if res.Err? then Err(res.error)
    else if res.value.body.None? then Err(JsonParseFailed(url))
    else Ok(res.value.body.value)
  }

  /** `F.text(url, options)` */
  function GetText(fetch: Transport, url: string, options: Json): (r: Result<string, JsError>)
    ensures
      var res := fetch(url, Options(options));
      && (r.Ok? <==> res.Ok? && res.value.Ok())
      && (r.Ok? ==> r.value == res.value.text)
      && (res.Err? ==> r == Err(res.error))
      && (res.Ok? && !res.value.Ok() ==> r == Err(FetchFailed(url, res.value.status, res.value.statusText)))
  {
    var res := Request(fetch, url, options);
    if res.Err? then Err(res.error) else Ok(res.value.text)
  }

  /** `F.safeJson(url, fallback, options)`: every failure, whatever its kind, yields the fallback. */
  function SafeJson(fetch: Transport, url: string, fallback: Json, options: Json): (r: Json)
    ensures GetJson(fetch, url, options).Ok? ==> r == GetJson(fetch, url, options).value
    ensures GetJson(fetch, url, options).Err? ==> r == fallback
  {
    match GetJson(fetch, url, options)
    case Ok(v) => v
    case Err(_) => fallback
  }

  /** `F.safeText(url, fallback, options)` */
  function SafeText(fetch: Transport, url: string, fallback: string, options: Json): (r: string)
    ensures GetText(fetch, url, options).Ok? ==> r == GetText(fetch, url, options).value
    ensures GetText(fetch, url, options).Err? ==> r == fallback
  {
    match GetText(fetch, url, options)
    case Ok(v) => v
    case Err(_) => fallback
  }

  /** Falsy options behave exactly like passing `{ cache: "no-store" }`. */
  lemma FalsyOptionsMeanNoStore(fetch: Transport, url: string, options: Json)
    requires !Truthy(options)
    ensures GetJson(fetch, url, options) == GetJson(fetch, url, NoStore)
    ensures GetText(fetch, url, options) == GetText(fetch, url, NoStore)
  {
  }

  /** `safeJson` with a fallback never raises: its value is either the parsed body of a 2xx response or the fallback. */
  lemma SafeJsonIsBodyOrFallback(fetch: Transport, url: string, fallback: Json, options: Json)
    ensures
      var res := fetch(url, Options(options));
      var r := SafeJson(fetch, url, fallback, options);
      || r == fallback
      || (res.Ok? && res.value.Ok() && res.value.body == Some(r))
  {
  }

  /** The normaliser shape shared by `teamMembers` and `articleList`: an array as is, else the array under `key`, else []. */
  function ListUnder(data: Json, key: string): (r: seq<Json>)
    ensures data.JArr? ==> r == data.items
    ensures !data.JArr? && Get(data, key).JArr? ==> r == Get(data, key).items
    ensures !data.JArr? && !Get(data, key).JArr? ==> r == []
  {
    if data.JArr? then data.items
    else if Truthy(data) && Get(data, key).JArr? then Get(data, key).items
    else []
  }

  /** `F.teamMembers(data)` */
  function TeamMembers(data: Json): (r: seq<Json>)
    ensures data.JArr? ==> r == data.items
    ensures !data.JArr? && Get(data, "members").JArr? ==> r == Get(data, "members").items
    ensures !data.JArr? && !Get(data, "members").JArr? ==> r == []
  {
    ListUnder(data, "members")
  }

  /** `F.articleList(data)` */
  function ArticleList(data: Json): (r: seq<Json>)
    ensures data.JArr? ==> r == data.items
    ensures !data.JArr? && Get(data, "articles").JArr? ==> r == Get(data, "articles").items
    ensures !data.JArr? && !Get(data, "articles").JArr? ==> r == []
  {
    ListUnder(data, "articles")
  }

  /** Both accepted file shapes, the bare array and the wrapping object, give the same list. */
  lemma ListUnderShapes(xs: seq<Json>, key: string, other: map<string, Json>)
    ensures ListUnder(JArr(xs), key) == xs
    ensures ListUnder(JObj(other[key := JArr(xs)]), key) == xs
  {
  }

  /** Normalising the normalised list changes nothing: the result is always a plain array of entries. */
  lemma ListUnderIdempotent(data: Json, key: string)
    ensures ListUnder(JArr(ListUnder(data, key)), key) == ListUnder(data, key)
  {
  }

  /** Anything that is neither an array nor an object holding an array under `key` normalises to []. */
  lemma ListUnderOtherwiseEmpty(data: Json, key: string)
    requires !data.JArr?
    ensures ListUnder(data, key) != [] ==> data.JObj? && key in data.fields && data.fields[key].JArr? && data.fields[key].items != []
  {
  }

  /** The entries `Object.entries(map || {})` yields: key to URL, each URL converted with `String(url)` as `fetch` does. */
  function BundleEntries(m: Json): (e: map<string, string>)
    ensures m.JObj? ==> e.Keys == m.fields.Keys
    ensures m.JObj? ==> forall k :: k in e ==> e[k] == ToStr(m.fields[k])
    ensures !Truthy(m) ==> e == map[]
  {
    var props := OwnProps(Or(m, JObj(map[])));
    map k | k in props :: ToStr(props[k])
  }

  /**
   * `F.loadBundle(map)`: fetch every entry with `json` and collect the
   * results under the same keys.
   */
  method LoadBundle(fetch: Transport, m: Json) returns (r: Result<Json, JsError>)
    ensures r.Ok? <==> forall k :: k in BundleEntries(m) ==> GetJson(fetch, BundleEntries(m)[k], JUndefined).Ok?
    ensures r.Ok? ==> r.value.JObj? && r.value.fields.Keys == BundleEntries(m).Keys
    ensures r.Ok? ==> forall k :: k in r.value.fields ==> Ok(r.value.fields[k]) == GetJson(fetch, BundleEntries(m)[k], JUndefined)
    ensures r.Err? ==> exists k :: k in BundleEntries(m) && GetJson(fetch, BundleEntries(m)[k], JUndefined) == Err(r.error)
    ensures !Truthy(m) ==> r == Ok(JObj(map[]))
  {
    r := LoadAll(BundleEntries(m), u => GetJson(fetch, u, JUndefined));
  }

  /**
   * `Promise.all` over one load per entry. The loads run concurrently and
   * the first failure to settle rejects the whole batch, so the entries are
   * visited here in an unspecified order and the error is that of some
   * failing entry.
   */
  method LoadAll(entries: map<string, string>, load: string -> Result<Json, JsError>) returns (r: Result<Json, JsError>)
    ensures r.Ok? <==> forall k :: k in entries ==> load(entries[k]).Ok?
    ensures r.Ok? ==> r.value.JObj? && r.value.fields.Keys == entries.Keys
    ensures r.Ok? ==> forall k :: k in r.value.fields ==> Ok(r.value.fields[k]) == load(entries[k])
    ensures r.Err? ==> exists k :: k in entries && load(entries[k]) == Err(r.error)
  {
    var todo := entries.Keys;
    var out: map<string, Json> := map[];
    while todo != {}
      invariant todo <= entries.Keys
      invariant out.Keys == entries.Keys - todo
      invariant forall k :: k in out ==> Ok(out[k]) == load(entries[k])
      decreases todo
    {
      var k :| k in todo;
      var data := load(entries[k]);
      if data.Err? {
        return Err(data.error);
      }
      out := out[k := data.value];
      todo := todo - {k};
    }
    r := Ok(JObj(out));
  }
}

=== FILE: format.dfy ===
/**
 * The string and tag helpers of `format.js` (`ARC_FMT`): trimming,
 * normalisation for search, ellipsis, tag clean-up and collection, the
 * "name｜role" line, and the content-block to HTML serializer.
 */
module Format {
  import opened Js
  import opened Strings
  import opened Seqs
  import opened Escape

  /** `FMT.trim(s)`: falsy input gives "", anything else is converted and trimmed. */
  function TrimValue(v: Json): (r: string)
    ensures IsTrimmed(r)
    ensures !Truthy(v) ==> r == ""
    ensures v.JStr? ==> r == Trim(v.s)
  {
    Trim(OrEmptyString(v))
  }

  /** `FMT.normalize(s)`, also `ARC.normalize` and the list pages' local `normalize`. */
  function Normalize(v: Json): (r: string)
    ensures !Truthy(v) ==> r == ""
    ensures IsTrimmed(r) && HasNoUpper(r)
    ensures r == Lower(TrimValue(v))
  {
    var s := OrEmptyString(v);
    LowerTrimCommute(s);
    Trim(Lower(s))
  }

  /** `a.tags` when it is an array, [] otherwise: the tag list both list pages search. */
  function TagList(a: Json): seq<Json> {
    ArrayOr(Get(a, "tags"))
  }

  /** `xs.map(normalize)` */
  function NormalizeAll(xs: seq<Json>): (r: seq<string>)
    ensures |r| == |xs|
    ensures forall i :: 0 <= i < |xs| ==> r[i] == Normalize(xs[i])
  {
    if xs == [] then [] else [Normalize(xs[0])] + NormalizeAll(xs[1..])
  }

  /** A search haystack: some fixed fields, then every tag normalised, joined by spaces, contains whatever one of them contains. */
  lemma ContainsInFields(head: seq<string>, tags: seq<Json>, q: string, k: nat)
    requires k < |head| + |tags|
    requires k < |head| ==> Contains(head[k], q)
    requires k >= |head| ==> Contains(Normalize(tags[k - |head|]), q)
    ensures Contains(Join(" ", head + NormalizeAll(tags)), q)
  {
    var parts := head + NormalizeAll(tags);
    assert parts[k] == if k < |head| then head[k] else Normalize(tags[k - |head|]);
    ContainsPart(" ", parts, k, q);
  }

  /** Normalising an already normalised string changes nothing. */
  lemma NormalizeIdempotent(v: Json)
    ensures Normalize(JStr(Normalize(v))) == Normalize(v)
  {
    var n := Normalize(v);
    if n != "" {
      TrimOfTrimmed(n);
      assert TrimValue(JStr(n)) == n;
      LowerOfLower(n);
    }
  }

  /** The cut-off `ellipsis` uses: `max` when it is a finite number, 120 otherwise. */
  function EllipsisLimit(max: Json): int {
    if max.JNum? then max.n else 120
  }

  /** `FMT.ellipsis(s, max)` */
  function Ellipsis(s: Json, max: Json): (r: string)
    ensures var t, m := OrEmptyString(s), EllipsisLimit(max);
      && (|t| <= m ==> r == t)
      && (|t| > m ==> |r| == (if m >= 1 then m else 1) && r[|r| - 1] == '…' && r[..|r| - 1] == t[..|r| - 1])
  {
    var t := OrEmptyString(s);
    var m := EllipsisLimit(max);
    if |t| <= m then t else t[..if m - 1 > 0 then m - 1 else 0] + "…"
  }

  /** Every element of a key list is non-empty and trimmed. */
  predicate CleanKeys(s: seq<string>) {
    forall i :: 0 <= i < |s| ==> s[i] != "" && IsTrimmed(s[i])
  }

  /** `if (!key) return;`: an empty key contributes nothing. */
  function KeyList(k: string): seq<string> {
    if k != "" then [k] else []
  }

  /**
   * The body both tag loops run on each entry: `const key = FMT.trim(t); if (!key) return;`.
   * The keys, in entry order.
   */
  function Keys(items: seq<Json>): (r: seq<string>)
    ensures |r| <= |items|
  {
    if items == [] then [] else KeyList(TrimValue(items[0])) + Keys(items[1..])
  }

  lemma {:induction false} KeysClean(items: seq<Json>)
    ensures CleanKeys(Keys(items))
  {
    if items != [] {
      KeysClean(items[1..]);
    }
  }

  /** A key is produced exactly when some entry trims to it. */
  lemma {:induction false} KeysMembers(items: seq<Json>, x: string)
    ensures x in Keys(items) <==> x != "" && exists i :: 0 <= i < |items| && TrimValue(items[i]) == x
  {
    if items != [] {
      KeysMembers(items[1..], x);
      if exists i :: 0 <= i < |items| && TrimValue(items[i]) == x {
        var i :| 0 <= i < |items| && TrimValue(items[i]) == x;
        if i > 0 { assert TrimValue(items[1..][i - 1]) == x; }
      }
      if exists i :: 0 <= i < |items[1..]| && TrimValue(items[1..][i]) == x {
        var i :| 0 <= i < |items[1..]| && TrimValue(items[1..][i]) == x;
        assert TrimValue(items[i + 1]) == x;
      }
    }
  }

  /** Falsy entries trim to "", so the `filter(Boolean)` in front of the tags loop changes nothing. */
  lemma {:induction false} KeysSkipFalsy(items: seq<Json>)
    ensures Keys(Filter(items, Truthy)) == Keys(items)
  {
    if items != [] {
      KeysSkipFalsy(items[1..]);
      if Truthy(items[0]) {
        var f := Filter(items, Truthy);
        assert f[0] == items[0] && f[1..] == Filter(items[1..], Truthy);
      }
    }
  }

  lemma {:induction false} KeysAppend(a: seq<Json>, b: seq<Json>)
    ensures Keys(a + b) == Keys(a) + Keys(b)
  {
    if a != [] {
      assert (a + b)[0] == a[0] && (a + b)[1..] == a[1..] + b;
      KeysAppend(a[1..], b);
    } else {
      assert a + b == b;
    }
  }

  lemma DedupeKeepsClean(s: seq<string>, seen: set<string>)
    requires CleanKeys(s)
    ensures CleanKeys(Dedupe(s, seen))
  {
    var r := Dedupe(s, seen);
    DedupeSpec(s, seen);
    forall i | 0 <= i < |r| ensures r[i] != "" && IsTrimmed(r[i]) {
      var j :| 0 <= j < |s| && s[j] == r[i];
    }
  }

  /** The keys `FMT.tags` walks: `tags.filter(Boolean)` when `tags` is an array, else nothing. */
  function TagKeys(tags: Json): seq<string> {
    Keys(Filter(ArrayOr(tags), Truthy))
  }

  /** `FMT.tags(tags)` before the limit is applied: the de-duplicated keys. */
  function UniqueTags(tags: Json): (r: seq<string>)
    ensures Distinct(r) && CleanKeys(r)
  {
    KeysClean(Filter(ArrayOr(tags), Truthy));
    DedupeKeepsClean(TagKeys(tags), {});
    DedupeSpec(TagKeys(tags), {});
    Dedupe(TagKeys(tags), {})
  }

  /** `FMT.tags(tags, limit)` */
  function Tags(tags: Json, limit: Json): (r: seq<string>)
    ensures Distinct(r) && CleanKeys(r)
    ensures !tags.JArr? ==> r == []
    ensures limit.JNum? ==>
      |r| == (if limit.n <= 0 then 0 else if limit.n < |UniqueTags(tags)| then limit.n else |UniqueTags(tags)|)
    ensures !limit.JNum? ==> r == UniqueTags(tags)
    ensures |r| <= |UniqueTags(tags)| && r == UniqueTags(tags)[..|r|]
  {
    var u := UniqueTags(tags);
    var n := if limit.JNum? then limit.n else |u|;
    Take(u, if n > 0 then n else 0)
  }

  /** Without a limit, a tag is returned exactly when some array entry trims to it. */
  lemma TagsMembers(tags: Json, x: string)
    ensures x in Tags(tags, JUndefined) <==>
      x != "" && exists i :: 0 <= i < |ArrayOr(tags)| && TrimValue(ArrayOr(tags)[i]) == x
  {
    KeysSkipFalsy(ArrayOr(tags));
    KeysMembers(ArrayOr(tags), x);
    var keys := TagKeys(tags);
    var u := Tags(tags, JUndefined);
    DedupeSpec(keys, {});
    if x in keys {
      var k :| 0 <= k < |keys| && keys[k] == x;
    }
    if x in u {
      var k :| 0 <= k < |u| && u[k] == x;
    }
  }

  /** Tags come out in the order of their first occurrence. */
  lemma TagsFirstOccurrence(tags: Json, limit: Json)
    ensures InFirstOccurrenceOrder(Tags(tags, limit), TagKeys(tags))
  {
    DedupeFirstOccurrenceOrder(TagKeys(tags), {});
  }

  /** The usage example in the header of format.js: two distinct tags under a limit of two come back unchanged. */
  lemma TagsDocExample(a: string, b: string)
    requires a == "新手" && b == "入門"
    ensures Tags(JArr([JStr(a), JStr(b)]), JNum(2)) == [a, b]
  {
    var items := [JStr(a), JStr(b)];
    FilterAllPass(items, Truthy);
    TrimOfTrimmed(a);
    TrimOfTrimmed(b);
    assert items[1..] == [JStr(b)];
    assert Keys(items) == [a, b];
    assert a[0] != b[0];
    assert [a, b] == [a] + [b];
    DedupeStep(a, [b], {});
    DedupeStep(b, [], {a});
  }

  /** The tag keys of one item: `Array.isArray(a && a.tags) ? a.tags : []`, trimmed, blanks dropped. */
  function ArticleTagKeys(a: Json): seq<string> {
    Keys(ArrayOr(Get(a, "tags")))
  }

  /** The keys the nested loops of `collectTags` feed into the Set, in visiting order. */
  function AllTagKeys(list: seq<Json>): seq<string> {
    if list == [] then [] else ArticleTagKeys(list[0]) + AllTagKeys(list[1..])
  }

  lemma {:induction false} AllTagKeysClean(list: seq<Json>)
    ensures CleanKeys(AllTagKeys(list))
  {
    if list != [] {
      KeysClean(ArrayOr(Get(list[0], "tags")));
      AllTagKeysClean(list[1..]);
    }
  }

  lemma {:induction false} AllTagKeysMembers(list: seq<Json>, x: string)
    ensures x in AllTagKeys(list) <==> exists i :: 0 <= i < |list| && x in ArticleTagKeys(list[i])
  {
    if list != [] {
      AllTagKeysMembers(list[1..], x);
      if exists i :: 0 <= i < |list| && x in ArticleTagKeys(list[i]) {
        var i :| 0 <= i < |list| && x in ArticleTagKeys(list[i]);
        if i > 0 { assert list[1..][i - 1] == list[i]; }
      }
      if exists i :: 0 <= i < |list[1..]| && x in ArticleTagKeys(list[1..][i]) {
        var i :| 0 <= i < |list[1..]| && x in ArticleTagKeys(list[1..][i]);
        assert list[i + 1] == list[1..][i];
      }
    }
  }

  /** `FMT.collectTags(articles)`: a Set's insertion order is first-occurrence order. */
  function CollectTags(articles: Json): (r: seq<string>)
    ensures Distinct(r)
    ensures !articles.JArr? ==> r == []
  {
    DedupeSpec(AllTagKeys(ArrayOr(articles)), {});
    Dedupe(AllTagKeys(ArrayOr(articles)), {})
  }

  /** Collected tags are clean, and listed in the order they first appear. */
  lemma CollectTagsOrder(articles: Json)
    ensures CleanKeys(CollectTags(articles))
    ensures InFirstOccurrenceOrder(CollectTags(articles), AllTagKeys(ArrayOr(articles)))
  {
    var keys := AllTagKeys(ArrayOr(articles));
    AllTagKeysClean(ArrayOr(articles));
    DedupeKeepsClean(keys, {});
    DedupeFirstOccurrenceOrder(keys, {});
  }

  /** Some item's `tags` array has an entry that trims to `x`. */
  predicate SomeTagTrimsTo(list: seq<Json>, x: string) {
    exists i, j :: 0 <= i < |list| && 0 <= j < |ArrayOr(Get(list[i], "tags"))| && TrimValue(ArrayOr(Get(list[i], "tags"))[j]) == x
  }

  /** A tag is collected exactly when some item's `tags` array has an entry that trims to it. */
  lemma CollectTagsMembers(articles: Json, x: string)
    ensures x in CollectTags(articles) <==> x != "" && SomeTagTrimsTo(ArrayOr(articles), x)
  {
    var list := ArrayOr(articles);
    var keys := AllTagKeys(list);
    var r := CollectTags(articles);
    AllTagKeysMembers(list, x);
    DedupeSpec(keys, {});
    if x in r {
      var k :| 0 <= k < |r| && r[k] == x;
      var i :| 0 <= i < |list| && x in ArticleTagKeys(list[i]);
      KeysMembers(ArrayOr(Get(list[i], "tags")), x);
    }
    if x != "" && SomeTagTrimsTo(list, x) {
      var i, j :| 0 <= i < |list| && 0 <= j < |ArrayOr(Get(list[i], "tags"))| &&
        TrimValue(ArrayOr(Get(list[i], "tags"))[j]) == x;
      KeysMembers(ArrayOr(Get(list[i], "tags")), x);
      var p :| 0 <= p < |keys| && keys[p] == x;
    }
  }

  lemma KeysStep(s: seq<Json>, j: nat)
    requires j < |s|
    ensures Keys(s[j..]) == KeyList(TrimValue(s[j])) + Keys(s[j + 1..])
  {
    assert s[j..][0] == s[j] && s[j..][1..] == s[j + 1..];
  }

  lemma DedupeStep(k: string, rest: seq<string>, seen: set<string>)
    ensures Dedupe([k] + rest, seen) == if k in seen then Dedupe(rest, seen) else [k] + Dedupe(rest, seen + {k})
  {
    assert ([k] + rest)[0] == k && ([k] + rest)[1..] == rest;
  }

  /** One turn of the inner loop keeps the Set and the output list in step with `Dedupe`. */
  lemma AddKeyStep(r: seq<string>, seen: set<string>, key: string, rest: seq<string>)
    ensures var add := key != "" && key !in seen;
      var r', seen' := (if add then r + [key] else r), (if add then seen + {key} else seen);
      && r' + Dedupe(rest, seen') == r + Dedupe(KeyList(key) + rest, seen)
      && seen' + Elems(rest) == seen + Elems(KeyList(key) + rest)
  {
    if key == "" {
      assert KeyList(key) + rest == rest;
    } else {
      assert KeyList(key) + rest == [key] + rest;
      DedupeStep(key, rest, seen);
      ElemsCons(key, rest);
      if key !in seen {
        assert (r + [key]) + Dedupe(rest, seen + {key}) == r + ([key] + Dedupe(rest, seen + {key}));
      }
    }
  }

  lemma ElemsCons(k: string, rest: seq<string>)
    ensures Elems([k] + rest) == {k} + Elems(rest)
  {
  }

  /** The inner `forEach` of `collectTags`: adds one item's keys to the Set. */
  method AddTagKeys(tags: seq<Json>, seen0: set<string>, r0: seq<string>) returns (seen: set<string>, r: seq<string>)
    ensures r == r0 + Dedupe(Keys(tags), seen0)
    ensures seen == seen0 + Elems(Keys(tags))
  {
    seen, r := seen0, r0;
    var j := 0;
    while j < |tags|
      invariant 0 <= j <= |tags|
      invariant r + Dedupe(Keys(tags[j..]), seen) == r0 + Dedupe(Keys(tags), seen0)
      invariant seen + Elems(Keys(tags[j..])) == seen0 + Elems(Keys(tags))
    {
      var key := TrimValue(tags[j]);
      KeysStep(tags, j);
      AddKeyStep(r, seen, key, Keys(tags[j + 1..]));
      if key != "" && key !in seen {
        seen := seen + {key};
        r := r + [key];
      }
      j := j + 1;
    }
    assert tags[j..] == [];
  }

  /** `FMT.collectTags` as written: nested `forEach` loops adding to a Set, then `Array.from`. */
  method CollectTagsLoop(articles: Json) returns (r: seq<string>)
    ensures r == CollectTags(articles)
  {
    var list := ArrayOr(articles);
    var seen: set<string> := {};
    r := [];
    var i := 0;
    while i < |list|
      invariant 0 <= i <= |list|
      invariant r == Dedupe(AllTagKeys(list[..i]), {})
      invariant seen == Elems(AllTagKeys(list[..i]))
    {
      CollectStep(list, i);
      seen, r := AddTagKeys(ArrayOr(Get(list[i], "tags")), seen, r);
      i := i + 1;
    }
    assert list[..i] == list;
  }

  /** Visiting one more item appends its keys, filtered against everything met so far. */
  lemma CollectStep(list: seq<Json>, i: nat)
    requires i < |list|
    ensures var done, keys := AllTagKeys(list[..i]), ArticleTagKeys(list[i]);
      && Dedupe(AllTagKeys(list[..i + 1]), {}) == Dedupe(done, {}) + Dedupe(keys, Elems(done))
      && Elems(AllTagKeys(list[..i + 1])) == Elems(done) + Elems(keys)
  {
    var done, keys := AllTagKeys(list[..i]), ArticleTagKeys(list[i]);
    AllTagKeysSnoc(list, i);
    DedupeAppend(done, keys, {});
    ElemsAppend(done, keys);
    assert {} + Elems(done) == Elems(done);
  }

  lemma AllTagKeysSnoc(list: seq<Json>, i: nat)
    requires i < |list|
    ensures AllTagKeys(list[..i + 1]) == AllTagKeys(list[..i]) + ArticleTagKeys(list[i])
  {
    var keys := ArticleTagKeys(list[i]);
    AllTagKeysAppend(list[..i], [list[i]]);
    assert list[..i + 1] == list[..i] + [list[i]];
    assert AllTagKeys([list[i]]) == keys + AllTagKeys([]);
    assert keys + AllTagKeys([]) == keys;
  }

  lemma {:induction false} AllTagKeysAppend(a: seq<Json>, b: seq<Json>)
    ensures AllTagKeys(a + b) == AllTagKeys(a) + AllTagKeys(b)
  {
    if a == [] {
      assert a + b == b;
    } else {
      assert (a + b)[0] == a[0] && (a + b)[1..] == a[1..] + b;
      AllTagKeysAppend(a[1..], b);
    }
  }

  /** `FMT.personLine(name, role)` */
  function PersonLine(name: Json, role: Json): (line: string)
    ensures line == "" <==> TrimValue(name) == "" && TrimValue(role) == ""
  {
    var n := TrimValue(name);
    var r := TrimValue(role);
    if n != "" && r != "" then n + "｜" + r
    else if n != "" then n else r
  }

  /**
   * With both parts present, the line is the trimmed name, "｜", then the
   * trimmed role; when the name holds no "｜" that separator is the first.
   */
  lemma PersonLineSplits(name: Json, role: Json)
    requires TrimValue(name) != "" && TrimValue(role) != ""
    ensures var line, n := PersonLine(name, role), TrimValue(name);
      && line[|n|] == '｜'
      && line[..|n|] == n && line[|n| + 1..] == TrimValue(role)
      && ('｜' !in n ==> '｜' !in line[..|n|])
  {
    var n := TrimValue(name);
    var line := PersonLine(name, role);
    assert line[..|n|] == n;
  }

  /** With one part blank, the line is exactly the other part. */
  lemma PersonLineOnePart(name: Json, role: Json)
    ensures TrimValue(role) == "" ==> PersonLine(name, role) == TrimValue(name)
    ensures TrimValue(name) == "" ==> PersonLine(name, role) == TrimValue(role)
  {
  }
}

=== FILE: js.dfy ===
/**
 * The value model shared by every page script: the JSON values the scripts
 * receive, plus `undefined` (what a missing property reads as), JavaScript
 * truthiness, property lookup and the `String(v)` conversion.
 */
module Js {

  datatype Option<+T> = None | Some(value: T)

  /** A computation that either returns a value or raises. */
  datatype Result<+T, +E> = Ok(value: T) | Err(error: E)

  /** The errors the modelled code can raise. */
  datatype JsError =
    | TypeError                                               // property read on null, method missing on a non-string
    | NetworkError(reason: string)                            // the transport itself failed
    | FetchFailed(url: string, status: int, statusText: string) // fetch.js: non-ok HTTP status
    | JsonParseFailed(url: string)                            // fetch.js: body is not JSON
    | FetchJsonFailed(status: int, url: string)               // app.js: non-ok HTTP status
    | SyntaxError                                             // app.js: body is not JSON (unwrapped)

  /** Numbers are integers in this model; see README. */
  datatype Json =
    | JUndefined
    | JNull
    | JBool(b: bool)
    | JNum(n: int)
    | JStr(s: string)
    | JArr(items: seq<Json>)
    | JObj(fields: map<string, Json>)

  /** JavaScript truthiness: `undefined`, `null`, `false`, `0` and `""` are falsy. */
  predicate Truthy(v: Json) {
    match v
    case JUndefined => false
    case JNull => false
    case JBool(b) => b
    case JNum(n) => n != 0
    case JStr(s) => s != ""
    case JArr(_) => true
    case JObj(_) => true
  }

  /** `v === undefined || v === null` */
  predicate Nullish(v: Json) {
    v.JUndefined? || v.JNull?
  }

  /** `a || b` */
  function Or(a: Json, b: Json): Json {
    if Truthy(a) then a else b
  }

  /** `v.key` for the keys the scripts read: own properties of an object, `undefined` otherwise. */
  function Get(v: Json, key: string): Json {
    if v.JObj? && key in v.fields then v.fields[key] else JUndefined
  }

  /** `Array.isArray(v) ? v : []` */
  function ArrayOr(v: Json): seq<Json> {
    if v.JArr? then v.items else []
  }

  /** `(s || "").toString()` */
  function OrEmptyString(v: Json): string {
    if Truthy(v) then ToStr(v) else ""
  }

  /** Decimal digits of a natural number. */
  function NatToString(n: nat): (r: string)
    ensures |r| >= 1
    ensures forall i :: 0 <= i < |r| ==> '0' <= r[i] <= '9'
    ensures n > 0 ==> r[0] != '0'
  {
    if n < 10 then [DigitChar(n)] else NatToString(n / 10) + [DigitChar(n % 10)]
  }

  function DigitChar(d: nat): (c: char)
    requires d < 10
    ensures '0' <= c <= '9'
  {
    ('0' as int + d) as char
  }

  function DigitValue(c: char): (d: nat)
    requires '0' <= c <= '9'
    ensures d < 10 && DigitChar(d) == c
  {
    c as nat - '0' as nat
  }

  /** Reads back a string of decimal digits; the partner of NatToString. */
  function ParseDigits(s: string): nat
    requires forall i :: 0 <= i < |s| ==> '0' <= s[i] <= '9'
  {
    if s == [] then 0 else ParseDigits(s[..|s| - 1]) * 10 + DigitValue(s[|s| - 1])
  }

  lemma {:induction false} ParseNatToString(n: nat)
    ensures ParseDigits(NatToString(n)) == n
  {
    if n >= 10 {
      var r := NatToString(n);
      assert r[..|r| - 1] == NatToString(n / 10);
      ParseNatToString(n / 10);
    }
  }

  /** NatToString is injective, so distinct indices give distinct property keys. */
  lemma NatToStringInjective(a: nat, b: nat)
    requires NatToString(a) == NatToString(b)
    ensures a == b
  {
    ParseNatToString(a);
    ParseNatToString(b);
  }

  /** `String(n)` for an integer. */
  function IntToString(i: int): (r: string)
    ensures i < 0 <==> (|r| > 0 && r[0] == '-')
  {
    if i < 0 then "-" + NatToString(-i) else NatToString(i)
  }

  /** `String(v)`: arrays join their elements with "," (null and undefined as ""), objects print as "[object Object]". */
  function ToStr(v: Json): string
    decreases v
  {
    match v
    case JUndefined => "undefined"
    case JNull => "null"
    case JBool(b) => if b then "true" else "false"
    case JNum(n) => IntToString(n)
    case JStr(s) => s
    case JArr(xs) => ItemsToStr(v, 0)
    case JObj(_) => "[object Object]"
  }

  function ItemsToStr(v: Json, i: nat): string
    requires v.JArr? && i <= |v.items|
    decreases v, |v.items| - i
  {
    if i == |v.items| then ""
    else
      var x := v.items[i];
      (if i > 0 then "," else "") + (if Nullish(x) then "" else ToStr(x)) + ItemsToStr(v, i + 1)
  }

  /** Own enumerable properties, as `Object.entries` and `Object.assign` see them. */
  function OwnProps(v: Json): (r: map<string, Json>)
    ensures v.JObj? ==> r == v.fields
    ensures v.JArr? ==> forall i :: 0 <= i < |v.items| ==> NatToString(i) in r && r[NatToString(i)] == v.items[i]
    ensures v.JStr? ==> forall i :: 0 <= i < |v.s| ==> NatToString(i) in r && r[NatToString(i)] == JStr([v.s[i]])
    ensures !v.JObj? && !v.JArr? && !v.JStr? ==> r == map[]
  {
    match v
    case JObj(f) => f
    case JArr(xs) => IndexMap(xs, 0)
    case JStr(s) => IndexMap(seq(|s|, i requires 0 <= i < |s| => JStr([s[i]])), 0)
    case _ => map[]
  }

  /** The index-keyed properties `xs[i..]` has as an array. */
  function IndexMap(xs: seq<Json>, i: nat): (r: map<string, Json>)
    requires i <= |xs|
    ensures forall j :: i <= j < |xs| ==> NatToString(j) in r && r[NatToString(j)] == xs[j]
    ensures forall k :: k in r ==> exists j :: i <= j < |xs| && k == NatToString(j)
    decreases |xs| - i
  {
    if i == |xs| then map[]
    else
      var rest := IndexMap(xs, i + 1);
      LaterKeysDiffer(i, |xs|);
      rest[NatToString(i) := xs[i]]
  }

  lemma LaterKeysDiffer(i: nat, n: nat)
    ensures forall j :: i < j < n ==> NatToString(j) != NatToString(i)
  {
    forall j | i < j < n ensures NatToString(j) != NatToString(i) {
      if NatToString(j) == NatToString(i) { NatToStringInjective(j, i); }
    }
  }
}

=== FILE: seqs.dfy ===
/**
 * Order-preserving list operations behind `Array.prototype.filter`,
 * `slice(0, n)`, `flatMap` and the Set-based de-duplication loops.
 */
module Seqs {

  /** `a` can be obtained from `b` by deleting elements, keeping the order of the rest. */
  predicate IsSubseq<T(==)>(a: seq<T>, b: seq<T>)
    decreases |b|
  {
    a == [] || (b != [] && (if a[0] == b[0] then IsSubseq(a[1..], b[1..]) else IsSubseq(a, b[1..])))
  }

  lemma {:induction false} SubseqRefl<T>(a: seq<T>)
    ensures IsSubseq(a, a)
    decreases |a|
  {
    if a != [] { SubseqRefl(a[1..]); }
  }

  lemma {:induction false} SubseqMembers<T>(a: seq<T>, b: seq<T>)
    requires IsSubseq(a, b)
    ensures forall x :: x in a ==> x in b
    decreases |b|
  {
    if a != [] {
      if a[0] == b[0] {
        SubseqMembers(a[1..], b[1..]);
        forall x | x in a ensures x in b {
          if x != a[0] { assert x in a[1..]; }
        }
      } else {
        SubseqMembers(a, b[1..]);
      }
    }
  }

  /** `s.filter(p)` */
  function Filter<T>(s: seq<T>, p: T -> bool): (r: seq<T>)
    ensures |r| <= |s|
    ensures forall i :: 0 <= i < |r| ==> p(r[i])
  {
    if s == [] then []
    else if p(s[0]) then [s[0]] + Filter(s[1..], p)
    else Filter(s[1..], p)
  }

  /** A filter keeps exactly the elements that pass, in their original order. */
  lemma {:induction false} FilterIsSubseq<T>(s: seq<T>, p: T -> bool)
    ensures IsSubseq(Filter(s, p), s)
  {
    if s != [] {
      FilterIsSubseq(s[1..], p);
      var r := Filter(s, p);
      if p(s[0]) {
        assert r[0] == s[0] && r[1..] == Filter(s[1..], p);
      }
    }
  }

  lemma {:induction false} FilterMembers<T>(s: seq<T>, p: T -> bool, x: T)
    ensures x in Filter(s, p) <==> x in s && p(x)
  {
    if s != [] {
      FilterMembers(s[1..], p, x);
      assert x in s <==> x == s[0] || x in s[1..];
    }
  }

  /** Filtering with a predicate every element passes changes nothing. */
  lemma {:induction false} FilterAllPass<T>(s: seq<T>, p: T -> bool)
    requires forall i :: 0 <= i < |s| ==> p(s[i])
    ensures Filter(s, p) == s
  {
    if s != [] {
      FilterAllPass(s[1..], p);
    }
  }

  /** Two filters in a row are one filter by the conjunction. */
  lemma {:induction false} FilterFilter<T>(s: seq<T>, p: T -> bool, q: T -> bool, pq: T -> bool)
    requires forall x :: pq(x) == (p(x) && q(x))
    ensures Filter(Filter(s, p), q) == Filter(s, pq)
  {
    if s != [] {
      FilterFilter(s[1..], p, q, pq);
    }
  }

  /** `s.slice(0, n)` for a non-negative `n`. */
  function Take<T>(s: seq<T>, n: nat): (r: seq<T>)
    ensures |r| == if n < |s| then n else |s|
    ensures forall i :: 0 <= i < |r| ==> r[i] == s[i]
  {
    if n < |s| then s[..n] else s
  }

  /** Past a prefix `x`, the concatenation `x + y` reads as `y`. */
  lemma AppendAt<T>(x: seq<T>, y: seq<T>, i: nat)
    requires i < |y|
    ensures (x + y)[|x| + i] == y[i]
  {
  }

  /** `s.map(f)` */
  function Map<T, U>(s: seq<T>, f: T -> U): (r: seq<U>)
    ensures |r| == |s|
    ensures forall i :: 0 <= i < |s| ==> r[i] == f(s[i])
  {
    seq(|s|, i requires 0 <= i < |s| => f(s[i]))
  }

  /** `ss.flat()` */
  function Flatten<T>(ss: seq<seq<T>>): seq<T> {
    if ss == [] then [] else ss[0] + Flatten(ss[1..])
  }

  lemma {:induction false} FlattenMembers<T>(ss: seq<seq<T>>, x: T)
    ensures x in Flatten(ss) <==> exists i :: 0 <= i < |ss| && x in ss[i]
  {
    if ss != [] {
      FlattenMembers(ss[1..], x);
      if x in Flatten(ss[1..]) {
        var i :| 0 <= i < |ss[1..]| && x in ss[1..][i];
        assert x in ss[i + 1];
      }
      if exists i :: 0 <= i < |ss| && x in ss[i] {
        var i :| 0 <= i < |ss| && x in ss[i];
        if i > 0 { assert x in ss[1..][i - 1]; }
      }
    }
  }

  predicate Distinct<T(==)>(s: seq<T>) {
    forall i, j :: 0 <= i < j < |s| ==> s[i] != s[j]
  }

  /** Index of the first occurrence of `x` in `s`. */
  function FirstIndex<T(==)>(s: seq<T>, x: T): (k: nat)
    requires x in s
    ensures k < |s| && s[k] == x && x !in s[..k]
  {
    if s[0] == x then 0 else 1 + FirstIndex(s[1..], x)
  }

  /**
   * The Set-driven de-duplication loop: walk `s` once, keep an element when
   * it is not yet in `seen`, and add it to `seen`.
   */
  function Dedupe<T(==)>(s: seq<T>, seen: set<T>): seq<T> {
    if s == [] then []
    else if s[0] in seen then Dedupe(s[1..], seen)
    else [s[0]] + Dedupe(s[1..], seen + {s[0]})
  }

  /** The loop keeps one copy of every element not already seen, and nothing else. */
  lemma {:induction false} DedupeSpec<T>(s: seq<T>, seen: set<T>)
    ensures Distinct(Dedupe(s, seen))
    ensures forall i :: 0 <= i < |Dedupe(s, seen)| ==> Dedupe(s, seen)[i] in s && Dedupe(s, seen)[i] !in seen
    ensures forall i :: 0 <= i < |s| && s[i] !in seen ==> s[i] in Dedupe(s, seen)
  {
    if s != [] {
      if s[0] in seen {
        DedupeSpec(s[1..], seen);
      } else {
        DedupeSpec(s[1..], seen + {s[0]});
      }
      assert forall i :: 0 < i < |s| ==> s[i] == s[1..][i - 1];
    }
  }

  function Elems<T>(s: seq<T>): set<T> {
    set x | x in s
  }

  lemma ElemsAppend<T>(x: seq<T>, y: seq<T>)
    ensures Elems(x + y) == Elems(x) + Elems(y)
  {
  }

  /** De-duplicating a concatenation: the second part is filtered against everything the first part met. */
  lemma {:induction false} DedupeAppend<T>(xs: seq<T>, ys: seq<T>, seen: set<T>)
    ensures Dedupe(xs + ys, seen) == Dedupe(xs, seen) + Dedupe(ys, seen + Elems(xs))
  {
    if xs == [] {
      assert xs + ys == ys;
      assert seen + Elems(xs) == seen;
    } else {
      var x := xs[0];
      assert (xs + ys)[0] == x && (xs + ys)[1..] == xs[1..] + ys;
      assert Elems(xs) == {x} + Elems(xs[1..]);
      if x in seen {
        DedupeAppend(xs[1..], ys, seen);
        assert seen + Elems(xs) == seen + Elems(xs[1..]);
      } else {
        DedupeAppend(xs[1..], ys, seen + {x});
        assert seen + Elems(xs) == seen + {x} + Elems(xs[1..]);
      }
    }
  }

  lemma {:induction false} DedupeIsSubseq<T>(s: seq<T>, seen: set<T>)
    ensures IsSubseq(Dedupe(s, seen), s)
  {
    if s != [] {
      if s[0] in seen {
        DedupeIsSubseq(s[1..], seen);
        DedupeSpec(s[1..], seen);
      } else {
        DedupeIsSubseq(s[1..], seen + {s[0]});
      }
    }
  }

  /** The elements of `r` occur in `s`, and in the order of their first occurrences there. */
  predicate InFirstOccurrenceOrder<T(==)>(r: seq<T>, s: seq<T>) {
    && (forall i :: 0 <= i < |r| ==> r[i] in s)
    && (forall i, j :: 0 <= i < j < |r| ==> FirstIndex(s, r[i]) < FirstIndex(s, r[j]))
  }

  lemma FirstIndexTail<T>(s: seq<T>, x: T)
    requires x in s && x != s[0]
    ensures x in s[1..] && FirstIndex(s, x) == 1 + FirstIndex(s[1..], x)
  {
  }

  /** Order by first occurrence in `s[1..]` carries over to `s` for elements other than `s[0]`. */
  lemma OrderShift<T>(r: seq<T>, s: seq<T>)
    requires s != [] && InFirstOccurrenceOrder(r, s[1..])
    requires forall i :: 0 <= i < |r| ==> r[i] != s[0]
    ensures InFirstOccurrenceOrder(r, s)
  {
    forall i, j | 0 <= i < j < |r| ensures FirstIndex(s, r[i]) < FirstIndex(s, r[j]) {
      FirstIndexTail(s, r[i]);
      FirstIndexTail(s, r[j]);
    }
  }

  lemma OrderCons<T>(r: seq<T>, s: seq<T>)
    requires s != [] && InFirstOccurrenceOrder(r, s)
    requires forall i :: 0 <= i < |r| ==> r[i] != s[0]
    ensures InFirstOccurrenceOrder([s[0]] + r, s)
  {
    var r' := [s[0]] + r;
    forall i, j | 0 <= i < j < |r'| ensures FirstIndex(s, r'[i]) < FirstIndex(s, r'[j]) {
      assert r'[j] == r[j - 1];
      if i > 0 { assert r'[i] == r[i - 1]; }
    }
  }

  /** De-duplication keeps the first occurrences: kept elements appear in the order they were first met. */
  lemma {:induction false} DedupeFirstOccurrenceOrder<T>(s: seq<T>, seen: set<T>)
    ensures InFirstOccurrenceOrder(Dedupe(s, seen), s)
  {
    if s != [] {
      var seen' := if s[0] in seen then seen else seen + {s[0]};
      var rest := Dedupe(s[1..], seen');
      DedupeFirstOccurrenceOrder(s[1..], seen');
      DedupeSpec(s[1..], seen');
      OrderShift(rest, s);
      if s[0] !in seen {
        OrderCons(rest, s);
      }
    }
  }

  /**
   * `Array.prototype.sort` with a comparator, as a stable insertion sort:
   * `before(x, y)` says that `x`, met earlier, may stay ahead of `y`.
   */
  function SortBy<T>(s: seq<T>, before: (T, T) -> bool): seq<T> {
    if s == [] then [] else Insert(s[0], SortBy(s[1..], before), before)
  }

  /** Places `x` ahead of the first element it may precede. */
  function Insert<T>(x: T, s: seq<T>, before: (T, T) -> bool): seq<T> {
    if s == [] then [x]
    else if before(x, s[0]) then [x] + s
    else [s[0]] + Insert(x, s[1..], before)
  }

  lemma {:induction false} InsertPermutes<T>(x: T, s: seq<T>, before: (T, T) -> bool)
    ensures multiset(Insert(x, s, before)) == multiset(s) + multiset{x}
  {
    if s != [] {
      assert s == [s[0]] + s[1..];
      if !before(x, s[0]) {
        InsertPermutes(x, s[1..], before);
      }
    }
  }

  /** Sorting only reorders: every element is kept, as often as it occurs. */
  lemma {:induction false} SortByPermutes<T>(s: seq<T>, before: (T, T) -> bool)
    ensures multiset(SortBy(s, before)) == multiset(s)
  {
    if s != [] {
      SortByPermutes(s[1..], before);
      InsertPermutes(s[0], SortBy(s[1..], before), before);
      assert s == [s[0]] + s[1..];
    }
  }
}

=== FILE: strings.dfy ===
/**
 * The string primitives the scripts lean on: `trim`, `toLowerCase`,
 * `includes`, `startsWith`, `join` and single-character `replaceAll`.
 */
module Strings {

  /** ECMAScript WhiteSpace and LineTerminator code points, the set `String.prototype.trim` removes. */
  predicate IsSpace(c: char) {
    || c == ' ' || c == '\t' || c == '\n' || c == '\r'
    || c == '\U{000B}' || c == '\U{000C}' || c == '\U{00A0}' || c == '\U{1680}'
    || ('\U{2000}' <= c <= '\U{200A}')
    || c == '\U{2028}' || c == '\U{2029}' || c == '\U{202F}' || c == '\U{205F}'
    || c == '\U{3000}' || c == '\U{FEFF}'
  }

  predicate AllSpace(s: string) {
    forall i :: 0 <= i < |s| ==> IsSpace(s[i])
  }

  /** Neither end of `s` is white space. */
  predicate IsTrimmed(s: string) {
    s == [] || (!IsSpace(s[0]) && !IsSpace(s[|s| - 1]))
  }

  /** `s.trimStart()`: the suffix left after a run of leading spaces. */
  function TrimStart(s: string): (r: string)
    ensures |r| <= |s| && r == s[|s| - |r|..]
    ensures AllSpace(s[..|s| - |r|])
    ensures r == [] || !IsSpace(r[0])
  {
    if s != [] && IsSpace(s[0]) then TrimStart(s[1..]) else s
  }

  /** `s.trimEnd()`: the prefix left before a run of trailing spaces. */
  function TrimEnd(s: string): (r: string)
    ensures |r| <= |s| && r == s[..|r|]
    ensures AllSpace(s[|r|..])
    ensures r == [] || !IsSpace(r[|r| - 1])
  {
    if s != [] && IsSpace(s[|s| - 1]) then TrimEnd(s[..|s| - 1]) else s
  }

  /** `s.trim()`: drops leading spaces one at a time, then the trailing run. */
  function Trim(s: string): (r: string)
    ensures IsTrimmed(r) && |r| <= |s|
  {
    if s != [] && IsSpace(s[0]) then Trim(s[1..])
    else
      var r := TrimEnd(s);
      assert r == [] || r[0] == s[0];
      r
  }

  /** Trim removes exactly a blank prefix and a blank suffix: what is left is a middle slice of the input. */
  lemma {:induction false} TrimIsMiddle(s: string) returns (a: nat)
    ensures a + |Trim(s)| <= |s| && Trim(s) == s[a..a + |Trim(s)|]
    ensures AllSpace(s[..a]) && AllSpace(s[a + |Trim(s)|..])
  {
    if s != [] && IsSpace(s[0]) {
      var t := s[1..];
      var b := TrimIsMiddle(t);
      a := b + 1;
      MiddleShift(s, b, Trim(t));
    } else {
      a := 0;
    }
  }

  lemma MiddleShift(s: string, b: nat, r: string)
    requires s != [] && IsSpace(s[0])
    requires b + |r| <= |s| - 1 && r == s[1..][b..b + |r|]
    requires AllSpace(s[1..][..b]) && AllSpace(s[1..][b + |r|..])
    ensures r == s[b + 1..b + 1 + |r|]
    ensures AllSpace(s[..b + 1]) && AllSpace(s[b + 1 + |r|..])
  {
    assert s[1..][b + |r|..] == s[b + 1 + |r|..];
    assert s[..b + 1] == [s[0]] + s[1..][..b];
  }

  /** Trimming both ends at once agrees with `trimStart` followed by `trimEnd`. */
  lemma {:induction false} TrimIsStartThenEnd(s: string)
    ensures Trim(s) == TrimEnd(TrimStart(s))
  {
    if s != [] && IsSpace(s[0]) {
      TrimIsStartThenEnd(s[1..]);
    }
  }

  lemma TrimOfTrimmed(s: string)
    requires IsTrimmed(s)
    ensures Trim(s) == s
  {
  }

  /** Trimming twice is trimming once. */
  lemma TrimIdempotent(s: string)
    ensures Trim(Trim(s)) == Trim(s)
  {
    TrimOfTrimmed(Trim(s));
  }

  /** A trimmed string is empty exactly when the input was all white space. */
  lemma {:induction false} TrimEmptyIffBlank(s: string)
    ensures Trim(s) == [] <==> AllSpace(s)
  {
    if s != [] && IsSpace(s[0]) {
      TrimEmptyIffBlank(s[1..]);
      assert AllSpace(s) <==> AllSpace(s[1..]);
    } else if s != [] {
      assert !AllSpace(s);
    }
  }

  /** ASCII `toLowerCase` on one character. */
  function LowerChar(c: char): char {
    if 'A' <= c <= 'Z' then (c as int + 32) as char else c
  }

  lemma LowerCharSpace(c: char)
    ensures IsSpace(LowerChar(c)) == IsSpace(c)
  {
    if 'A' <= c <= 'Z' {
      assert !IsSpace(c) && !IsSpace(LowerChar(c));
    }
  }

  predicate HasNoUpper(s: string) {
    forall i :: 0 <= i < |s| ==> !('A' <= s[i] <= 'Z')
  }

  /** `s.toLowerCase()`, restricted to ASCII letters. */
  function Lower(s: string): (r: string)
    ensures |r| == |s|
    ensures forall i :: 0 <= i < |s| ==> r[i] == LowerChar(s[i])
    ensures HasNoUpper(r)
  {
    seq(|s|, i requires 0 <= i < |s| => LowerChar(s[i]))
  }

  lemma LowerOfLower(s: string)
    requires HasNoUpper(s)
    ensures Lower(s) == s
  {
  }

  /** Lower-casing never touches white space, so it commutes with trimming. */
  lemma {:induction false} LowerTrimCommute(s: string)
    ensures Trim(Lower(s)) == Lower(Trim(s))
  {
    var l := Lower(s);
    if s != [] {
      LowerCharSpace(s[0]);
    }
    if s != [] && IsSpace(s[0]) {
      assert l[1..] == Lower(s[1..]);
      LowerTrimCommute(s[1..]);
    } else {
      LowerTrimEnd(s);
    }
  }

  lemma {:induction false} LowerTrimEnd(s: string)
    ensures TrimEnd(Lower(s)) == Lower(TrimEnd(s))
    decreases |s|
  {
    var l := Lower(s);
    if s != [] {
      LowerCharSpace(s[|s| - 1]);
    }
    if s != [] && IsSpace(s[|s| - 1]) {
      assert l[..|s| - 1] == Lower(s[..|s| - 1]);
      LowerTrimEnd(s[..|s| - 1]);
    }
  }

  /** `s.startsWith(p)` */
  predicate StartsWith(s: string, p: string) {
    |p| <= |s| && s[..|p|] == p
  }

  predicate OccursAt(hay: string, q: string, i: int) {
    0 <= i && i + |q| <= |hay| && hay[i..i + |q|] == q
  }

  /** `hay.includes(q)` */
  predicate Contains(hay: string, q: string) {
    exists i :: 0 <= i <= |hay| - |q| && OccursAt(hay, q, i)
  }

  lemma ContainsEmpty(hay: string)
    ensures Contains(hay, "")
  {
    assert OccursAt(hay, "", 0);
  }

  /** A part of a joined string is found in it. */
  lemma ContainsPart(sep: string, parts: seq<string>, k: int, q: string)
    requires 0 <= k < |parts| && Contains(parts[k], q)
    ensures Contains(Join(sep, parts), q)
  {
    var i :| 0 <= i <= |parts[k]| - |q| && OccursAt(parts[k], q, i);
    var off := JoinOffset(sep, parts, k);
    assert OccursAt(Join(sep, parts), q, off + i) by {
      var h := Join(sep, parts);
      assert h[off + i..off + i + |q|] == h[off..off + |parts[k]|][i..i + |q|];
    }
  }

  /** Where `parts[k]` begins inside `Join(sep, parts)`. */
  lemma {:induction false} JoinOffset(sep: string, parts: seq<string>, k: int) returns (off: int)
    requires 0 <= k < |parts|
    ensures 0 <= off && off + |parts[k]| <= |Join(sep, parts)|
    ensures Join(sep, parts)[off..off + |parts[k]|] == parts[k]
    decreases |parts|
  {
    if k == 0 {
      off := 0;
      if |parts| > 1 {
        assert Join(sep, parts) == parts[0] + sep + Join(sep, parts[1..]);
      }
    } else {
      var sub := JoinOffset(sep, parts[1..], k - 1);
      var head := parts[0] + sep;
      off := |head| + sub;
      assert Join(sep, parts) == head + Join(sep, parts[1..]);
    }
  }

  /**
   * The converse for a one-character separator the query does not contain:
   * an occurrence cannot straddle a separator, so it lies inside one part.
   */
  lemma {:induction false} ContainsJoinedPart(sep: char, parts: seq<string>, q: string) returns (k: int)
    requires parts != [] && sep !in q && Contains(Join([sep], parts), q)
    ensures 0 <= k < |parts| && Contains(parts[k], q)
    decreases |parts|
  {
    var hay := Join([sep], parts);
    var i :| 0 <= i <= |hay| - |q| && OccursAt(hay, q, i);
    if |parts| == 1 {
      k := 0;
    } else {
      var p := parts[0];
      var rest := Join([sep], parts[1..]);
      assert hay == p + [sep] + rest;
      if i + |q| <= |p| {
        assert hay[i..i + |q|] == p[i..i + |q|];
        assert OccursAt(p, q, i);
        k := 0;
      } else if i > |p| {
        var j := i - |p| - 1;
        assert hay[i..i + |q|] == rest[j..j + |q|];
        assert OccursAt(rest, q, j);
        var k' := ContainsJoinedPart(sep, parts[1..], q);
        k := k' + 1;
      } else {
        SeparatorInside(hay, p, sep, rest, q, i);
        assert false;
      }
    }
  }

  /** An occurrence that starts at or before the separator and ends after it contains the separator. */
  lemma SeparatorInside(hay: string, p: string, sep: char, rest: string, q: string, i: int)
    requires hay == p + [sep] + rest && OccursAt(hay, q, i) && i <= |p| < i + |q|
    ensures sep in q
  {
    assert q[|p| - i] == hay[|p|];
  }

  /** `parts.join(sep)` */
  function Join(sep: string, parts: seq<string>): string {
    if parts == [] then ""
    else if |parts| == 1 then parts[0]
    else parts[0] + sep + Join(sep, parts[1..])
  }

  /** `parts.join("")` */
  function Concat(parts: seq<string>): string {
    if parts == [] then "" else parts[0] + Concat(parts[1..])
  }

  lemma {:induction false} ConcatAppend(a: seq<string>, b: seq<string>)
    ensures Concat(a + b) == Concat(a) + Concat(b)
  {
    if a != [] {
      assert (a + b)[0] == a[0];
      assert (a + b)[1..] == a[1..] + b;
      ConcatAppend(a[1..], b);
      calc {
        Concat(a + b);
        a[0] + Concat(a[1..] + b);
        a[0] + (Concat(a[1..]) + Concat(b));
        (a[0] + Concat(a[1..])) + Concat(b);
      }
    } else {
      assert a + b == b;
    }
  }

  /** `s.replaceAll(c, rep)` for a one-character pattern. */
  function ReplaceAll(s: string, c: char, rep: string): (r: string)
    ensures c !in rep ==> c !in r
  {
    if s == [] then ""
    else (if s[0] == c then rep else [s[0]]) + ReplaceAll(s[1..], c, rep)
  }

  lemma {:induction false} ReplaceAllAppend(a: string, b: string, c: char, rep: string)
    ensures ReplaceAll(a + b, c, rep) == ReplaceAll(a, c, rep) + ReplaceAll(b, c, rep)
  {
    if a != [] {
      assert (a + b)[0] == a[0];
      assert (a + b)[1..] == a[1..] + b;
      ReplaceAllAppend(a[1..], b, c, rep);
      var h := if a[0] == c then rep else [a[0]];
      calc {
        ReplaceAll(a + b, c, rep);
        h + ReplaceAll(a[1..] + b, c, rep);
        h + (ReplaceAll(a[1..], c, rep) + ReplaceAll(b, c, rep));
        (h + ReplaceAll(a[1..], c, rep)) + ReplaceAll(b, c, rep);
      }
    } else {
      assert a + b == b;
    }
  }

  /** A character absent from the input and from the replacement is absent from the output. */
  lemma {:induction false} ReplaceAllKeepsAbsent(s: string, c: char, rep: string, d: char)
    requires d !in s && d !in rep
    ensures d !in ReplaceAll(s, c, rep)
  {
    if s != [] {
      ReplaceAllKeepsAbsent(s[1..], c, rep, d);
    }
  }

  lemma ReplaceAllAbsent(s: string, c: char, rep: string)
    requires c !in s
    ensures ReplaceAll(s, c, rep) == s
  {
  }
}

=== FILE: team.dfy ===
/**
 * The team page (`pages/team.js`): the member search and the grid it
 * renders, over the list `teamMembers` produced.
 */
module TeamPage {
  import opened Js
  import opened Strings
  import opened Seqs
  import opened Format
  import opened Fetch
  import opened Dom
  import opened Cards

  const TeamUrl := "../data/team.json"

  /** The fallback `{ members: [] }` handed to `safeJson`. */
  const EmptyTeam := JObj(map["members" := JArr([])])

  /** The searched fields, each normalised: name, role, bio, then every tag. */
  function MemberParts(m: Json): (r: seq<string>)
    ensures |r| == 3 + |TagList(m)|
  {
    [Normalize(Get(m, "name")), Normalize(Get(m, "role")), Normalize(Get(m, "bio"))] + NormalizeAll(TagList(m))
  }

  /** `matchMember(m, q)`: the fields joined by single spaces contain `q`. */
  predicate MatchMember(m: Json, q: string) {
    Contains(Join(" ", MemberParts(m)), q)
  }

  /** Some searched field of `m` contains `q` on its own. */
  predicate SomeFieldContains(m: Json, q: string) {
    || Contains(Normalize(Get(m, "name")), q)
    || Contains(Normalize(Get(m, "role")), q)
    || Contains(Normalize(Get(m, "bio")), q)
    || exists i :: 0 <= i < |TagList(m)| && Contains(Normalize(TagList(m)[i]), q)
  }

  /** A query found in one field matches the member. */
  lemma MatchMemberFromField(m: Json, q: string)
    requires SomeFieldContains(m, q)
    ensures MatchMember(m, q)
  {
    var head := [Normalize(Get(m, "name")), Normalize(Get(m, "role")), Normalize(Get(m, "bio"))];
    var tags := TagList(m);
    if Contains(Normalize(Get(m, "name")), q) {
      ContainsInFields(head, tags, q, 0);
    } else if Contains(Normalize(Get(m, "role")), q) {
      ContainsInFields(head, tags, q, 1);
    } else if Contains(Normalize(Get(m, "bio")), q) {
      ContainsInFields(head, tags, q, 2);
    } else {
      var i :| 0 <= i < |tags| && Contains(Normalize(tags[i]), q);
      ContainsInFields(head, tags, q, 3 + i);
    }
  }

  /**
   * For a query without a space the converse holds: an occurrence cannot
   * straddle the space between two fields, so a match lies inside one field.
   */
  lemma MatchMemberOnlyFields(m: Json, q: string)
    requires ' ' !in q && MatchMember(m, q)
    ensures SomeFieldContains(m, q)
  {
    var parts := MemberParts(m);
    var tags := TagList(m);
    var k := ContainsJoinedPart(' ', parts, q);
    if k >= 3 {
      assert parts[k] == Normalize(tags[k - 3]);
    }
  }

  /** The search input handler: the members to render for the box's value `input`. */
  function Search(members: seq<Json>, input: string): (r: seq<Json>)
    ensures Normalize(JStr(input)) == "" ==> r == members
    ensures |r| <= |members|
  {
    var q := Normalize(JStr(input));
    if q == "" then members else Filter(members, m => MatchMember(m, q))
  }

  /**
   * A non-empty query keeps the matching members, in their order, and only
   * them.
   */
  lemma SearchSpec(members: seq<Json>, input: string, m: Json)
    ensures IsSubseq(Search(members, input), members)
    ensures
      var q := Normalize(JStr(input));
      q != "" ==> (m in Search(members, input) <==> m in members && MatchMember(m, q))
  {
    var q := Normalize(JStr(input));
    if q == "" {
      SubseqRefl(members);
    } else {
      FilterIsSubseq(members, x => MatchMember(x, q));
      FilterMembers(members, x => MatchMember(x, q), m);
    }
  }

  /** The count hint of `renderList`. */
  function CountHint(list: seq<Json>): (h: string) {
    if |list| == 0 then "0 位成員" else NatToString(|list|) + " 位成員"
  }

  /** Both branches print the length: the hint's digits read back as the number of members. */
  lemma CountHintReadsBack(list: seq<Json>)
    ensures CountHint(list) == NatToString(|list|) + " 位成員"
    ensures ParseDigits(CountHint(list)[..|CountHint(list)| - 4]) == |list|
  {
    var h := CountHint(list);
    assert h[..|h| - 4] == NatToString(|list|);
    ParseNatToString(|list|);
  }

  /** `list.map(f)` where `f` may raise: the first raised error stops the map. */
  function MapOrRaise(list: seq<Json>, f: Json -> Result<Node, JsError>): (r: Result<seq<Node>, JsError>)
    ensures r.Ok? ==> |r.value| == |list|
    ensures r.Ok? ==> forall i :: 0 <= i < |list| ==> f(list[i]) == Ok(r.value[i])
  {
    if list == [] then Ok([])
    else
      var head := f(list[0]);
      var rest := MapOrRaise(list[1..], f);
      if head.Err? then Err(head.error)
      else if rest.Err? then Err(rest.error)
      else Ok([head.value] + rest.value)
  }

  /** The map raises exactly when some element raises, and then with the error of the first such element. */
  lemma {:induction false} MapOrRaiseFails(list: seq<Json>, f: Json -> Result<Node, JsError>)
    ensures MapOrRaise(list, f).Err? <==> exists i :: 0 <= i < |list| && f(list[i]).Err?
    ensures MapOrRaise(list, f).Err? ==>
      exists i :: 0 <= i < |list| && f(list[i]) == Err(MapOrRaise(list, f).error) &&
        forall j :: 0 <= j < i ==> f(list[j]).Ok?
  {
    if list != [] {
      MapOrRaiseFails(list[1..], f);
      if exists i :: 0 <= i < |list| && f(list[i]).Err? {
        var i :| 0 <= i < |list| && f(list[i]).Err?;
        if i > 0 { assert f(list[1..][i - 1]).Err?; }
      }
      if f(list[0]).Ok? && MapOrRaise(list[1..], f).Err? {
        var i :| 0 <= i < |list[1..]| && f(list[1..][i]) == Err(MapOrRaise(list[1..], f).error) &&
          forall j :: 0 <= j < i ==> f(list[1..][j]).Ok?;
        assert f(list[i + 1]).Err?;
        forall j | 0 <= j < i + 1 ensures f(list[j]).Ok? {
          if j > 0 { assert f(list[1..][j - 1]).Ok?; }
        }
      }
    }
  }

  /** `list.map(DOM.teamCard)` */
  function TeamCards(list: seq<Json>): (r: Result<seq<Node>, JsError>) {
    MapOrRaise(list, TeamCard)
  }

  /**
   * What `renderList(list)` leaves on the page. When a card raises, the grid
   * has been cleared and the hint set, but the fragment is never appended,
   * so no card is shown and the error escapes.
   */
  datatype GridView = GridView(hint: string, showEmpty: bool, cards: seq<Node>, raised: Option<JsError>)

  function RenderList(list: seq<Json>): (v: GridView)
    ensures v.showEmpty <==> list == []
    ensures v.hint == CountHint(list)
    ensures v.raised.None? ==> |v.cards| == |list|
    ensures v.raised.Some? ==> v.cards == []
  {
    if list == [] then GridView("0 位成員", true, [], None)
    else
      match TeamCards(list)
      case Ok(cards) => GridView(NatToString(|list|) + " 位成員", false, cards, None)
      case Err(e) => GridView(NatToString(|list|) + " 位成員", false, [], Some(e))
  }

  /** The grid shows every member's card, in order, unless some member's card raises. */
  lemma RenderListCards(list: seq<Json>)
    ensures RenderList(list).raised.Some? <==> exists i :: 0 <= i < |list| && TeamCard(list[i]).Err?
    ensures RenderList(list).raised.None? ==>
      forall i :: 0 <= i < |list| ==> TeamCard(list[i]) == Ok(RenderList(list).cards[i])
  {
    MapOrRaiseFails(list, TeamCard);
  }

  /** The members `init` loads: any failure gives `{ members: [] }`, normalised by `teamMembers`. */
  function LoadMembers(fetch: Transport): (members: seq<Json>)
    ensures GetJson(fetch, TeamUrl, JUndefined).Err? ==> members == []
  {
    TeamMembers(SafeJson(fetch, TeamUrl, EmptyTeam, JUndefined))
  }

  /** A failed load renders the empty state with "0 位成員". */
  lemma FailedLoadRendersEmpty(fetch: Transport)
    requires GetJson(fetch, TeamUrl, JUndefined).Err?
    ensures RenderList(LoadMembers(fetch)) == GridView("0 位成員", true, [], None)
  {
  }

  /**
   * The page after typing `input` into the search box. The listener is
   * attached only once the first render has finished, so when that render
   * raised the page stays as it was. Otherwise the members found are
   * rendered; each of their cards built the first time, so this never raises.
   */
  function AfterSearch(fetch: Transport, input: string): (v: GridView)
    ensures RenderList(LoadMembers(fetch)).raised.Some? ==> v == RenderList(LoadMembers(fetch))
    ensures RenderList(LoadMembers(fetch)).raised.None? ==>
      var found := Search(LoadMembers(fetch), input);
      && v.raised.None?
      && v.hint == CountHint(found)
      && |v.cards| == |found|
      && forall i :: 0 <= i < |found| ==> TeamCard(found[i]) == Ok(v.cards[i])
  {
    var members := LoadMembers(fetch);
    var initial := RenderList(members);
    if initial.raised.Some? then initial
    else
      var found := Search(members, input);
      RenderListCards(members);
      FoundCardsBuild(members, input);
      RenderListCards(found);
      RenderList(found)
  }

  /** A search only keeps members, so when every member's card builds, so does every card found. */
  lemma FoundCardsBuild(members: seq<Json>, input: string)
    requires forall i :: 0 <= i < |members| ==> TeamCard(members[i]).Ok?
    ensures forall i :: 0 <= i < |Search(members, input)| ==> TeamCard(Search(members, input)[i]).Ok?
  {
    var found := Search(members, input);
    forall i | 0 <= i < |found|
      ensures TeamCard(found[i]).Ok?
    {
      SearchSpec(members, input, found[i]);
      assert found[i] in found;
      if Normalize(JStr(input)) == "" {
        assert found == members;
      }
      var j :| 0 <= j < |members| && members[j] == found[i];
    }
  }

  /** Clearing the search box (or typing only spaces) renders the whole team again, exactly as `init` did. */
  lemma ClearedSearchIsInitial(fetch: Transport, input: string)
    requires AllSpace(input)
    ensures AfterSearch(fetch, input) == RenderList(LoadMembers(fetch))
  {
    TrimEmptyIffBlank(input);
    assert Normalize(JStr(input)) == "";
  }
}
